=== FILE: README.md ===
# GrippeGuard, modelled in Dafny

GrippeGuard is an influenza-surveillance dashboard. A Python back end cleans open
datasets, aggregates them and serves them over GraphQL. It covers emergency visits,
vaccination coverage, pharmacies and doses per campaign. A React front end turns
the served records into maps and charts. The back end also predicts the size of a
future vaccination campaign.

This project models the pure logic of both halves and proves what each piece
promises:

- **Chart aggregations.** Each chart component derives its series from a list of
  records and a `[lo, hi]` year range. The model gives every aggregation a
  declarative reference: which records contribute, the sum over their count, the
  first-appearance order of the groups, the ordering of the output. The models
  are `CoverageMap`, `HospitalisationMap`, `UrgencesMap`, `PharmacyMap`,
  `Choropleth`, `CoverageEvolution`, `LowCoverageRanking`, `AgeBandComparison`
  and `UrgencesByDate`.
- **Shared aggregation machinery.** Three modules carry it:
  - `Grouping` is the `Map`-based group-count-total loop, proved equal to a
    record-level definition.
  - `Sorting` is a stable sort that matches `Array.prototype.sort`.
  - `Text` holds the code-point string order, Python `int()` and JavaScript
    `parseInt`.
- **Filter and form state.**
  - `TimeSlicer` is the two-thumb year slider as a state machine.
  - `Sidebar` holds the filter handlers and the rule that disables one map
    selector's option.
  - `PredictionForm` is the validation, request and error-message logic of the
    prediction page.
- **Back end.**
  - `Base64` and `Pagination` model the GraphQL cursors and `paginate_results`.
  - `Schema` models the NaN-to-0 record conversion and the `predireCampagne`
    resolver.
  - `Campaigns` models the per-campaign aggregation and the prediction guard and
    index arithmetic.
  - `Transform` models the ETL transforms: postal code to department code, the
    pharmacy counts, the percentage scaling, the coverage mean and the geography
    joins.

The conventions follow from the program itself:

- A string field holds `""` where the program sees `null`, `undefined` or an
  empty string. The three are alike in every truthiness test, though not when
  interpolated into a template literal (see `LowCoverageRanking.DisplayName`
  under "Left out").
- A nullable number is an `Option`, with `None` for `null` and for NaN.
- Rates are exact `real`s.
- The browser's date parser, `new Date(...)`, becomes a function parameter, and so
  does the linear regression.

## Model

| member | source | states |
|---|---|---|
| Grouping.Accumulate | Frontend/src/components/charts/ChloropeteMap.jsx:36-55 | The `Map` loop that creates a group on first sight and adds one to its count and the value to its total gives exactly the record-level reference: the keys of the contributing records in first-appearance order, each with its count and total. |
| Grouping.SelectHasKey | Frontend/src/components/charts/ChloropeteMap.jsx:43-44 | A group exists for a key iff some record passing the filter carries that key. |
| Grouping.SelectKeysInRecordOrder | Frontend/src/components/charts/ChoroplethUrgences.jsx:69-97 | A `Map` iterates its groups in insertion order: a key is listed iff some record passing the filter carries it, and of two listed keys the earlier one has the earlier first contributing record. |
| Grouping.SelectMean | Frontend/src/components/charts/ChloropeteMap.jsx:57-62 | A group's mean is the sum of its contributing values over their number, and that number is positive. |
| Grouping.LastWins | Frontend/src/components/charts/ChoroplethUrgences.jsx:92-97 | Writing `result[key] = value` pair by pair leaves each key mapped to the value of its last pair, and a key appears iff some pair carries it. |
| Grouping.SumCountsCover | Frontend/src/components/charts/UrgencesHospitalisationsComparison.jsx:31-43 | Summed over any distinct list of keys that covers every group, the group counts add up to the number of contributing records. |
| Grouping.SelectGrandTotal | Backend/ml/preprocess.py:23-24 | The values of the grouped entries, taken entry by entry, add up to the sum of the values of the contributing records. |
| Grouping.GroupTotalsAddUp | Backend/ml/preprocess.py:23-24 | Looked up key by key over the listed keys, the group totals add up to the sum of the values of the contributing records. |
| Choropleth.ZeroFill | Frontend/src/components/charts/ChloropeteMap.jsx:96-105 | There is one location per geography feature, in feature order. Its value is the department's aggregate, or 0 when the department has none. |
| CoverageMap.DataByDept | Frontend/src/components/charts/ChloropeteMap.jsx:31-65 | Absent or empty data gives the empty map. A code is present iff a record with that code contributes: a non-empty code, a numeric positive rate and a year in range. Its value is the contributing rates' sum over their count, which is positive. |
| CoverageMap.ColouredIffContributing | Frontend/src/components/charts/ChloropeteMap.jsx:43-105 | On the drawn map a department gets a value above 0 iff one of its records contributes. |
| CoverageMap.NonPositiveIgnored | Frontend/src/components/charts/ChloropeteMap.jsx:43 | Appending a record with a missing, zero or negative rate leaves the map unchanged. |
| HospitalisationMap.DataByDept | Frontend/src/components/charts/ChoroplethHospitalisations.jsx:34-93 | Absent or empty data gives the empty map. A code is present iff a record with that code contributes: a numeric rate and a resolved year in range, with no positivity test. Its value times 100 is the contributing rates' sum over their count. |
| HospitalisationMap.UndatedExcluded | Frontend/src/components/charts/ChoroplethHospitalisations.jsx:48-68 | A record without a date has no year and never contributes when the range starts above year 0. |
| HospitalisationMap.FallbackYearUsed | Frontend/src/components/charts/ChoroplethHospitalisations.jsx:54-68 | A record whose date the browser cannot parse still contributes through the year of its first four-digit run. |
| Records.ResolveYear | Frontend/src/components/charts/ChoroplethHospitalisations.jsx:47-64 | A falsy date gives no year. Otherwise the result is the native year, or failing that the value of the leftmost four-digit run, which lies below 10000; if there is no such run, there is no year. |
| Records.NullYearOnlyInZeroRange | Frontend/src/components/charts/ChoroplethHospitalisations.jsx:68 | A null year passes the range test iff the range contains 0, because JavaScript compares `null` as 0. |
| Text.PyInt | Backend/src/schema.py:50 | `int(text)` succeeds iff the text, once stripped of surrounding whitespace, is an optional sign followed by at least one ASCII digit. The value is the digits' decimal value, negated after a minus. |
| Text.JsParseInt | Frontend/src/pages/Prediction.jsx:125 | `parseInt(text)` gives a number iff a digit follows the leading whitespace and an optional sign. The number is the value of the longest run of digits there, negated after a minus. |
| Text.JsParseIntAgreesWithPyInt | Frontend/src/pages/Prediction.jsx:125 | Every text Python `int()` accepts is read by `parseInt` as the same number. |
| Text.FirstFourDigits | Frontend/src/components/charts/ChoroplethUrgences.jsx:57-60 | A year is found iff the string has a run of four digits. It is the value of the leftmost such run. |
| UrgencesMap.Names | Frontend/src/components/charts/ChoroplethUrgences.jsx:69-84 | The department names that are grouped are exactly those with a contributing record: name and code non-empty, a numeric rate and a year in range. They are listed in the order of their first contributing records. |
| UrgencesMap.Assignments | Frontend/src/components/charts/ChoroplethUrgences.jsx:70-97 | There is one assignment per grouped name, and of two assignments the earlier belongs to the name whose first contributing record comes first. Each pairs the non-empty code of its name's first contributing record with the contributing rates' sum over their positive count. |
| UrgencesMap.Assignment | Frontend/src/components/charts/ChoroplethUrgences.jsx:70-97 | For a name with data the assigned code is the non-empty code of its first contributing record and the value is its rates' sum over their positive count. |
| UrgencesMap.AssignedCodes | Frontend/src/components/charts/ChoroplethUrgences.jsx:92-94 | A code is assigned iff it is the first code of some name with data. Such a code is never empty. |
| UrgencesMap.DataByDept | Frontend/src/components/charts/ChoroplethUrgences.jsx:32-100 | Absent or empty data gives the empty map. A code is present iff it is some contributing name's first code. Under it stands the mean of the name, among those sharing that first code, whose first contributing record comes latest, so a later name overwrites an earlier one with the same code. |
| PharmacyMap.Written | Frontend/src/components/charts/ChoroplethPharmacies.jsx:35-43 | A code is written iff it is non-empty and carried by some record. Its value is the count of the last record with that code; a null or 0 count is written as 0. |
| PharmacyMap.DataByDept | Frontend/src/components/charts/ChoroplethPharmacies.jsx:30-46 | Absent or empty data gives the empty map. Otherwise the last record of each non-empty code wins, with no time filter and no averaging. |
| PharmacyMap.SwapDistinctCodes | Frontend/src/components/charts/ChoroplethPharmacies.jsx:36-43 | Swapping two adjacent records with different codes does not change the map. |
| CoverageEvolution.Points | Frontend/src/components/charts/CouvertureAnnuelleEvolution.jsx:23-54 | There is one point per year with a contributing record, where the year is truthy and in range. Its mean counts a null rate as 0 in both the sum and the count. |
| CoverageEvolution.SortedPoints | Frontend/src/components/charts/CouvertureAnnuelleEvolution.jsx:56-62 | The points sorted by year have strictly ascending years. Each is a year with data and its mean, and every year with data is among them. |
| CoverageEvolution.EvolutionData | Frontend/src/components/charts/CouvertureAnnuelleEvolution.jsx:17-68 | The result is null iff the data is absent or empty. Otherwise `annees` and `moyennes` are parallel, the years are strictly ascending and are exactly the years with data, and each mean is that year's sum over its count. |
| CoverageEvolution.PlottedYearsInRange | Frontend/src/components/charts/CouvertureAnnuelleEvolution.jsx:30 | Every plotted year is non-zero and inside the selected range. |
| LowCoverageRanking.Depts | Frontend/src/components/charts/Top10DepartementsFaibleCouverture.jsx:26-66 | There is one department per name with a positive numeric rate in range, with "Département <code>" as the fallback name, listed in the order of their first contributing records. Each carries the code of its first record, its positive mean and its count. |
| LowCoverageRanking.SortedDepts | Frontend/src/components/charts/Top10DepartementsFaibleCouverture.jsx:69 | The sort keeps exactly the same departments, still one per name, in non-decreasing mean order. |
| LowCoverageRanking.Ranking | Frontend/src/components/charts/Top10DepartementsFaibleCouverture.jsx:69-72 | The ranking holds the first min(10, n) departments of the sorted list, distinct and in non-decreasing mean order. |
| LowCoverageRanking.LeftOutRankHigher | Frontend/src/components/charts/Top10DepartementsFaibleCouverture.jsx:69-72 | A department with data but missing from the ranking means the ranking is full, and every ranked mean is at most the missing department's mean. |
| LowCoverageRanking.TiesKeepFirstAppearance | Frontend/src/components/charts/Top10DepartementsFaibleCouverture.jsx:69-72 | Of two ranked departments with the same mean, the earlier one has the earlier first contributing record; for every mean value, the ranked departments carrying it are a prefix of those carrying it in first-appearance order. |
| LowCoverageRanking.Top10Data | Frontend/src/components/charts/Top10DepartementsFaibleCouverture.jsx:19-79 | The result is null iff the data is absent or empty. Otherwise `noms`, `codes` and `taux` are parallel and hold `min(10, number of departments)` entries. Each entry is a distinct department with data, with that department's code and mean, and `taux` is non-decreasing. A department with data that is not plotted means ten are plotted, each with a mean at most its own. |
| LowCoverageRanking.ColumnsOfRanking | Frontend/src/components/charts/Top10DepartementsFaibleCouverture.jsx:69-79 | The three columns split from the ranking are parallel, hold `min(10, number of departments)` distinct departments with their codes and means, rise in `taux`, and leave out only departments whose mean is at least every plotted one. |
| LowCoverageRanking.GetColor | Frontend/src/components/charts/Top10DepartementsFaibleCouverture.jsx:120-140 | If min equals max the colour is the first red. Otherwise min maps to the first red and max to the ninth, and every rate between them gets a colour. |
| LowCoverageRanking.ColorIndexBounds | Frontend/src/components/charts/Top10DepartementsFaibleCouverture.jsx:137-138 | Between min and max the palette index lies in [0, 8] and does not decrease as the rate grows. |
| LowCoverageRanking.BarColors | Frontend/src/components/charts/Top10DepartementsFaibleCouverture.jsx:132-149 | With min and max taken over the ranked rates, every bar gets a palette colour, a lowest rate gets the first red, and a highest rate gets the ninth when the rates are not all equal. |
| AgeBandComparison.OrderOf | Frontend/src/components/charts/UrgencesHospitalisationsComparison.jsx:57-69 | A canonical band gets its first index in the five-band list. Any other band gets 999. |
| AgeBandComparison.Bands | Frontend/src/components/charts/UrgencesHospitalisationsComparison.jsx:24-54 | There is one entry per distinct age band, with "Non spécifié" for a missing band, listed in the order of the bands' first records. Each holds the band's two rate totals over its count, with missing rates counted as 0. |
| AgeBandComparison.SortedBands | Frontend/src/components/charts/UrgencesHospitalisationsComparison.jsx:65-72 | The bands come in non-decreasing canonical position, each band once, the same bands as before sorting. |
| AgeBandComparison.HistogramData | Frontend/src/components/charts/UrgencesHospitalisationsComparison.jsx:18-79 | The result is null iff the data is absent or empty. Otherwise the three arrays are parallel and hold each band once, in canonical order, with the band's two means. |
| AgeBandComparison.SortedBandsComplete | Frontend/src/components/charts/UrgencesHospitalisationsComparison.jsx:46-72 | Every band that occurs in the data appears among the sorted summaries. |
| AgeBandComparison.TiesKeepFirstAppearance | Frontend/src/components/charts/UrgencesHospitalisationsComparison.jsx:46-72 | Of two sorted bands with the same canonical position, the earlier one has the earlier first record, and the bands at one position keep their first-appearance order. |
| AgeBandComparison.EveryRecordInOneBand | Frontend/src/components/charts/UrgencesHospitalisationsComparison.jsx:26-43 | The band counts add up to the number of records, so every record lands in exactly one band. |
| UrgencesByDate.Dates | Frontend/src/components/charts/UrgencesParAnnee.jsx:49-74 | The dates are strictly ascending in string order. They are exactly the days of the contributing records: a resolved date, a canonical band and a year in range. |
| UrgencesByDate.Series | Frontend/src/components/charts/UrgencesParAnnee.jsx:79-96 | A band's series has one value per date: the mean of its records on that day, or 0 when it has none. |
| UrgencesByDate.StackingOrder | Frontend/src/components/charts/UrgencesParAnnee.jsx:99-112 | The stacking order is a permutation of the five bands, non-decreasing in the band's series average. |
| UrgencesByDate.EqualAveragesKeepCanonicalOrder | Frontend/src/components/charts/UrgencesParAnnee.jsx:110-112 | When every band has the same average, the stacking order is the canonical order. |
| UrgencesByDate.NoDaysKeepCanonicalOrder | Frontend/src/components/charts/UrgencesParAnnee.jsx:102-112 | With no dates every average is 0, so the stacking order is the canonical order. |
| UrgencesByDate.EvolutionData | Frontend/src/components/charts/UrgencesParAnnee.jsx:18-119 | The result is null iff the data is absent or empty. Otherwise the dates are ascending and exactly the contributing days, there is one series per canonical band with one value per date, and the stacking order is a permutation of the bands sorted by non-decreasing band average. |
| UrgencesByDate.SeriesMap | Frontend/src/components/charts/UrgencesParAnnee.jsx:77-96 | There is a series for exactly the five canonical bands, each spanning every day of the date axis. |
| Sorting.SortByIsStable | Frontend/src/components/charts/Top10DepartementsFaibleCouverture.jsx:69 | For every key value, sorting keeps the elements carrying it in their input order. |
| Sorting.SortByKeepsTieRank | Frontend/src/components/charts/Top10DepartementsFaibleCouverture.jsx:69 | For any rank that strictly increases along the input, elements with equal keys come out in increasing rank. |
| Sorting.SortByIsSorted | Frontend/src/components/charts/CouvertureAnnuelleEvolution.jsx:62 | The sorted sequence is ordered by key. |
| Sorting.SortStringsAscending | Frontend/src/components/charts/UrgencesParAnnee.jsx:74 | Distinct strings sorted by the default sort come out strictly ascending. |
| TimeSlicer.Init | Frontend/src/components/TimeSlicer.jsx:4-6 | No thumb is active. The range is the `value` prop, or `[minYear, maxYear]` without one. |
| TimeSlicer.Sync | Frontend/src/components/TimeSlicer.jsx:9-13 | A new `value` prop replaces the range. An absent one changes nothing. |
| TimeSlicer.GetPercentEnds | Frontend/src/components/TimeSlicer.jsx:22 | `minYear` sits at 0 %, `maxYear` at 100 %, and a later year never sits further left. |
| TimeSlicer.ProjectedYear | Frontend/src/components/TimeSlicer.jsx:31-34 | The year under the mouse always lies in `[minYear, maxYear]`. |
| TimeSlicer.ClampIsRedundant | Frontend/src/components/TimeSlicer.jsx:32-34 | Once the percentage is clamped to [0, 100], the rounded year already lies in the bounds. |
| TimeSlicer.Move | Frontend/src/components/TimeSlicer.jsx:28-45 | With no active thumb nothing changes. A min-thumb move never changes the high end and a max-thumb move never changes the low end. An accepted move reports exactly the new range, and a rejected one leaves the state unchanged and reports nothing. |
| TimeSlicer.CrossingMoveRejected | Frontend/src/components/TimeSlicer.jsx:36-44 | A move that would put the thumbs in the wrong order is rejected. |
| TimeSlicer.Step | Frontend/src/components/TimeSlicer.jsx:24-49 | Mouse-down activates its thumb and mouse-up clears the active thumb; neither moves the range. |
| TimeSlicer.RunKeepsOrder | Frontend/src/components/TimeSlicer.jsx:36-49 | Starting from low ≤ high, every sequence of events keeps low ≤ high. |
| TimeSlicer.RunStaysInBounds | Frontend/src/components/TimeSlicer.jsx:31-49 | Starting inside the bounds, every sequence of events keeps both thumbs inside them. |
| Sidebar.HandleTimeChange | Frontend/src/components/Sidebar.jsx:10-17 | Without a callback nothing is reported. Otherwise only `timeRange` is replaced and both map selections are kept. |
| Sidebar.HandleMapChange | Frontend/src/components/Sidebar.jsx:19-26 | Without a callback nothing is reported. Otherwise only the chosen selector's value is replaced. |
| Sidebar.Shown | Frontend/src/components/Sidebar.jsx:185-207 | A selector shows its selection when there is one. Otherwise the first shows "couverture" and the second "hospitalisations". |
| Sidebar.SliderValue | Frontend/src/components/Sidebar.jsx:163 | The slider gets the stored range, or `[2016, 2024]` without one. |
| Sidebar.DisabledOptions | Frontend/src/components/Sidebar.jsx:193-215 | An option is disabled in one selector iff it is the other selector's stored selection. With distinct selections, no option is disabled in both. |
| Sidebar.EnabledChoiceKeepsDistinct | Frontend/src/components/Sidebar.jsx:185-215 | From distinct selections, choosing an enabled option keeps them distinct. |
| Sidebar.ShownDefaultNotDisabled | Frontend/src/components/Sidebar.jsx:185-215 | The disabled rule looks at the stored selection, not the shown default: for every state whose second selection is absent, the first selector may pick "hospitalisations", and both selectors then show it. |
| PredictionForm.Initial | Frontend/src/pages/Prediction.jsx:10-14 | The form opens on the current year and "doses", with no prediction, no error and no loading. |
| PredictionForm.ErrorMessage | Frontend/src/pages/Prediction.jsx:57-61 | The message is the first server error's message if present, else the error's own message, else the fixed fallback. It is never empty. |
| PredictionForm.Submit | Frontend/src/pages/Prediction.jsx:17-46 | Submitting clears the prediction. A year below 2025 sets the validation message, stops loading and issues no request. Otherwise it clears the error and issues the request `{anneeDebut, typePrediction}`. |
| PredictionForm.Settle | Frontend/src/pages/Prediction.jsx:48-64 | Loading ends on every path. An error sets the error message, and data carrying a prediction sets it. |
| PredictionForm.Predict | Frontend/src/pages/Prediction.jsx:17-65 | Loading is off at the end. A request is issued iff the year is at least 2025, and then exactly one with the form's fields. A prediction and an error never stand together, and an error outcome leaves the prediction null. |
| PredictionForm.YearInput | Frontend/src/pages/Prediction.jsx:125 | A typed non-zero integer is taken as the year. Unparsable text or 0 falls back to the current year + 1. |
| PredictionForm.TypedYearKept | Frontend/src/pages/Prediction.jsx:125 | Typing the decimal text of a non-zero year sets that year. |
| Base64.Encode | Backend/src/schema.py:43 | The standard base64 encoding has a length that is a multiple of 4, and it is non-empty for non-empty input. |
| Base64.Decode | Backend/src/schema.py:50 | A text whose length is not a multiple of 4 is rejected. |
| Base64.DecodeEncode | Backend/src/schema.py:43-50 | Decoding the encoding of any byte string gives the byte string back. |
| Pagination.EncodeCursor | Backend/src/schema.py:41-43 | The cursor is a non-empty base64 text whose length is a multiple of 4, and it decodes to the ASCII bytes of the index's decimal text. |
| Pagination.CursorRoundTrip | Backend/src/schema.py:41-52 | Decoding the cursor of any index gives the index back. |
| Pagination.DecodeCursor | Backend/src/schema.py:45-48 | A missing or empty cursor gives 0. |
| Pagination.MalformedCursorIsZero | Backend/src/schema.py:49-52 | A non-empty cursor that does not decode gives 0. |
| Pagination.PageAt | Backend/src/schema.py:60-77 | The total is the number of items. `has_next_page` holds iff `start + first < len(items)` and `has_previous_page` iff `start > 0`. The cursors are present iff the page is non-empty and encode `start` and `start + first - 1`. For a non-negative start and size the edges are the contiguous slice, at most `first` long. |
| Pagination.Slice | Backend/src/schema.py:62 | Python slicing `items[start:end]`: for `0 <= start <= end` the slice is the items from `min(start, n)` up to `min(end, n)`, at most `end - start` of them. |
| Pagination.Paginate | Backend/src/schema.py:54-77 | The start is 0 without `after` and one past the decoded cursor otherwise. The page is the page at that start. |
| Pagination.FirstPage | Backend/src/schema.py:59 | Without `after` the page starts at index 0. |
| Pagination.MalformedCursorSkipsFirstItem | Backend/src/schema.py:47-59 | A non-empty cursor that does not decode starts the page at index 1. |
| Pagination.NextPageFollows | Backend/src/schema.py:59-74 | Passing a page's end cursor as `after` gives the page starting right after it. |
| Pagination.Contiguous | Backend/src/schema.py:59-74 | Two pages fetched one after the other through the end cursor are, joined, the contiguous slice of twice the size. |
| Schema.NumberOrZero | Backend/src/schema.py:244-246 | A NaN rate becomes 0 and a present rate is kept, so the served rate is always a number. |
| Schema.DfToUrgences | Backend/src/schema.py:231-260 | There is one record per row, with the code, name, date and age band carried over and each of the three rates as its value or 0. |
| Schema.DfToCouvertures | Backend/src/schema.py:262-292 | There is one record per row, with a missing year becoming 0 and a missing total coverage becoming 0. |
| Schema.MissingYearNeverPlotted | Backend/src/schema.py:274 | A row without a year is served with year 0, which the coverage curve never plots. |
| Schema.CampaignLabel | Backend/src/schema.py:795-796 | The label is the start year's digits, the non-breaking hyphen and the next year's digits. |
| Schema.CampaignLabelParts | Backend/src/schema.py:795-796 | Cutting the label at the separator gives back the start year and the start year + 1. |
| Schema.FailureMessage | Backend/src/schema.py:804-809 | A validation error is passed on as is. Any other error gets the "Impossible d'effectuer la prédiction: " prefix. |
| Schema.ResolvePredireCampagne | Backend/src/schema.py:780-809 | A type other than "doses" or "actes" is rejected with its message. Otherwise the result is the doses or acts prediction, labelled with the campaign label, or the prediction's error turned into a message. |
| Campaigns.Labels | Backend/ml/preprocess.py:23-24 | The labels are the distinct campaign labels of the indicator's rows, strictly ascending. |
| Campaigns.Aggregate | Backend/ml/preprocess.py:20-24 | There is one row per distinct label of the indicator's rows, in label order. Its value is the sum of those rows' values, with NaN skipped. |
| Campaigns.BuildCampaignTables | Backend/ml/preprocess.py:9-26 | The first table aggregates the "DOSES(J07E1)" rows and the second the "ACTE(VGP)" rows. |
| Campaigns.AggregateLabels | Backend/ml/preprocess.py:23-24 | A label appears iff some row of the indicator carries it, and the labels are strictly ascending. |
| Campaigns.AggregateKeepsTotal | Backend/ml/preprocess.py:23-24 | The aggregated values add up to the total of the indicator's rows. |
| Campaigns.OtherIndicatorIgnored | Backend/ml/preprocess.py:20 | Adding a row of another indicator does not change the doses table. |
| Campaigns.LabelStart | Backend/ml/predict.py:18 | The start of a label is its longest prefix without '-'. |
| Campaigns.StartOfLabel | Backend/ml/predict.py:18 | For a label that starts with a year and '-', `int` of the start is that year. |
| Campaigns.NumCampaign | Backend/ml/predict.py:23 | The index is as far past the last campaign's index, the series length minus 1, as the year is past the last start. So a year after the last campaign gets an index at least the series length, and the year right after gets the length itself. |
| Campaigns.PredictCampaign | Backend/ml/predict.py:5-27 | A training error or an empty series raises before any prediction. A prediction is made iff the last label's start parses and the year is later than it. The prediction is taken at `num_campaign`: the series length plus the number of years between the year after the last start and the requested year, which is at least the series length. |
| Campaigns.PastYearRefused | Backend/ml/predict.py:20-21 | A start year at or before the last campaign's start raises the "Année déjà présente" error. |
| Campaigns.NextYearIndex | Backend/ml/predict.py:23-27 | The year right after the last campaign is predicted at index `len(series)`. |
| Campaigns.PredictByChoice | Backend/ml/predict.py:30-36 | "doses" predicts on the doses series. Any other choice predicts on the acts series. |
| Transform.DeptCode | Backend/src/transform.py:32-33 | The code is the first two characters of the postal code zero-filled to width 5. |
| Transform.DeptCodeOfNumber | Backend/src/transform.py:32-33 | For a postal code below 100000 the code is the two-digit rendering of the code divided by 1000. Corsica's 20xxx gives "20" and overseas 97xxx gives "97". |
| Transform.CleanPharmacies | Backend/src/transform.py:31-36 | There is one row per distinct department code, and a code appears iff some postal code falls in it. Each count is the number of postal codes in that department, and the counts are non-increasing. |
| Transform.CountsAddUp | Backend/src/transform.py:34-35 | The pharmacy counts add up to the number of input rows. |
| Transform.MergePharmaciesGeo | Backend/src/transform.py:51-54 | The left join yields at least one row per geography row. MergeRows and MergeOneToOne state what the rows hold. |
| Transform.MergeRows | Backend/src/transform.py:51-54 | The left join keeps every geography row and invents none: each row carries a geography row and either the count of a matching pharmacy row or, when none matches, 0. |
| Transform.JoinRows | Backend/src/transform.py:51-54 | One geography row joins to one output row per matching pharmacy row, in their order, or to a single row with 0 when none matches. |
| Transform.MergeOneToOne | Backend/src/transform.py:51-54 | With distinct department codes there is exactly one row per geography row, in order, carrying the department's count or 0. |
| Transform.PharmaciesPerDepartment | Backend/src/transform.py:31-54 | After the join, each department's count is the number of postal codes falling in it. |
| Transform.CleanUrgences | Backend/src/transform.py:5-22 | There is one row per input row, with the other columns kept. Each "(%)" rate times 100 is the raw rate, and NaN stays NaN. |
| Transform.RowMean | Backend/src/transform.py:27 | The mean skips NaN: with two rates it is half their sum, with one it is that one, and with none it is NaN. |
| Transform.RowMeanBetween | Backend/src/transform.py:27 | The mean does not depend on the order of the columns and lies between the two rates. |
| Transform.CleanCouverture | Backend/src/transform.py:25-28 | Each row keeps its columns and gains "Grippe totale", the row mean of the two influenza columns. |
| Transform.MergeUrgencesGeo | Backend/src/transform.py:39-41 | The right join yields at least one row per emergency row, and every row carries an emergency row of the input. Its geography row, when present, is one with the same department code; it is absent only when no geography row has that code. |
| Transform.MergeCouvertureGeo | Backend/src/transform.py:44-48 | The right join yields at least one row per coverage row, and every row carries a coverage row of the input. Its geography row, when present, is one with the same department name; it is absent only when no geography row has that name. |
| Transform.RightJoinOneToOne | Backend/src/transform.py:39-48 | With one geography row per key, the right join keeps every right row exactly once, in order. Each gets its matching geography row iff one exists. |
| Transform.UrgencesAllKept | Backend/src/transform.py:39-41 | With one geography row per code, every emergency row survives the join, in order. |
| Transform.CouverturesAllKept | Backend/src/transform.py:44-48 | With one geography row per name, every coverage row survives the join, in order. |

## Left out

- Rendering: Plotly traces, layouts, colour scales, JSX markup and loading and error banners are presentation only.
- Network and I/O: the GraphQL client and hook, the GeoJSON `fetch`, Flask, remote CSV reads, file loading and orchestration. Only the data they deliver is modelled.
- The process-wide caches, the graphene type declarations and the shapely geometry conversion in `Backend/src/schema.py`. They hold no logic the model needs.
- `Legacy/app.py` is not part of this model: its pandas aggregations are the originals the front end reimplements.
- JavaScript `new Date` parsing, local-time versus UTC and `toISOString`: date resolution is a function parameter, apart from the four-digit fallback.
- IEEE-754 rounding: rates are exact reals, so the means and the percentage scaling are exact.
- The linear regression (`train_model`, `model.predict`) is a parameter, `train` and `predict`. The `int(...)` truncation of its output belongs to that parameter.
- `pd.to_datetime` in `clean_urgences` is left abstract: dates are carried as text.
- The other `df_to_*` converters and the unused columns of the two that are modelled (week, region, HPV, meningococcus, geometry) are plain field copies.
- The `prepare_*_for_frontend` functions return their argument unchanged; there is nothing to state about them.
- The paginated resolvers only pass a list to `paginate_results`, which is modelled.
- Base64.Decode: the model is the strict RFC 4648 decoder. Python's default `b64decode` also discards characters outside the alphabet and tolerates some padding irregularities, so a few malformed cursors that Python accepts are rejected here and read as 0.
- Pagination.DecodeCursor: only ASCII text is decoded. A cursor whose bytes are valid non-ASCII UTF-8 is read as 0, which is also what `int()` gives for every such text except Unicode digits.
- Text.PyInt does not accept underscores between digits or non-ASCII Unicode digits, which Python `int()` does.
- Text.JsParseInt does not model the `0x` prefix or Unicode whitespace; a number input never produces them.
- LowCoverageRanking.DisplayName: for a record with a falsy `nom`, the fallback name `Département ${code}` is built from the model's `""` code. JavaScript would write "Département null", "Département undefined" or "Département " depending on whether the code is `null`, `undefined` or empty, and would keep those as three groups where the model has one. The query service always serves `code` as `str(...)` (Backend/src/schema.py:272), so no served record has a null or undefined code.
- Campaigns.PredictCampaign: the repr-quoted text of the `ValueError` that `int()` raises for a malformed label is modelled only as an error carrying the label.
- Transform.CleanPharmacies: the order among departments with equal counts is left open, because `value_counts` does not document it; the sort in the model happens to keep first appearance.
- Transform.MergeCouvertureGeo: dropping the `nom` and "Département Code" columns after the join is not modelled; the joined geography row is kept whole.

=== FILE: age_band_comparison.dfy ===
/** The emergency-versus-hospitalisation histogram
    (`UrgencesHospitalisationsComparison`): every record, whatever its year,
    is grouped by age band; each band gets its mean emergency rate and mean
    hospitalisation rate (missing rates count as 0), and the bands are listed
    in the canonical age order, unknown bands last in first-appearance order. */
module AgeBandComparison {
  import opened Wrappers
  import opened Records
  import Grouping
  import Sorting

  /** There is no filter: every record contributes. */
  function KeepAll(): UrgenceRecord -> bool {
    r => true
  }

  function Urgences(r: UrgenceRecord): real {
    OrZero(r.tauxGrippe)
  }

  function Hospitalisations(r: UrgenceRecord): real {
    OrZero(r.tauxHospitalisation)
  }

  /** `ageOrder.indexOf(age)`, or 999 for a band outside the canonical list. */
  function OrderOf(age: string): (o: nat)
    ensures age in AgeOrder ==> o < |AgeOrder| && AgeOrder[o] == age
    ensures age !in AgeOrder ==> o == 999
    ensures forall j :: 0 <= j < o && j < |AgeOrder| ==> AgeOrder[j] != age
  {
    IndexOf(AgeOrder, age)
  }

  function IndexOf(xs: seq<string>, x: string): (o: nat)
    ensures x in xs ==> o < |xs| && xs[o] == x
    ensures x !in xs ==> o == 999
    ensures forall j :: 0 <= j < o && j < |xs| ==> xs[j] != x
  {
    if |xs| == 0 then 999
    else if xs[0] == x then 0
    else
      var o := IndexOf(xs[1..], x);
      if x in xs[1..] then 1 + o else o
  }

  predicate HasBand(rs: seq<UrgenceRecord>, age: string) {
    Grouping.AnyKept(rs, KeepAll(), AgeBand, age)
  }

  /** One bar pair of the histogram. */
  datatype BandMeans = BandMeans(age: string, tauxUrgences: real, tauxHospitalisations: real, order: nat)

  function OrderKey(b: BandMeans): real {
    b.order as real
  }

  /** Band `age`'s two means: each total over the band's number of records. */
  function Summary(rs: seq<UrgenceRecord>, age: string): (b: BandMeans)
    requires HasBand(rs, age)
    ensures b.age == age && b.order == OrderOf(age)
    ensures Grouping.KeptCount(rs, KeepAll(), AgeBand, age) > 0
    ensures b.tauxUrgences == Grouping.KeptSum(rs, KeepAll(), AgeBand, Urgences, age)
                              / (Grouping.KeptCount(rs, KeepAll(), AgeBand, age) as real)
    ensures b.tauxHospitalisations == Grouping.KeptSum(rs, KeepAll(), AgeBand, Hospitalisations, age)
                                      / (Grouping.KeptCount(rs, KeepAll(), AgeBand, age) as real)
  {
    Grouping.SelectMean(rs, KeepAll(), AgeBand, Urgences, age);
    var n := Grouping.KeptCount(rs, KeepAll(), AgeBand, age) as real;
    BandMeans(age,
              Grouping.KeptSum(rs, KeepAll(), AgeBand, Urgences, age) / n,
              Grouping.KeptSum(rs, KeepAll(), AgeBand, Hospitalisations, age) / n,
              OrderOf(age))
  }

  /** The bands that occur, in the order they first appear (the `Map`'s keys). */
  function Ages(rs: seq<UrgenceRecord>): (ages: seq<string>)
    ensures forall i :: 0 <= i < |ages| ==> HasBand(rs, ages[i])
  {
    Grouping.SelectKeysInRecordOrder(rs, KeepAll(), AgeBand, Urgences);
    Grouping.Keys(Grouping.Select(rs, KeepAll(), AgeBand, Urgences))
  }

  /** The bands in the order they first appear (`ageGroups` order). */
  function Bands(rs: seq<UrgenceRecord>): (bs: seq<BandMeans>)
    ensures forall i, j :: 0 <= i < j < |bs| ==> bs[i].age != bs[j].age
    ensures forall b: BandMeans :: b in bs <==> HasBand(rs, b.age) && b == Summary(rs, b.age)
    ensures forall i, j :: 0 <= i < j < |bs| ==> Grouping.SeenBefore(rs, KeepAll(), AgeBand, bs[i].age, bs[j].age)
  {
    BandListAges(rs);
    BandListMembers(rs);
    BandList(rs)
  }

  function BandList(rs: seq<UrgenceRecord>): seq<BandMeans> {
    var ages := Ages(rs);
    seq(|ages|, i requires 0 <= i < |ages| => Summary(rs, ages[i]))
  }

  /** Entry `i` of the list is the summary of band `i`; the bands are distinct
      and listed in first-appearance order. */
  lemma BandListAges(rs: seq<UrgenceRecord>)
    ensures var bs := BandList(rs);
            (forall i, j :: 0 <= i < j < |bs| ==> bs[i].age != bs[j].age)
            && (forall i, j :: 0 <= i < j < |bs| ==> Grouping.SeenBefore(rs, KeepAll(), AgeBand, bs[i].age, bs[j].age))
  {
    var ages := Ages(rs);
    var bs := BandList(rs);
    Grouping.SelectKeysInRecordOrder(rs, KeepAll(), AgeBand, Urgences);
    assert forall i :: 0 <= i < |bs| ==> bs[i].age == ages[i];
  }

  /** The list holds exactly the summaries of the bands that occur. */
  lemma BandListMembers(rs: seq<UrgenceRecord>)
    ensures forall b: BandMeans :: b in BandList(rs) <==> HasBand(rs, b.age) && b == Summary(rs, b.age)
  {
    var ages := Ages(rs);
    var bs := BandList(rs);
    Grouping.SelectKeysInRecordOrder(rs, KeepAll(), AgeBand, Urgences);
    forall b: BandMeans | HasBand(rs, b.age) && b == Summary(rs, b.age)
      ensures b in bs
    {
      assert b.age in ages;
      var i :| 0 <= i < |ages| && ages[i] == b.age;
      assert bs[i] == b;
    }
  }

  /** `sortedData`: the bands stably sorted by canonical position. */
  function SortedBands(rs: seq<UrgenceRecord>): (s: seq<BandMeans>)
    ensures forall i, j :: 0 <= i < j < |s| ==> s[i].age != s[j].age
    ensures forall i, j :: 0 <= i < j < |s| ==> OrderOf(s[i].age) <= OrderOf(s[j].age)
    ensures forall b :: b in s <==> b in Bands(rs)
  {
    var bs := Bands(rs);
    var s := Sorting.SortBy(bs, OrderKey);
    Sorting.SortByIsSorted(bs, OrderKey);
    assert Sorting.Distinct(bs);
    Sorting.SortByPermutes(bs, OrderKey);
    forall i, j | 0 <= i < j < |s|
      ensures s[i].age != s[j].age && OrderOf(s[i].age) <= OrderOf(s[j].age)
    {
      assert s[i] in s && s[j] in s;
      assert s[i] in bs && s[j] in bs;
      assert OrderKey(s[i]) <= OrderKey(s[j]);
    }
    s
  }

  /** The three parallel arrays of the histogram. */
  datatype Histogram = Histogram(ages: seq<string>, tauxUrgences: seq<real>, tauxHospitalisations: seq<real>)

  /** `histogramData`: null for an absent or empty list; otherwise one entry
      per distinct band, canonical bands in canonical order before the
      others, each beside its two means. */
  function HistogramData(data: Option<seq<UrgenceRecord>>): (h: Option<Histogram>)
    ensures h.None? <==> AbsentOrEmpty(data)
    ensures h.Some? ==> |h.value.ages| == |h.value.tauxUrgences| == |h.value.tauxHospitalisations|
    ensures h.Some? ==> forall age :: age in h.value.ages <==> HasBand(data.value, age)
    ensures h.Some? ==> forall i, j :: 0 <= i < j < |h.value.ages| ==>
              h.value.ages[i] != h.value.ages[j] && OrderOf(h.value.ages[i]) <= OrderOf(h.value.ages[j])
    ensures h.Some? ==> forall i :: 0 <= i < |h.value.ages| ==>
              HasBand(data.value, h.value.ages[i])
              && h.value.tauxUrgences[i] == Summary(data.value, h.value.ages[i]).tauxUrgences
              && h.value.tauxHospitalisations[i] == Summary(data.value, h.value.ages[i]).tauxHospitalisations
  {
    if AbsentOrEmpty(data) then None
    else
      var rs := data.value;
      var s := SortedBands(rs);
      var h := Arrays(s);
      SortedBandsSound(rs);
      forall age | HasBand(rs, age)
        ensures age in h.ages
      {
        var i := SortedBandsComplete(rs, age);
        assert h.ages[i] == age;
      }
      Some(h)
  }

  /** The histogram's parallel arrays, read off the bands. */
  function Arrays(s: seq<BandMeans>): (h: Histogram)
    ensures |h.ages| == |s| && |h.tauxUrgences| == |s| && |h.tauxHospitalisations| == |s|
    ensures forall i :: 0 <= i < |s| ==>
              h.ages[i] == s[i].age && h.tauxUrgences[i] == s[i].tauxUrgences
              && h.tauxHospitalisations[i] == s[i].tauxHospitalisations
  {
    Histogram(seq(|s|, i requires 0 <= i < |s| => s[i].age),
              seq(|s|, i requires 0 <= i < |s| => s[i].tauxUrgences),
              seq(|s|, i requires 0 <= i < |s| => s[i].tauxHospitalisations))
  }

  lemma SortedBandsSound(rs: seq<UrgenceRecord>)
    ensures forall i :: 0 <= i < |SortedBands(rs)| ==>
              HasBand(rs, SortedBands(rs)[i].age) && SortedBands(rs)[i] == Summary(rs, SortedBands(rs)[i].age)
  {
    var s := SortedBands(rs);
    forall i | 0 <= i < |s|
      ensures HasBand(rs, s[i].age) && s[i] == Summary(rs, s[i].age)
    {
      assert s[i] in s;
    }
  }

  /** Every band with records has its position among the sorted bands. */
  lemma SortedBandsComplete(rs: seq<UrgenceRecord>, age: string) returns (i: int)
    requires HasBand(rs, age)
    ensures 0 <= i < |SortedBands(rs)| && SortedBands(rs)[i].age == age
  {
    var s := SortedBands(rs);
    assert Summary(rs, age) in Bands(rs);
    i :| 0 <= i < |s| && s[i] == Summary(rs, age);
  }

  /** Position of the first record of band `b` (-1 when there is none). */
  function FirstSeen(rs: seq<UrgenceRecord>): BandMeans -> int {
    (b: BandMeans) => if HasBand(rs, b.age) then Grouping.FirstKept(rs, KeepAll(), AgeBand, b.age) else -1
  }

  /** Bands with the same canonical position (in practice, the unknown bands
      at 999) keep their first-appearance order: two tied bands are listed in
      the order of their first records. */
  lemma TiesKeepFirstAppearance(rs: seq<UrgenceRecord>, v: real)
    ensures Sorting.WithKey(SortedBands(rs), OrderKey, v) == Sorting.WithKey(Bands(rs), OrderKey, v)
    ensures var s := SortedBands(rs);
            forall i, j :: 0 <= i < j < |s| && OrderOf(s[i].age) == OrderOf(s[j].age) ==>
              Grouping.SeenBefore(rs, KeepAll(), AgeBand, s[i].age, s[j].age)
  {
    var bs := Bands(rs);
    var s := SortedBands(rs);
    Sorting.SortByIsStable(bs, OrderKey, v);
    var rank := FirstSeen(rs);
    forall i, j | 0 <= i < j < |bs|
      ensures rank(bs[i]) < rank(bs[j])
    {
      assert Grouping.SeenBefore(rs, KeepAll(), AgeBand, bs[i].age, bs[j].age);
    }
    Sorting.SortByKeepsTieRank(bs, OrderKey, rank);
    forall i, j | 0 <= i < j < |s| && OrderOf(s[i].age) == OrderOf(s[j].age)
      ensures Grouping.SeenBefore(rs, KeepAll(), AgeBand, s[i].age, s[j].age)
    {
      assert s[i] in bs && s[j] in bs;
      assert OrderKey(s[i]) == OrderKey(s[j]);
    }
  }

  /** Every record lands in exactly one band: the band counts add up to the
      number of records. */
  lemma EveryRecordInOneBand(rs: seq<UrgenceRecord>)
    ensures Grouping.SumCounts(Grouping.Select(rs, KeepAll(), AgeBand, Urgences),
                               Grouping.Keys(Grouping.Select(rs, KeepAll(), AgeBand, Urgences))) == |rs|
  {
    Grouping.SumCountsOfKeys(Grouping.Select(rs, KeepAll(), AgeBand, Urgences));
    Grouping.SelectAll(rs, KeepAll(), AgeBand, Urgences);
  }
}

=== FILE: base64.dfy ===
/** Base 64 as defined in section 4 of RFC 4648 (the standard alphabet with
    '=' padding), which is what Python's `base64.b64encode` produces. The
    decoder accepts exactly the padded, well-formed texts. */
module Base64 {
  import opened Wrappers

  type Byte = b: int | 0 <= b < 256

  /** The character of a 6-bit value in the base 64 alphabet. */
  function Symbol(n: nat): (c: char)
    requires n < 64
  {
    if n < 26 then ('A' as int + n) as char
    else if n < 52 then ('a' as int + (n - 26)) as char
    else if n < 62 then ('0' as int + (n - 52)) as char
    else if n == 62 then '+'
    else '/'
  }

  /** The 6-bit value of an alphabet character; `None` for any other
      character, '=' included. */
  function SymbolValue(c: char): (v: Option<nat>)
    ensures v.Some? ==> v.value < 64
  {
    if 'A' <= c <= 'Z' then Some(c as int - 'A' as int)
    else if 'a' <= c <= 'z' then Some(c as int - 'a' as int + 26)
    else if '0' <= c <= '9' then Some(c as int - '0' as int + 52)
    else if c == '+' then Some(62)
    else if c == '/' then Some(63)
    else None
  }

  /** The alphabet is a bijection between 0..63 and its 64 characters. */
  lemma SymbolValueOfSymbol(n: nat)
    requires n < 64
    ensures SymbolValue(Symbol(n)) == Some(n)
    ensures Symbol(n) != '='
  {
  }

  predicate InAlphabet(c: char) {
    SymbolValue(c).Some?
  }

  /** The four characters of a full group of three bytes. */
  function Group3(x: Byte, y: Byte, z: Byte): (q: string)
    ensures |q| == 4
  {
    [Symbol(x / 4), Symbol((x % 4) * 16 + y / 16), Symbol((y % 16) * 4 + z / 64), Symbol(z % 64)]
  }

  /** A final group of two bytes, padded with one '='. */
  function Group2(x: Byte, y: Byte): (q: string)
    ensures |q| == 4
  {
    [Symbol(x / 4), Symbol((x % 4) * 16 + y / 16), Symbol((y % 16) * 4), '=']
  }

  /** A final group of one byte, padded with "==". */
  function Group1(x: Byte): (q: string)
    ensures |q| == 4
  {
    [Symbol(x / 4), Symbol((x % 4) * 16), '=', '=']
  }

  /** Groups of three bytes become four characters; a final group of one or
      two bytes is padded with "==" or "=". */
  function Encode(b: seq<Byte>): (s: string)
    ensures |s| % 4 == 0
    ensures |b| > 0 ==> |s| > 0
    decreases |b|
  {
    if |b| == 0 then ""
    else if |b| == 1 then Group1(b[0])
    else if |b| == 2 then Group2(b[0], b[1])
    else Group3(b[0], b[1], b[2]) + Encode(b[3..])
  }

  /** The value of a character known to be in the alphabet. */
  function Value(c: char): (v: nat)
    requires InAlphabet(c)
    ensures v < 64
  {
    SymbolValue(c).value
  }

  /** One four-character group; `last` says whether padding may appear. */
  function DecodeGroup(q: string, last: bool): (r: Option<seq<Byte>>)
    requires |q| == 4
    ensures r.Some? ==> 1 <= |r.value| <= 3
    ensures r.Some? && |r.value| < 3 ==> last
  {
    if !InAlphabet(q[0]) || !InAlphabet(q[1]) then None
    else if q[2] == '=' && q[3] == '=' then
      if last then Some([Value(q[0]) * 4 + Value(q[1]) / 16]) else None
    else if !InAlphabet(q[2]) then None
    else if q[3] == '=' then
      if last then Some([Value(q[0]) * 4 + Value(q[1]) / 16, (Value(q[1]) % 16) * 16 + Value(q[2]) / 4])
      else None
    else if !InAlphabet(q[3]) then None
    else Some([Value(q[0]) * 4 + Value(q[1]) / 16, (Value(q[1]) % 16) * 16 + Value(q[2]) / 4,
               (Value(q[2]) % 4) * 64 + Value(q[3])])
  }

  /** The bytes a text encodes, or `None` when it is not well-formed base 64:
      a length that is not a multiple of four, a character outside the
      alphabet, or padding anywhere but at the end. */
  function Decode(s: string): (r: Option<seq<Byte>>)
    ensures |s| % 4 != 0 ==> r.None?
    decreases |s|
  {
    if |s| == 0 then Some([])
    else if |s| < 4 then None
    else
      match DecodeGroup(s[..4], |s| == 4)
      case None => None
      case Some(g) =>
        match Decode(s[4..])
        case None => None
        case Some(rest) => Some(g + rest)
  }

  /** Splitting a value into a high and a low part and joining them back. */
  lemma Split16(v: nat, hi: nat, lo: nat)
    requires lo < 16 && v == hi * 16 + lo
    ensures v / 16 == hi && v % 16 == lo
  {
  }

  lemma Split4(v: nat, hi: nat, lo: nat)
    requires lo < 4 && v == hi * 4 + lo
    ensures v / 4 == hi && v % 4 == lo
  {
  }

  lemma GroupOfThree(x: Byte, y: Byte, z: Byte, last: bool)
    ensures DecodeGroup(Group3(x, y, z), last) == Some([x, y, z])
  {
    var b := (x % 4) * 16 + y / 16;
    var c := (y % 16) * 4 + z / 64;
    Split16(b, x % 4, y / 16);
    Split4(c, y % 16, z / 64);
    SymbolValueOfSymbol(x / 4);
    SymbolValueOfSymbol(b);
    SymbolValueOfSymbol(c);
    SymbolValueOfSymbol(z % 64);
    assert (x / 4) * 4 + b / 16 == x;
    assert (b % 16) * 16 + c / 4 == y;
    assert (c % 4) * 64 + z % 64 == z;
  }

  lemma GroupOfTwo(x: Byte, y: Byte)
    ensures DecodeGroup(Group2(x, y), true) == Some([x, y])
  {
    var b := (x % 4) * 16 + y / 16;
    var c := (y % 16) * 4;
    Split16(b, x % 4, y / 16);
    Split4(c, y % 16, 0);
    SymbolValueOfSymbol(x / 4);
    SymbolValueOfSymbol(b);
    SymbolValueOfSymbol(c);
    assert (x / 4) * 4 + b / 16 == x;
    assert (b % 16) * 16 + c / 4 == y;
  }

  lemma GroupOfOne(x: Byte)
    ensures DecodeGroup(Group1(x), true) == Some([x])
  {
    var b := (x % 4) * 16;
    Split16(b, x % 4, 0);
    SymbolValueOfSymbol(x / 4);
    SymbolValueOfSymbol(b);
    assert (x / 4) * 4 + b / 16 == x;
  }

  /** Decoding a text that starts with a well-formed group. */
  lemma DecodeCons(q: string, rest: string, g: seq<Byte>, r: seq<Byte>)
    requires |q| == 4 && DecodeGroup(q, |rest| == 0) == Some(g) && Decode(rest) == Some(r)
    ensures Decode(q + rest) == Some(g + r)
  {
    var s := q + rest;
    assert s[..4] == q && s[4..] == rest;
  }

  lemma DecodeEncodeOne(b: seq<Byte>)
    requires |b| == 1
    ensures Decode(Encode(b)) == Some(b)
  {
    GroupOfOne(b[0]);
    assert Encode(b) == Group1(b[0]) + [];
    DecodeCons(Group1(b[0]), [], [b[0]], []);
    assert b == [b[0]] + [];
  }

  lemma DecodeEncodeTwo(b: seq<Byte>)
    requires |b| == 2
    ensures Decode(Encode(b)) == Some(b)
  {
    GroupOfTwo(b[0], b[1]);
    assert Encode(b) == Group2(b[0], b[1]) + [];
    DecodeCons(Group2(b[0], b[1]), [], [b[0], b[1]], []);
    assert b == [b[0], b[1]] + [];
  }

  lemma SplitThree(b: seq<Byte>)
    requires |b| >= 3
    ensures b == [b[0], b[1], b[2]] + b[3..]
  {
  }

  /** A group of three bytes followed by the rest. */
  lemma DecodeEncodeStep(b: seq<Byte>)
    requires |b| >= 3 && Decode(Encode(b[3..])) == Some(b[3..])
    ensures Decode(Encode(b)) == Some(b)
  {
    var rest := Encode(b[3..]);
    GroupOfThree(b[0], b[1], b[2], |rest| == 0);
    DecodeCons(Group3(b[0], b[1], b[2]), rest, [b[0], b[1], b[2]], b[3..]);
    SplitThree(b);
  }

  /** Decoding an encoding gives the bytes back. */
  lemma {:induction false} DecodeEncode(b: seq<Byte>)
    ensures Decode(Encode(b)) == Some(b)
    decreases |b|
  {
    if |b| == 1 {
      DecodeEncodeOne(b);
    } else if |b| == 2 {
      DecodeEncodeTwo(b);
    } else if |b| >= 3 {
      DecodeEncode(b[3..]);
      DecodeEncodeStep(b);
    }
  }
}

=== FILE: campaigns.dfy ===
/** The vaccination-campaign series used for prediction: rows of the doses
    table filtered on one indicator and summed per campaign label
    (`build_campaign_dfs`), and the guard and index arithmetic that turn a
    start year into the regression's input (`predict_campaign`,
    `predict_by_choice`). The regression itself is a parameter. */
module Campaigns {
  import opened Wrappers
  import Text
  import Sorting
  import Grouping

  /** One row of the doses/acts table: indicator, campaign label, value
      (`None` for NaN). */
  datatype DoseRow = DoseRow(variable: string, campagne: string, valeur: Option<real>)

  /** One row of an aggregated series. */
  datatype Campaign = Campaign(campagne: string, valeur: real)

  const DosesVariable := "DOSES(J07E1)"
  const ActesVariable := "ACTE(VGP)"

  function Keep(variable: string): DoseRow -> bool {
    (r: DoseRow) => r.variable == variable
  }

  function Label(r: DoseRow): string {
    r.campagne
  }

  /** pandas `sum` skips NaN. */
  function Valeur(r: DoseRow): real {
    r.valeur.GetOr(0.0)
  }

  /** Some row of the indicator carries the label. */
  predicate HasLabel(rows: seq<DoseRow>, variable: string, campagne: string) {
    Grouping.AnyKept(rows, Keep(variable), Label, campagne)
  }

  /** The distinct labels of the indicator's rows, in string order (the
      default sort of `groupby`). */
  function Labels(rows: seq<DoseRow>, variable: string): (ls: seq<string>)
    ensures Sorting.StrictlyAscending(ls)
    ensures forall l :: l in ls <==> HasLabel(rows, variable, l)
  {
    var es := Grouping.Select(rows, Keep(variable), Label, Valeur);
    var ks := Grouping.Keys(es);
    Sorting.SortStringsAscending(ks);
    var ls := Sorting.SortStrings(ks);
    assert forall l :: l in ls <==> l in ks by {
      forall l ensures l in ls <==> l in ks {
        assert l in ls <==> l in multiset(ls);
        assert l in ks <==> l in multiset(ks);
      }
    }
    assert forall l :: l in ks <==> HasLabel(rows, variable, l) by {
      forall l ensures l in ks <==> HasLabel(rows, variable, l) {
        Grouping.SelectHasKey(rows, Keep(variable), Label, Valeur, l);
      }
    }
    ls
  }

  /** The summed rows of the given labels. */
  function Rows(es: seq<Grouping.Entry<string>>, ls: seq<string>): (t: seq<Campaign>)
    ensures |t| == |ls|
    ensures forall i :: 0 <= i < |ls| ==> t[i] == Campaign(ls[i], Grouping.Total(es, ls[i]))
    decreases |ls|
  {
    if |ls| == 0 then [] else [Campaign(ls[0], Grouping.Total(es, ls[0]))] + Rows(es, ls[1..])
  }

  function SumValeurs(t: seq<Campaign>): real
    decreases |t|
  {
    if |t| == 0 then 0.0 else t[0].valeur + SumValeurs(t[1..])
  }

  lemma {:induction false} SumOfRows(es: seq<Grouping.Entry<string>>, ls: seq<string>)
    ensures SumValeurs(Rows(es, ls)) == Grouping.SumTotals(es, ls)
    decreases |ls|
  {
    if |ls| > 0 {
      SumOfRows(es, ls[1..]);
      assert Rows(es, ls)[1..] == Rows(es, ls[1..]);
    }
  }

  /** `groupby('campagne')['valeur'].sum()` over the rows of one indicator. */
  function Aggregate(rows: seq<DoseRow>, variable: string): (t: seq<Campaign>)
    ensures |t| == |Labels(rows, variable)|
    ensures forall i :: 0 <= i < |t| ==> t[i].campagne == Labels(rows, variable)[i]
    ensures forall i :: 0 <= i < |t| ==>
              t[i].valeur == Grouping.KeptSum(rows, Keep(variable), Label, Valeur, t[i].campagne)
  {
    var es := Grouping.Select(rows, Keep(variable), Label, Valeur);
    var ls := Labels(rows, variable);
    var t := Rows(es, ls);
    forall i | 0 <= i < |t|
      ensures t[i].valeur == Grouping.KeptSum(rows, Keep(variable), Label, Valeur, t[i].campagne)
    {
      Grouping.SelectCountTotal(rows, Keep(variable), Label, Valeur, ls[i]);
    }
    t
  }

  /** `build_campaign_dfs`: the doses series and the acts series. */
  function BuildCampaignTables(rows: seq<DoseRow>): (tables: (seq<Campaign>, seq<Campaign>))
    ensures tables.0 == Aggregate(rows, DosesVariable)
    ensures tables.1 == Aggregate(rows, ActesVariable)
  {
    (Aggregate(rows, DosesVariable), Aggregate(rows, ActesVariable))
  }

  /** One row per campaign label, in strictly ascending label order. */
  lemma AggregateLabels(rows: seq<DoseRow>, variable: string)
    ensures forall i, j :: 0 <= i < j < |Aggregate(rows, variable)| ==>
              Text.StrLt(Aggregate(rows, variable)[i].campagne, Aggregate(rows, variable)[j].campagne)
    ensures forall l :: HasLabel(rows, variable, l) <==>
              exists i :: 0 <= i < |Aggregate(rows, variable)| && Aggregate(rows, variable)[i].campagne == l
  {
    var t := Aggregate(rows, variable);
    var ls := Labels(rows, variable);
    forall l
      ensures HasLabel(rows, variable, l) <==> exists i :: 0 <= i < |t| && t[i].campagne == l
    {
      if HasLabel(rows, variable, l) {
        var i :| 0 <= i < |ls| && ls[i] == l;
        assert t[i].campagne == l;
      }
    }
  }

  /** Aggregation keeps the indicator's grand total: the summed rows add up
      to the sum of every row of the indicator. */
  lemma AggregateKeepsTotal(rows: seq<DoseRow>, variable: string)
    ensures SumValeurs(Aggregate(rows, variable))
         == Grouping.KeptGrandTotal(rows, Keep(variable), Valeur)
  {
    var es := Grouping.Select(rows, Keep(variable), Label, Valeur);
    var ls := Labels(rows, variable);
    SumOfRows(es, ls);
    assert Sorting.Distinct(ls) by {
      forall i, j | 0 <= i < j < |ls| ensures ls[i] != ls[j] {
        Text.StrLtIrreflexive(ls[i]);
      }
    }
    forall i | 0 <= i < |es|
      ensures es[i].key in ls
    {
      assert Grouping.HasKey(es, es[i].key);
      Grouping.SelectHasKey(rows, Keep(variable), Label, Valeur, es[i].key);
    }
    Grouping.SumTotalsCover(es, ls);
    Grouping.SelectGrandTotal(rows, Keep(variable), Label, Valeur);
    assert Aggregate(rows, variable) == Rows(es, ls);
  }

  /** A row of the other indicator changes neither series' other half: the
      doses series ignores every row that is not a doses row. */
  lemma OtherIndicatorIgnored(rows: seq<DoseRow>, r: DoseRow)
    requires r.variable != DosesVariable
    ensures Aggregate(rows + [r], DosesVariable) == Aggregate(rows, DosesVariable)
  {
    var keep := Keep(DosesVariable);
    assert (rows + [r])[..|rows|] == rows;
    assert Grouping.Select(rows + [r], keep, Label, Valeur) == Grouping.Select(rows, keep, Label, Valeur);
  }

  // ---------------------------------------------------------------------------
  // predict.py
  // ---------------------------------------------------------------------------

  /** An exception: the `ValueError`s the resolver passes on as they are, and
      every other kind. */
  datatype Raised = ValueError(message: string) | OtherError(message: string)

  /** `label.split('-')[0]`: the text before the first '-'. */
  function LabelStart(s: string): (p: string)
    ensures p <= s
    ensures '-' !in p
    ensures |p| < |s| ==> s[|p|] == '-'
    decreases |s|
  {
    if |s| == 0 then ""
    else if s[0] == '-' then ""
    else
      var p := [s[0]] + LabelStart(s[1..]);
      assert s == [s[0]] + s[1..];
      p
  }

  /** The split stops at the first '-'. */
  lemma {:induction false} LabelStartOf(a: string, rest: string)
    requires '-' !in a
    ensures LabelStart(a + "-" + rest) == a
    decreases |a|
  {
    if |a| > 0 {
      assert (a + "-" + rest)[1..] == a[1..] + "-" + rest;
      assert a[0] in a;
      assert '-' !in a[1..] by {
        forall k | 0 <= k < |a[1..]| ensures a[1..][k] != '-' {
          assert a[1..][k] == a[k + 1];
        }
      }
      LabelStartOf(a[1..], rest);
      assert a == [a[0]] + a[1..];
    }
  }

  /** The start year of a campaign label "YYYY-YYYY" is its first year. */
  lemma StartOfLabel(year: nat, rest: string)
    ensures Text.PyInt(LabelStart(Text.IntToDecimal(year) + "-" + rest)) == Some(year)
  {
    var d := Text.IntToDecimal(year);
    assert '-' !in d by {
      forall k | 0 <= k < |d| ensures d[k] != '-' {
        assert Text.IsDigit(d[k]);
      }
    }
    LabelStartOf(d, rest);
    Text.PyIntOfDecimal(year);
  }

  /** `num_campaign`: the regression index of the start year's campaign,
      counting on from the last known campaign. */
  function NumCampaign(count: nat, lastStart: int, startYear: int): (n: int)
    ensures startYear > lastStart ==> n >= count
    ensures startYear == lastStart + 1 ==> n == count
    ensures n - (count - 1) == startYear - lastStart
  {
    count + (startYear - (lastStart + 1))
  }

  const OutOfBounds := "single positional indexer is out-of-bounds"

  function TooEarly(lastStart: int): string {
    "Année déjà présente ou trop ancienne ! Veuillez entrer une année > " + Text.IntToDecimal(lastStart) + "."
  }

  function InvalidLiteral(text: string): string {
    "invalid literal for int() with base 10: '" + text + "'"
  }

  /** `predict_campaign`: `train` is the model fit (the exception it raises,
      if any) and `predict` the fitted model applied to a campaign index. */
  function PredictCampaign(series: seq<Campaign>, startYear: int,
                           train: seq<Campaign> -> Option<Raised>,
                           predict: (seq<Campaign>, int) -> int): (r: Result<int, Raised>)
    ensures train(series).Some? ==> r == Err(train(series).value)
    ensures train(series).None? && |series| == 0 ==> r == Err(OtherError(OutOfBounds))
    ensures r.Ok? ==> |series| > 0
    ensures r.Ok? <==> (train(series).None? && |series| > 0
                        && Text.PyInt(LabelStart(series[|series| - 1].campagne)).Some?
                        && startYear > Text.PyInt(LabelStart(series[|series| - 1].campagne)).value)
    ensures r.Ok? ==> exists n :: n >= |series| && r.value == predict(series, n)
    ensures r.Ok? ==>
              r.value == predict(series, NumCampaign(|series|, Text.PyInt(LabelStart(series[|series| - 1].campagne)).value, startYear))
  {
    match train(series)
    case Some(e) => Err(e)
    case None =>
      if |series| == 0 then Err(OtherError(OutOfBounds))
      else
        var head := LabelStart(series[|series| - 1].campagne);
        match Text.PyInt(head)
        case None => Err(ValueError(InvalidLiteral(head)))
        case Some(last) =>
          if startYear <= last then Err(ValueError(TooEarly(last)))
          else Ok(predict(series, NumCampaign(|series|, last, startYear)))
  }

  /** A start year at or before the last known campaign is refused with the
      message naming that campaign's year. */
  lemma PastYearRefused(series: seq<Campaign>, startYear: int, train: seq<Campaign> -> Option<Raised>,
                        predict: (seq<Campaign>, int) -> int, lastYear: nat, rest: string)
    requires train(series).None? && |series| > 0
    requires series[|series| - 1].campagne == Text.IntToDecimal(lastYear) + "-" + rest
    requires startYear <= lastYear
    ensures PredictCampaign(series, startYear, train, predict) == Err(ValueError(TooEarly(lastYear)))
  {
    StartOfLabel(lastYear, rest);
  }

  /** The year right after the last campaign is predicted at index
      `len(series)`. */
  lemma NextYearIndex(series: seq<Campaign>, train: seq<Campaign> -> Option<Raised>,
                      predict: (seq<Campaign>, int) -> int, lastYear: nat, rest: string)
    requires train(series).None? && |series| > 0
    requires series[|series| - 1].campagne == Text.IntToDecimal(lastYear) + "-" + rest
    ensures PredictCampaign(series, lastYear + 1, train, predict) == Ok(predict(series, |series|))
  {
    StartOfLabel(lastYear, rest);
  }

  /** `predict_by_choice`: "doses" picks the doses series, any other choice
      the acts series. */
  function PredictByChoice(doses: seq<Campaign>, actes: seq<Campaign>, choice: string, startYear: int,
                           train: seq<Campaign> -> Option<Raised>,
                           predict: (seq<Campaign>, int) -> int): (r: Result<int, Raised>)
    ensures choice == "doses" ==> r == PredictCampaign(doses, startYear, train, predict)
    ensures choice != "doses" ==> r == PredictCampaign(actes, startYear, train, predict)
  {
    PredictCampaign(if choice == "doses" then doses else actes, startYear, train, predict)
  }
}

=== FILE: choropleth.dfy ===
/** The trace every choropleth map draws: one location per geography feature,
    in the features' order, coloured by the department's aggregated value or
    by 0 when the department has none. */
module Choropleth {

  /** The `locations` and `z` arrays handed to the map. */
  datatype Trace = Trace(locations: seq<string>, z: seq<real>)

  /** `dataByDept[code] ?? 0`. */
  function ValueOrZero(data: map<string, real>, code: string): real {
    if code in data then data[code] else 0.0
  }

  /** The `for (const feat of geojson.features)` loop: push the feature's code
      and its value (0 for a department without data). */
  method ZeroFill(features: seq<string>, data: map<string, real>) returns (t: Trace)
    ensures t.locations == features
    ensures |t.z| == |features|
    ensures forall i :: 0 <= i < |features| && features[i] in data ==> t.z[i] == data[features[i]]
    ensures forall i :: 0 <= i < |features| && features[i] !in data ==> t.z[i] == 0.0
  {
    var locations: seq<string> := [];
    var z: seq<real> := [];
    var i := 0;
    while i < |features|
      invariant 0 <= i <= |features|
      invariant locations == features[..i]
      invariant |z| == i
      invariant forall j :: 0 <= j < i ==> z[j] == ValueOrZero(data, features[j])
    {
      var code := features[i];
      var val := ValueOrZero(data, code);
      locations := locations + [code];
      z := z + [val];
      i := i + 1;
    }
    assert features[..i] == features;
    t := Trace(locations, z);
  }
}

=== FILE: coverage_evolution.dfy ===
/** The yearly coverage curve (`CouvertureAnnuelleEvolution`): the mean
    coverage rate of each year of the selected range, years ascending. Unlike
    the map, a missing rate counts as 0 and still counts in the denominator. */
module CoverageEvolution {
  import opened Wrappers
  import opened Records
  import Grouping
  import Sorting

  /** `annee && annee >= lo && annee <= hi`: year 0 is falsy and left out. */
  predicate Contributes(r: CouvertureRecord, range: TimeRange) {
    r.annee != 0 && InRange(r.annee, range)
  }

  function Keep(range: TimeRange): CouvertureRecord -> bool {
    r => Contributes(r, range)
  }

  function Year(r: CouvertureRecord): int {
    r.annee
  }

  /** `item.grippeTotale || 0`. */
  function Rate(r: CouvertureRecord): real {
    OrZero(r.grippeTotale)
  }

  /** One point of the curve. */
  datatype YearMean = YearMean(annee: int, moyenne: real)

  /** The two parallel arrays the chart plots. */
  datatype Evolution = Evolution(annees: seq<int>, moyennes: seq<real>)

  function YearKey(p: YearMean): real {
    p.annee as real
  }

  /** Some record contributes to year `y`. */
  predicate HasYear(rs: seq<CouvertureRecord>, range: TimeRange, y: int) {
    Grouping.AnyKept(rs, Keep(range), Year, y)
  }

  /** Sum of the year's rates over the number of its records. */
  function YearMeanOf(rs: seq<CouvertureRecord>, range: TimeRange, y: int): real
    requires HasYear(rs, range, y)
  {
    Grouping.SelectMean(rs, Keep(range), Year, Rate, y);
    Grouping.KeptSum(rs, Keep(range), Year, Rate, y) / (Grouping.KeptCount(rs, Keep(range), Year, y) as real)
  }

  /** The points in the order their years first appear (`yearGroups` order),
      one per year. */
  function Points(rs: seq<CouvertureRecord>, range: TimeRange): (ps: seq<YearMean>)
    ensures forall i, j :: 0 <= i < j < |ps| ==> ps[i].annee != ps[j].annee
    ensures forall p: YearMean :: p in ps <==> HasYear(rs, range, p.annee) && p.moyenne == YearMeanOf(rs, range, p.annee)
  {
    var es := Grouping.Select(rs, Keep(range), Year, Rate);
    forall y
      ensures Grouping.HasKey(es, y) <==> HasYear(rs, range, y)
    {
      Grouping.SelectHasKey(rs, Keep(range), Year, Rate, y);
    }
    var ys := Grouping.Keys(es);
    var ps := seq(|ys|, i requires 0 <= i < |ys| => YearMean(ys[i], YearMeanOf(rs, range, ys[i])));
    forall p: YearMean | HasYear(rs, range, p.annee) && p.moyenne == YearMeanOf(rs, range, p.annee)
      ensures p in ps
    {
      var i :| 0 <= i < |ys| && ys[i] == p.annee;
      assert ps[i] == p;
    }
    ps
  }

  /** Sorting points with distinct years by year makes the years strictly
      ascend and keeps the same points. */
  lemma SortedPointsAscend(ps: seq<YearMean>)
    requires forall i, j :: 0 <= i < j < |ps| ==> ps[i].annee != ps[j].annee
    ensures var s := Sorting.SortBy(ps, YearKey);
            forall i, j :: 0 <= i < j < |s| ==> s[i].annee < s[j].annee
    ensures forall p :: p in Sorting.SortBy(ps, YearKey) <==> p in ps
  {
    var s := Sorting.SortBy(ps, YearKey);
    Sorting.SortByIsSorted(ps, YearKey);
    assert Sorting.Distinct(ps);
    Sorting.PermutationDistinct(ps, s);
    forall p
      ensures p in s <==> p in ps
    {
      assert p in s <==> p in multiset(s);
      assert p in ps <==> p in multiset(ps);
    }
    forall i, j | 0 <= i < j < |s|
      ensures s[i].annee < s[j].annee
    {
      assert s[i] in ps && s[j] in ps;
      var a :| 0 <= a < |ps| && ps[a] == s[i];
      var b :| 0 <= b < |ps| && ps[b] == s[j];
      assert a != b;
      assert YearKey(s[i]) <= YearKey(s[j]);
    }
  }

  /** The points of the curve, ordered by year. */
  function SortedPoints(rs: seq<CouvertureRecord>, range: TimeRange): (s: seq<YearMean>)
    ensures forall i, j :: 0 <= i < j < |s| ==> s[i].annee < s[j].annee
    ensures forall i :: 0 <= i < |s| ==>
              HasYear(rs, range, s[i].annee) && s[i].moyenne == YearMeanOf(rs, range, s[i].annee)
    ensures forall y :: HasYear(rs, range, y) ==> YearMean(y, YearMeanOf(rs, range, y)) in s
  {
    var ps := Points(rs, range);
    SortedPointsAscend(ps);
    SortedPointsSound(rs, range);
    forall y | HasYear(rs, range, y)
      ensures YearMean(y, YearMeanOf(rs, range, y)) in Sorting.SortBy(ps, YearKey)
    {
      SortedPointsComplete(rs, range, y);
    }
    Sorting.SortBy(ps, YearKey)
  }

  lemma SortedPointsSound(rs: seq<CouvertureRecord>, range: TimeRange)
    ensures var s := Sorting.SortBy(Points(rs, range), YearKey);
            forall i :: 0 <= i < |s| ==>
              HasYear(rs, range, s[i].annee) && s[i].moyenne == YearMeanOf(rs, range, s[i].annee)
  {
    var ps := Points(rs, range);
    var s := Sorting.SortBy(ps, YearKey);
    SortedPointsAscend(ps);
    forall i | 0 <= i < |s|
      ensures HasYear(rs, range, s[i].annee) && s[i].moyenne == YearMeanOf(rs, range, s[i].annee)
    {
      assert s[i] in s;
      assert s[i] in ps;
    }
  }

  lemma SortedPointsComplete(rs: seq<CouvertureRecord>, range: TimeRange, y: int)
    requires HasYear(rs, range, y)
    ensures YearMean(y, YearMeanOf(rs, range, y)) in Sorting.SortBy(Points(rs, range), YearKey)
  {
    var ps := Points(rs, range);
    SortedPointsAscend(ps);
    assert YearMean(y, YearMeanOf(rs, range, y)) in ps;
  }

  /** The two parallel columns of a list of points. */
  function Columns(s: seq<YearMean>): (e: Evolution)
    ensures |e.annees| == |s| && |e.moyennes| == |s|
    ensures forall i :: 0 <= i < |s| ==> e.annees[i] == s[i].annee && e.moyennes[i] == s[i].moyenne
  {
    Evolution(seq(|s|, i requires 0 <= i < |s| => s[i].annee),
              seq(|s|, i requires 0 <= i < |s| => s[i].moyenne))
  }

  /** The curve of a list of records: the years with data, strictly
      ascending, each beside its mean rate. */
  function Curve(rs: seq<CouvertureRecord>, range: TimeRange): (e: Evolution)
    ensures |e.annees| == |e.moyennes|
    ensures forall i, j :: 0 <= i < j < |e.annees| ==> e.annees[i] < e.annees[j]
    ensures forall y :: y in e.annees <==> HasYear(rs, range, y)
    ensures forall i :: 0 <= i < |e.annees| ==>
              HasYear(rs, range, e.annees[i]) && e.moyennes[i] == YearMeanOf(rs, range, e.annees[i])
  {
    var s := SortedPoints(rs, range);
    var e := Columns(s);
    forall y | HasYear(rs, range, y)
      ensures y in e.annees
    {
      var i :| 0 <= i < |s| && s[i] == YearMean(y, YearMeanOf(rs, range, y));
      assert e.annees[i] == y;
    }
    e
  }

  /** `evolutionData`: null for an absent or empty list, the curve otherwise. */
  function EvolutionData(data: Option<seq<CouvertureRecord>>, range: TimeRange): (e: Option<Evolution>)
    ensures e.None? <==> AbsentOrEmpty(data)
    ensures e.Some? ==> |e.value.annees| == |e.value.moyennes|
    ensures e.Some? ==> forall i, j :: 0 <= i < j < |e.value.annees| ==> e.value.annees[i] < e.value.annees[j]
    ensures e.Some? ==> forall y :: y in e.value.annees <==> HasYear(data.value, range, y)
    ensures e.Some? ==> forall i :: 0 <= i < |e.value.annees| ==>
              e.value.moyennes[i] == YearMeanOf(data.value, range, e.value.annees[i])
  {
    if AbsentOrEmpty(data) then None else Some(Curve(data.value, range))
  }

  /** Every plotted year is non-zero and inside the selected range. */
  lemma PlottedYearsInRange(data: Option<seq<CouvertureRecord>>, range: TimeRange, i: int)
    requires !AbsentOrEmpty(data)
    requires 0 <= i < |EvolutionData(data, range).value.annees|
    ensures var y := EvolutionData(data, range).value.annees[i];
            y != 0 && InRange(y, range)
  {
    var y := EvolutionData(data, range).value.annees[i];
    var rs := data.value;
    var k := Grouping.FirstKept(rs, Keep(range), Year, y);
    assert Contributes(rs[k], range);
  }
}

=== FILE: coverage_map.dfy ===
/** The vaccination-coverage map (`ChloropeteMap`): the mean coverage rate of
    each department code over the selected years, then zero-filled against the
    geography features. */
module CoverageMap {
  import opened Wrappers
  import opened Records
  import Grouping
  import Choropleth

  /** A record contributes when it has a code, a positive rate and a year in
      the selected range. */
  predicate Contributes(r: CouvertureRecord, range: TimeRange) {
    Truthy(r.code) && IsNumber(r.grippeTotale) && r.grippeTotale.value > 0.0 && InRange(r.annee, range)
  }

  function Keep(range: TimeRange): CouvertureRecord -> bool {
    r => Contributes(r, range)
  }

  function Code(r: CouvertureRecord): string {
    r.code
  }

  function Rate(r: CouvertureRecord): real {
    OrZero(r.grippeTotale)
  }

  /** Some record of `rs` contributes to department `code`. */
  predicate HasContribution(rs: seq<CouvertureRecord>, range: TimeRange, code: string) {
    exists i :: 0 <= i < |rs| && Contributes(rs[i], range) && rs[i].code == code
  }

  /** `dataByDept`: department code to mean coverage rate. */
  function DataByDept(data: Option<seq<CouvertureRecord>>, range: TimeRange): (m: map<string, real>)
    ensures AbsentOrEmpty(data) ==> m == map[]
    ensures forall code :: code in m <==> data.Some? && HasContribution(data.value, range, code)
    ensures forall code :: code in m ==>
              Grouping.KeptCount(data.value, Keep(range), Code, code) > 0
              && m[code] == Grouping.KeptSum(data.value, Keep(range), Code, Rate, code)
                            / (Grouping.KeptCount(data.value, Keep(range), Code, code) as real)
    ensures forall code :: code in m ==> m[code] > 0.0
  {
    if AbsentOrEmpty(data) then map[]
    else
      var rs := data.value;
      var es := Grouping.Select(rs, Keep(range), Code, Rate);
      var m := Grouping.Means(es);
      assert forall code :: Grouping.HasKey(es, code) <==> HasContribution(rs, range, code) by {
        forall code
          ensures Grouping.HasKey(es, code) <==> HasContribution(rs, range, code)
        {
          Grouping.SelectHasKey(rs, Keep(range), Code, Rate, code);
        }
      }
      Grouping.SelectPositive(rs, Keep(range), Code, Rate);
      forall code | code in m
        ensures m[code] > 0.0
        ensures Grouping.KeptCount(rs, Keep(range), Code, code) > 0
        ensures m[code] == Grouping.KeptSum(rs, Keep(range), Code, Rate, code)
                           / (Grouping.KeptCount(rs, Keep(range), Code, code) as real)
      {
        Grouping.MeanPositive(es, code);
        Grouping.SelectMean(rs, Keep(range), Code, Rate, code);
      }
      m
  }

  /** On the drawn map, a department is coloured above 0 exactly when one of
      its records contributes. */
  lemma ColouredIffContributing(data: Option<seq<CouvertureRecord>>, range: TimeRange, code: string)
    ensures Choropleth.ValueOrZero(DataByDept(data, range), code) > 0.0
        <==> data.Some? && HasContribution(data.value, range, code)
  {
  }

  /** A zero or missing rate never reaches the map, whatever its year. */
  lemma NonPositiveIgnored(data: seq<CouvertureRecord>, range: TimeRange, r: CouvertureRecord)
    requires r.grippeTotale.None? || r.grippeTotale.value <= 0.0
    ensures DataByDept(Some(data + [r]), range) == DataByDept(Some(data), range)
  {
  }
}

=== FILE: grouping.dfy ===
/** Group-by and fold, as the chart components write it: a JavaScript `Map`
    from key to `{count, total}` filled by one `forEach`, then read back in
    insertion order. The declarative side (`Keys`, `Count`, `Total`, `Mean`)
    is the reference; `Accumulate` is the loop, proved equal to it. */
module Grouping {
  import Sorting

  /** One contributing record, reduced to its grouping key and its value. */
  datatype Entry<K> = Entry(key: K, value: real)

  /** The running `{count, total}` of one group. */
  datatype Acc = Acc(count: nat, total: real)

  predicate HasKey<K(==)>(es: seq<Entry<K>>, k: K) {
    exists i :: 0 <= i < |es| && es[i].key == k
  }

  /** Position of the first entry carrying `k`. */
  function FirstIndex<K(==)>(es: seq<Entry<K>>, k: K): (i: nat)
    requires HasKey(es, k)
    ensures i < |es| && es[i].key == k
    ensures forall j :: 0 <= j < i ==> es[j].key != k
  {
    if es[0].key == k then 0
    else
      assert HasKey(es[1..], k) by {
        var i :| 0 <= i < |es| && es[i].key == k;
        assert es[1..][i - 1] == es[i];
      }
      1 + FirstIndex(es[1..], k)
  }

  lemma HasKeySnoc<K>(es: seq<Entry<K>>, k: K)
    requires |es| > 0
    ensures HasKey(es, k) <==> HasKey(es[..|es| - 1], k) || es[|es| - 1].key == k
  {
    var p := es[..|es| - 1];
    assert forall i :: 0 <= i < |p| ==> p[i] == es[i];
    if HasKey(es, k) && es[|es| - 1].key != k {
      var i :| 0 <= i < |es| && es[i].key == k;
      assert p[i].key == k;
    }
  }

  lemma FirstIndexPrefix<K>(es: seq<Entry<K>>, n: nat, k: K)
    requires n <= |es| && HasKey(es[..n], k)
    ensures HasKey(es, k) && FirstIndex(es[..n], k) == FirstIndex(es, k)
  {
    var p := es[..n];
    var a := FirstIndex(p, k);
    assert es[a] == p[a];
    assert forall j :: 0 <= j < a ==> es[j].key != k by {
      forall j | 0 <= j < a ensures es[j].key != k {
        assert p[j] == es[j];
      }
    }
  }

  /** The distinct keys in order of first appearance: the iteration order of
      a JavaScript `Map` filled by `set` on first sight of each key. */
  function Keys<K(==,!new)>(es: seq<Entry<K>>): (ks: seq<K>)
    ensures Sorting.Distinct(ks)
    ensures forall k :: k in ks <==> HasKey(es, k)
    decreases |es|
  {
    if |es| == 0 then []
    else
      var n := |es| - 1;
      var p := es[..n];
      var ks := Keys(p);
      assert forall k :: HasKey(es, k) <==> HasKey(p, k) || es[n].key == k by {
        forall k ensures HasKey(es, k) <==> HasKey(p, k) || es[n].key == k {
          HasKeySnoc(es, k);
        }
      }
      if es[n].key in ks then ks else ks + [es[n].key]
  }

  /** `Keys` lists the groups in the order their first entries appear. */
  lemma {:induction false} KeysInFirstAppearanceOrder<K(!new)>(es: seq<Entry<K>>)
    ensures forall i, j :: 0 <= i < j < |Keys(es)| ==> FirstIndex(es, Keys(es)[i]) < FirstIndex(es, Keys(es)[j])
    decreases |es|
  {
    if |es| > 0 {
      var n := |es| - 1;
      var p := es[..n];
      KeysInFirstAppearanceOrder(p);
      var ks := Keys(p);
      forall k | k in ks
        ensures FirstIndex(p, k) == FirstIndex(es, k)
      {
        FirstIndexPrefix(es, n, k);
      }
      if es[n].key !in ks {
        HasKeySnoc(es, es[n].key);
        assert FirstIndex(es, es[n].key) == n;
      }
    }
  }

  /** Number of entries carrying `k`. */
  function Count<K(==)>(es: seq<Entry<K>>, k: K): (c: nat)
    ensures c <= |es|
    decreases |es|
  {
    if |es| == 0 then 0
    else Count(es[..|es| - 1], k) + (if es[|es| - 1].key == k then 1 else 0)
  }

  /** Sum of the values of the entries carrying `k`. */
  function Total<K(==)>(es: seq<Entry<K>>, k: K): real
    decreases |es|
  {
    if |es| == 0 then 0.0
    else Total(es[..|es| - 1], k) + (if es[|es| - 1].key == k then es[|es| - 1].value else 0.0)
  }

  lemma {:induction false} CountPositive<K>(es: seq<Entry<K>>, k: K)
    ensures Count(es, k) > 0 <==> HasKey(es, k)
    decreases |es|
  {
    if |es| > 0 {
      CountPositive(es[..|es| - 1], k);
      HasKeySnoc(es, k);
    }
  }

  /** The mean of group `k`: total divided by count. */
  function Mean<K(==)>(es: seq<Entry<K>>, k: K): real
    requires HasKey(es, k)
  {
    CountPositive(es, k);
    Total(es, k) / (Count(es, k) as real)
  }

  /** A group whose values are all positive has a positive total. */
  lemma {:induction false} TotalPositive<K>(es: seq<Entry<K>>, k: K)
    requires forall i :: 0 <= i < |es| && es[i].key == k ==> es[i].value > 0.0
    requires HasKey(es, k)
    ensures Total(es, k) > 0.0
    decreases |es|
  {
    var p := es[..|es| - 1];
    assert forall i :: 0 <= i < |p| ==> p[i] == es[i];
    HasKeySnoc(es, k);
    if HasKey(p, k) {
      TotalPositive(p, k);
      TotalNonNegative(es, k);
    } else {
      TotalNonNegative(p, k);
    }
  }

  lemma {:induction false} TotalNonNegative<K>(es: seq<Entry<K>>, k: K)
    requires forall i :: 0 <= i < |es| && es[i].key == k ==> es[i].value >= 0.0
    ensures Total(es, k) >= 0.0
    ensures Total(es, k) >= Total(es[..if |es| == 0 then 0 else |es| - 1], k)
    decreases |es|
  {
    if |es| > 0 {
      var p := es[..|es| - 1];
      assert forall i :: 0 <= i < |p| ==> p[i] == es[i];
      TotalNonNegative(p, k);
    }
  }

  /** The mean of a group of positive values is positive. */
  lemma MeanPositive<K>(es: seq<Entry<K>>, k: K)
    requires forall i :: 0 <= i < |es| && es[i].key == k ==> es[i].value > 0.0
    requires HasKey(es, k)
    ensures Mean(es, k) > 0.0
  {
    TotalPositive(es, k);
    CountPositive(es, k);
  }

  /** The `forEach` loop of the chart components: on first sight of a key,
      `set(key, {count: 0, total: 0})`; then `count += 1; total += value`.
      Returns the map's insertion order and its final contents. */
  method Accumulate<K(==,!new)>(es: seq<Entry<K>>) returns (order: seq<K>, groups: map<K, Acc>)
    ensures order == Keys(es)
    ensures forall k :: k in groups <==> HasKey(es, k)
    ensures forall k :: k in groups ==> groups[k] == Acc(Count(es, k), Total(es, k))
  {
    order := [];
    groups := map[];
    var i := 0;
    while i < |es|
      invariant 0 <= i <= |es|
      invariant order == Keys(es[..i])
      invariant forall k :: k in groups <==> k in order
      invariant forall k :: k in groups ==> groups[k] == Acc(Count(es[..i], k), Total(es[..i], k))
    {
      var e := es[i];
      ghost var pre := es[..i];
      ghost var post := es[..i + 1];
      assert post[..i] == pre && post[i] == e;
      if e.key !in groups {
        AbsentGroup(pre, e.key);
        order := order + [e.key];
        groups := groups[e.key := Acc(0, 0.0)];
      }
      var g := groups[e.key];
      groups := groups[e.key := Acc(g.count + 1, g.total + e.value)];
      i := i + 1;
    }
    assert es[..i] == es;
  }

  lemma AbsentGroup<K>(es: seq<Entry<K>>, k: K)
    requires !HasKey(es, k)
    ensures Count(es, k) == 0 && Total(es, k) == 0.0
  {
    CountPositive(es, k);
    TotalOfAbsent(es, k);
  }

  lemma {:induction false} TotalOfAbsent<K>(es: seq<Entry<K>>, k: K)
    requires !HasKey(es, k)
    ensures Total(es, k) == 0.0
    decreases |es|
  {
    if |es| > 0 {
      var p := es[..|es| - 1];
      HasKeySnoc(es, k);
      TotalOfAbsent(p, k);
    }
  }

  /** The mean times the count gives back the total. */
  lemma MeanTimesCount<K>(es: seq<Entry<K>>, k: K)
    requires HasKey(es, k)
    ensures Mean(es, k) * (Count(es, k) as real) == Total(es, k)
  {
    CountPositive(es, k);
  }

  /** The mean of every group, keyed by group: what the components build with
      `result[key] = total / count`. */
  function Means<K(==,!new)>(es: seq<Entry<K>>): (m: map<K, real>)
    ensures forall k :: k in m <==> HasKey(es, k)
    ensures forall k :: k in m ==> m[k] == Mean(es, k)
  {
    var ks := Keys(es);
    map k | k in ks :: Mean(es, k)
  }

  // ---------------------------------------------------------------------------
  // Last write wins: successive `result[key] = value` assignments.
  // ---------------------------------------------------------------------------

  /** No later pair carries the key of pair `i`. */
  predicate IsLast<K(==), V>(ps: seq<(K, V)>, i: int)
    requires 0 <= i < |ps|
  {
    forall j :: i < j < |ps| ==> ps[j].0 != ps[i].0
  }

  predicate HasFirst<K(==), V>(ps: seq<(K, V)>, k: K) {
    exists i :: 0 <= i < |ps| && ps[i].0 == k
  }

  lemma HasFirstSnoc<K, V>(ps: seq<(K, V)>, k: K)
    requires |ps| > 0
    ensures HasFirst(ps, k) <==> HasFirst(ps[..|ps| - 1], k) || ps[|ps| - 1].0 == k
  {
    var p := ps[..|ps| - 1];
    assert forall i :: 0 <= i < |p| ==> p[i] == ps[i];
    if HasFirst(ps, k) && ps[|ps| - 1].0 != k {
      var i :| 0 <= i < |ps| && ps[i].0 == k;
      assert p[i].0 == k;
    }
  }

  function LastWins<K(==,!new), V>(ps: seq<(K, V)>): (m: map<K, V>)
    ensures forall k :: k in m <==> HasFirst(ps, k)
    ensures forall i :: 0 <= i < |ps| && IsLast(ps, i) ==> ps[i].0 in m && m[ps[i].0] == ps[i].1
    decreases |ps|
  {
    if |ps| == 0 then map[]
    else
      var n := |ps| - 1;
      var p := ps[..n];
      LastWinsSnoc(ps);
      LastWins(p)[ps[n].0 := ps[n].1]
  }

  /** Appending a pair adds its key, and keeps every earlier last occurrence
      last in the prefix. */
  lemma LastWinsSnoc<K, V>(ps: seq<(K, V)>)
    requires |ps| > 0
    ensures forall k :: HasFirst(ps, k) <==> HasFirst(ps[..|ps| - 1], k) || ps[|ps| - 1].0 == k
    ensures forall i :: 0 <= i < |ps| - 1 && IsLast(ps, i) ==> IsLast(ps[..|ps| - 1], i)
  {
    var n := |ps| - 1;
    var p := ps[..n];
    forall k ensures HasFirst(ps, k) <==> HasFirst(p, k) || ps[n].0 == k {
      HasFirstSnoc(ps, k);
    }
    forall i | 0 <= i < n && IsLast(ps, i) ensures IsLast(p, i) {
      assert forall j :: i < j < n ==> p[j] == ps[j];
    }
  }

  // ---------------------------------------------------------------------------
  // Filter-and-project: the `if (…) { group.count += 1; group.total += v }`
  // guard of each component, reduced to the entries that reach the group.
  // ---------------------------------------------------------------------------

  /** The entries of the records that pass `keep`, in input order. */
  function Select<R, K>(rs: seq<R>, keep: R -> bool, key: R -> K, value: R -> real): (es: seq<Entry<K>>)
    ensures |es| <= |rs|
    decreases |rs|
  {
    if |rs| == 0 then []
    else
      var n := |rs| - 1;
      Select(rs[..n], keep, key, value)
        + (if keep(rs[n]) then [Entry(key(rs[n]), value(rs[n]))] else [])
  }

  /** Entry `e` is the projection of some kept record. */
  predicate FromKept<R, K(==)>(rs: seq<R>, keep: R -> bool, key: R -> K, value: R -> real, e: Entry<K>) {
    exists i :: 0 <= i < |rs| && keep(rs[i]) && e == Entry(key(rs[i]), value(rs[i]))
  }

  /** Every selected entry comes from a kept record. */
  lemma {:induction false} SelectSource<R, K>(rs: seq<R>, keep: R -> bool, key: R -> K, value: R -> real)
    ensures forall e :: e in Select(rs, keep, key, value) ==> FromKept(rs, keep, key, value, e)
    decreases |rs|
  {
    if |rs| > 0 {
      var n := |rs| - 1;
      var p := rs[..n];
      SelectSource(p, keep, key, value);
      var es := Select(rs, keep, key, value);
      var ps := Select(p, keep, key, value);
      assert es == ps + (if keep(rs[n]) then [Entry(key(rs[n]), value(rs[n]))] else []);
      forall e | e in es
        ensures FromKept(rs, keep, key, value, e)
      {
        if e in ps {
          assert FromKept(p, keep, key, value, e);
          var i :| 0 <= i < |p| && keep(p[i]) && e == Entry(key(p[i]), value(p[i]));
          assert rs[i] == p[i];
        } else {
          assert keep(rs[n]) && e == Entry(key(rs[n]), value(rs[n]));
        }
      }
    }
  }

  /** A group exists exactly when some kept record carries its key. */
  lemma {:induction false} SelectHasKey<R, K>(rs: seq<R>, keep: R -> bool, key: R -> K, value: R -> real, k: K)
    ensures HasKey(Select(rs, keep, key, value), k) <==> exists i :: 0 <= i < |rs| && keep(rs[i]) && key(rs[i]) == k
    decreases |rs|
  {
    if |rs| > 0 {
      var n := |rs| - 1;
      var p := rs[..n];
      var es := Select(rs, keep, key, value);
      var ps := Select(p, keep, key, value);
      SelectHasKey(p, keep, key, value, k);
      assert forall j :: 0 <= j < |ps| ==> es[j] == ps[j];
      assert forall i :: 0 <= i < |p| ==> rs[i] == p[i];
      if HasKey(es, k) {
        var j :| 0 <= j < |es| && es[j].key == k;
        if j >= |ps| {
          assert keep(rs[n]) && key(rs[n]) == k;
        }
      }
      if exists i :: 0 <= i < |rs| && keep(rs[i]) && key(rs[i]) == k {
        var i :| 0 <= i < |rs| && keep(rs[i]) && key(rs[i]) == k;
        if i == n {
          assert es[|ps|].key == k;
        }
      }
    }
  }
  /** Number of records that pass `keep` and carry key `k`. */
  function KeptCount<R, K(==)>(rs: seq<R>, keep: R -> bool, key: R -> K, k: K): nat
    decreases |rs|
  {
    if |rs| == 0 then 0
    else
      var n := |rs| - 1;
      KeptCount(rs[..n], keep, key, k) + (if keep(rs[n]) && key(rs[n]) == k then 1 else 0)
  }

  /** Sum of the values of the records that pass `keep` and carry key `k`. */
  function KeptSum<R, K(==)>(rs: seq<R>, keep: R -> bool, key: R -> K, value: R -> real, k: K): real
    decreases |rs|
  {
    if |rs| == 0 then 0.0
    else
      var n := |rs| - 1;
      KeptSum(rs[..n], keep, key, value, k) + (if keep(rs[n]) && key(rs[n]) == k then value(rs[n]) else 0.0)
  }

  /** A group's count and total are those of the kept records carrying its key. */
  lemma {:induction false} SelectCountTotal<R, K>(rs: seq<R>, keep: R -> bool, key: R -> K, value: R -> real, k: K)
    ensures Count(Select(rs, keep, key, value), k) == KeptCount(rs, keep, key, k)
    ensures Total(Select(rs, keep, key, value), k) == KeptSum(rs, keep, key, value, k)
    decreases |rs|
  {
    if |rs| > 0 {
      var n := |rs| - 1;
      SelectCountTotal(rs[..n], keep, key, value, k);
      var ps := Select(rs[..n], keep, key, value);
      var es := Select(rs, keep, key, value);
      if keep(rs[n]) {
        assert es[..|es| - 1] == ps;
      } else {
        assert es == ps;
      }
    }
  }

  /** The mean of a selected group is the sum of the kept values carrying its
      key over their number, which is positive. */
  lemma SelectMean<R, K>(rs: seq<R>, keep: R -> bool, key: R -> K, value: R -> real, k: K)
    requires exists i :: 0 <= i < |rs| && keep(rs[i]) && key(rs[i]) == k
    ensures HasKey(Select(rs, keep, key, value), k)
    ensures KeptCount(rs, keep, key, k) > 0
    ensures Mean(Select(rs, keep, key, value), k)
         == KeptSum(rs, keep, key, value, k) / (KeptCount(rs, keep, key, k) as real)
  {
    SelectHasKey(rs, keep, key, value, k);
    SelectCountTotal(rs, keep, key, value, k);
    CountPositive(Select(rs, keep, key, value), k);
  }

  /** Selecting only positive values yields only positive entries. */
  lemma SelectPositive<R, K>(rs: seq<R>, keep: R -> bool, key: R -> K, value: R -> real)
    requires forall i :: 0 <= i < |rs| && keep(rs[i]) ==> value(rs[i]) > 0.0
    ensures forall j :: 0 <= j < |Select(rs, keep, key, value)| ==> Select(rs, keep, key, value)[j].value > 0.0
  {
    var es := Select(rs, keep, key, value);
    SelectSource(rs, keep, key, value);
    forall j | 0 <= j < |es|
      ensures es[j].value > 0.0
    {
      assert es[j] in es;
      assert FromKept(rs, keep, key, value, es[j]);
    }
  }
  /** Some record passes `keep` with key `k`. */
  predicate AnyKept<R, K(==)>(rs: seq<R>, keep: R -> bool, key: R -> K, k: K) {
    exists i :: 0 <= i < |rs| && keep(rs[i]) && key(rs[i]) == k
  }

  /** Position of the first record that passes `keep` with key `k`: the one
      that creates the group when the components key a `Map` on first sight. */
  function FirstKept<R, K(==)>(rs: seq<R>, keep: R -> bool, key: R -> K, k: K): (i: nat)
    requires AnyKept(rs, keep, key, k)
    ensures i < |rs| && keep(rs[i]) && key(rs[i]) == k
    ensures forall j :: 0 <= j < i ==> !(keep(rs[j]) && key(rs[j]) == k)
  {
    if keep(rs[0]) && key(rs[0]) == k then 0
    else
      assert AnyKept(rs[1..], keep, key, k) by {
        var i :| 0 <= i < |rs| && keep(rs[i]) && key(rs[i]) == k;
        assert rs[1..][i - 1] == rs[i];
      }
      1 + FirstKept(rs[1..], keep, key, k)
  }
  /** Both keys have a kept record, and `a`'s first one comes before `b`'s. */
  predicate SeenBefore<R, K(==)>(rs: seq<R>, keep: R -> bool, key: R -> K, a: K, b: K) {
    AnyKept(rs, keep, key, a) && AnyKept(rs, keep, key, b)
    && FirstKept(rs, keep, key, a) < FirstKept(rs, keep, key, b)
  }

  /** Selecting a prefix of the records selects a prefix of the entries. */
  lemma {:induction false} SelectPrefix<R, K>(rs: seq<R>, m: nat, keep: R -> bool, key: R -> K, value: R -> real)
    requires m <= |rs|
    ensures Select(rs[..m], keep, key, value) <= Select(rs, keep, key, value)
    decreases |rs|
  {
    if m < |rs| {
      var n := |rs| - 1;
      assert rs[..n][..m] == rs[..m];
      SelectPrefix(rs[..n], m, keep, key, value);
    } else {
      assert rs[..m] == rs;
    }
  }

  /** Fewer entries from a prefix means a shorter prefix. */
  lemma SelectLengthOrder<R, K>(rs: seq<R>, a: nat, b: nat, keep: R -> bool, key: R -> K, value: R -> real)
    requires a <= |rs| && b <= |rs|
    ensures |Select(rs[..a], keep, key, value)| < |Select(rs[..b], keep, key, value)| ==> a < b
  {
    if b <= a {
      assert rs[..a][..b] == rs[..b];
      SelectPrefix(rs[..a], b, keep, key, value);
    }
  }

  /** The first entry with key `k` is the entry of the first kept record
      with key `k`: it comes right after the entries of the records before it. */
  lemma FirstIndexOfSelect<R, K>(rs: seq<R>, keep: R -> bool, key: R -> K, value: R -> real, k: K)
    requires AnyKept(rs, keep, key, k)
    ensures HasKey(Select(rs, keep, key, value), k)
    ensures FirstIndex(Select(rs, keep, key, value), k)
         == |Select(rs[..FirstKept(rs, keep, key, k)], keep, key, value)|
  {
    var es := Select(rs, keep, key, value);
    var f := FirstKept(rs, keep, key, k);
    var before := Select(rs[..f], keep, key, value);
    assert rs[..f + 1][..f] == rs[..f];
    assert Select(rs[..f + 1], keep, key, value) == before + [Entry(key(rs[f]), value(rs[f]))];
    SelectPrefix(rs, f + 1, keep, key, value);
    var p := |before|;
    assert es[p].key == k;
    SelectHasKey(rs[..f], keep, key, value, k);
    assert forall i :: 0 <= i < f ==> rs[..f][i] == rs[i];
    assert !HasKey(before, k);
    assert forall j :: 0 <= j < p ==> es[j] == before[j];
  }

  /** The groups are listed in the order of their first kept records: the
      iteration order of a `Map` whose entry is created on first sight while
      the records are scanned. */
  lemma SelectKeysInRecordOrder<R, K(!new)>(rs: seq<R>, keep: R -> bool, key: R -> K, value: R -> real)
    ensures forall k :: k in Keys(Select(rs, keep, key, value)) <==> AnyKept(rs, keep, key, k)
    ensures forall i, j :: 0 <= i < j < |Keys(Select(rs, keep, key, value))| ==>
              SeenBefore(rs, keep, key, Keys(Select(rs, keep, key, value))[i], Keys(Select(rs, keep, key, value))[j])
  {
    var es := Select(rs, keep, key, value);
    var ks := Keys(es);
    forall k
      ensures HasKey(es, k) <==> AnyKept(rs, keep, key, k)
    {
      SelectHasKey(rs, keep, key, value, k);
    }
    KeysInFirstAppearanceOrder(es);
    forall i, j | 0 <= i < j < |ks|
      ensures SeenBefore(rs, keep, key, ks[i], ks[j])
    {
      assert ks[i] in ks && ks[j] in ks;
      FirstIndexOfSelect(rs, keep, key, value, ks[i]);
      FirstIndexOfSelect(rs, keep, key, value, ks[j]);
      SelectLengthOrder(rs, FirstKept(rs, keep, key, ks[i]), FirstKept(rs, keep, key, ks[j]), keep, key, value);
    }
  }

  // ---------------------------------------------------------------------------
  // Partition: the groups together hold every entry exactly once.
  // ---------------------------------------------------------------------------

  /** Sum of the counts of the keys `ks`. */
  function SumCounts<K(==)>(es: seq<Entry<K>>, ks: seq<K>): nat
    decreases |ks|
  {
    if |ks| == 0 then 0 else Count(es, ks[0]) + SumCounts(es, ks[1..])
  }

  lemma {:induction false} SumCountsAppend<K>(es: seq<Entry<K>>, ks: seq<K>, k: K)
    ensures SumCounts(es, ks + [k]) == SumCounts(es, ks) + Count(es, k)
    decreases |ks|
  {
    if |ks| > 0 {
      assert (ks + [k])[1..] == ks[1..] + [k];
      SumCountsAppend(es, ks[1..], k);
    }
  }

  /** Appending one entry adds one to the summed counts when its key is listed. */
  lemma {:induction false} SumCountsSnoc<K>(es: seq<Entry<K>>, ks: seq<K>)
    requires |es| > 0 && Sorting.Distinct(ks)
    ensures SumCounts(es, ks)
         == SumCounts(es[..|es| - 1], ks) + (if es[|es| - 1].key in ks then 1 else 0)
    decreases |ks|
  {
    if |ks| > 0 {
      assert Sorting.Distinct(ks[1..]);
      SumCountsSnoc(es, ks[1..]);
      assert ks[0] !in ks[1..] by {
        forall j | 0 <= j < |ks[1..]|
          ensures ks[1..][j] != ks[0]
        {
          assert ks[1..][j] == ks[j + 1];
        }
      }
      assert es[|es| - 1].key in ks <==> es[|es| - 1].key == ks[0] || es[|es| - 1].key in ks[1..];
    }
  }

  /** Every entry lies in exactly one group: the group counts add up to the
      number of entries. */
  lemma {:induction false} SumCountsOfKeys<K(!new)>(es: seq<Entry<K>>)
    ensures SumCounts(es, Keys(es)) == |es|
    decreases |es|
  {
    if |es| > 0 {
      var n := |es| - 1;
      var p := es[..n];
      var k := es[n].key;
      SumCountsOfKeys(p);
      var ks := Keys(p);
      SumCountsSnoc(es, ks);
      if k !in ks {
        SumCountsAppend(es, ks, k);
        CountPositive(p, k);
        assert Count(es, k) == 1;
      }
    }
  }

  lemma {:induction false} SumCountsOfNothing<K>(ks: seq<K>)
    ensures SumCounts([], ks) == 0
    decreases |ks|
  {
    if |ks| > 0 {
      SumCountsOfNothing(ks[1..]);
    }
  }

  /** The counts of distinct keys covering every entry add up to the number
      of entries, whatever the order of the keys. */
  lemma {:induction false} SumCountsCover<K>(es: seq<Entry<K>>, ks: seq<K>)
    requires Sorting.Distinct(ks)
    requires forall i :: 0 <= i < |es| ==> es[i].key in ks
    ensures SumCounts(es, ks) == |es|
    decreases |es|
  {
    if |es| == 0 {
      SumCountsOfNothing(ks);
    } else {
      var n := |es| - 1;
      assert forall i :: 0 <= i < n ==> es[..n][i] == es[i];
      SumCountsCover(es[..n], ks);
      SumCountsSnoc(es, ks);
    }
  }

  /** Selecting with a filter that keeps everything keeps every record. */
  lemma {:induction false} SelectAll<R, K>(rs: seq<R>, keep: R -> bool, key: R -> K, value: R -> real)
    requires forall r :: keep(r)
    ensures |Select(rs, keep, key, value)| == |rs|
    decreases |rs|
  {
    if |rs| > 0 {
      SelectAll(rs[..|rs| - 1], keep, key, value);
    }
  }

  // ---------------------------------------------------------------------------
  // Partition of the values: summing the group totals over any list of
  // distinct keys that covers every entry gives the sum of all entries.
  // ---------------------------------------------------------------------------

  /** Sum of every entry's value. */
  function GrandTotal<K>(es: seq<Entry<K>>): real
    decreases |es|
  {
    if |es| == 0 then 0.0 else GrandTotal(es[..|es| - 1]) + es[|es| - 1].value
  }

  /** Sum of the totals of the keys `ks`. */
  function SumTotals<K(==)>(es: seq<Entry<K>>, ks: seq<K>): real
    decreases |ks|
  {
    if |ks| == 0 then 0.0 else Total(es, ks[0]) + SumTotals(es, ks[1..])
  }

  lemma {:induction false} SumTotalsOfNothing<K>(ks: seq<K>)
    ensures SumTotals([], ks) == 0.0
    decreases |ks|
  {
    if |ks| > 0 {
      SumTotalsOfNothing(ks[1..]);
    }
  }

  /** Appending one entry adds its value to the summed totals when its key is
      listed. */
  lemma {:induction false} SumTotalsSnoc<K>(es: seq<Entry<K>>, ks: seq<K>)
    requires |es| > 0 && Sorting.Distinct(ks)
    ensures SumTotals(es, ks)
         == SumTotals(es[..|es| - 1], ks) + (if es[|es| - 1].key in ks then es[|es| - 1].value else 0.0)
    decreases |ks|
  {
    if |ks| > 0 {
      assert Sorting.Distinct(ks[1..]);
      SumTotalsSnoc(es, ks[1..]);
      assert ks[0] !in ks[1..] by {
        forall j | 0 <= j < |ks[1..]|
          ensures ks[1..][j] != ks[0]
        {
          assert ks[1..][j] == ks[j + 1];
        }
      }
      assert es[|es| - 1].key in ks <==> es[|es| - 1].key == ks[0] || es[|es| - 1].key in ks[1..];
    }
  }

  /** The totals of distinct keys covering every entry add up to the sum of
      all entries: no value is lost or counted twice. */
  lemma {:induction false} SumTotalsCover<K>(es: seq<Entry<K>>, ks: seq<K>)
    requires Sorting.Distinct(ks)
    requires forall i :: 0 <= i < |es| ==> es[i].key in ks
    ensures SumTotals(es, ks) == GrandTotal(es)
    decreases |es|
  {
    if |es| == 0 {
      SumTotalsOfNothing(ks);
    } else {
      var n := |es| - 1;
      assert forall i :: 0 <= i < n ==> es[..n][i] == es[i];
      SumTotalsCover(es[..n], ks);
      SumTotalsSnoc(es, ks);
    }
  }

  /** Sum of the values of every record that passes `keep`. */
  function KeptGrandTotal<R>(rs: seq<R>, keep: R -> bool, value: R -> real): real
    decreases |rs|
  {
    if |rs| == 0 then 0.0
    else
      var n := |rs| - 1;
      KeptGrandTotal(rs[..n], keep, value) + (if keep(rs[n]) then value(rs[n]) else 0.0)
  }

  /** The group totals of the selected entries add up to the sum of the
      values of every kept record. */
  lemma GroupTotalsAddUp<R, K(!new)>(rs: seq<R>, keep: R -> bool, key: R -> K, value: R -> real)
    ensures SumTotals(Select(rs, keep, key, value), Keys(Select(rs, keep, key, value)))
         == KeptGrandTotal(rs, keep, value)
  {
    var es := Select(rs, keep, key, value);
    assert forall i :: 0 <= i < |es| ==> HasKey(es, es[i].key);
    SumTotalsCover(es, Keys(es));
    SelectGrandTotal(rs, keep, key, value);
  }

  lemma {:induction false} SelectGrandTotal<R, K>(rs: seq<R>, keep: R -> bool, key: R -> K, value: R -> real)
    ensures GrandTotal(Select(rs, keep, key, value)) == KeptGrandTotal(rs, keep, value)
    decreases |rs|
  {
    if |rs| > 0 {
      var n := |rs| - 1;
      SelectGrandTotal(rs[..n], keep, key, value);
      var ps := Select(rs[..n], keep, key, value);
      var es := Select(rs, keep, key, value);
      if keep(rs[n]) {
        assert es[..|es| - 1] == ps;
      } else {
        assert es == ps;
      }
    }
  }
}

=== FILE: hospitalisation_map.dfy ===
/** The hospitalisation map (`ChoroplethHospitalisations`): the mean
    hospitalisation rate of each department code over the selected years,
    divided by 100, then zero-filled against the geography features. The year
    of a record comes from its `date` string; `native` stands for the browser's
    date parser. */
module HospitalisationMap {
  import opened Wrappers
  import opened Records
  import Grouping
  import Text

  /** A record contributes when it has a code, a rate that is a number, and a
      year in the selected range (a record without a year is compared as year
      0). There is no positivity filter. */
  predicate Contributes(r: UrgenceRecord, range: TimeRange, native: string -> Option<int>) {
    Truthy(r.code) && IsNumber(r.tauxHospitalisation)
    && YearInRange(ResolveYear(r.date, native), range)
  }

  function Keep(range: TimeRange, native: string -> Option<int>): UrgenceRecord -> bool {
    r => Contributes(r, range, native)
  }

  function Code(r: UrgenceRecord): string {
    r.code
  }

  function Rate(r: UrgenceRecord): real {
    OrZero(r.tauxHospitalisation)
  }

  predicate HasContribution(rs: seq<UrgenceRecord>, range: TimeRange, native: string -> Option<int>, code: string) {
    exists i :: 0 <= i < |rs| && Contributes(rs[i], range, native) && rs[i].code == code
  }

  /** `dataByDept`: department code to mean hospitalisation rate, scaled down
      by 100. */
  function DataByDept(data: Option<seq<UrgenceRecord>>, range: TimeRange, native: string -> Option<int>)
    : (m: map<string, real>)
    ensures AbsentOrEmpty(data) ==> m == map[]
    ensures forall code :: code in m <==> data.Some? && HasContribution(data.value, range, native, code)
    ensures forall code :: code in m ==>
              Grouping.KeptCount(data.value, Keep(range, native), Code, code) > 0
              && m[code] * 100.0
                 == Grouping.KeptSum(data.value, Keep(range, native), Code, Rate, code)
                    / (Grouping.KeptCount(data.value, Keep(range, native), Code, code) as real)
  {
    if AbsentOrEmpty(data) then map[]
    else
      var rs := data.value;
      var es := Grouping.Select(rs, Keep(range, native), Code, Rate);
      var ks := Grouping.Keys(es);
      forall code
        ensures Grouping.HasKey(es, code) <==> HasContribution(rs, range, native, code)
      {
        Grouping.SelectHasKey(rs, Keep(range, native), Code, Rate, code);
      }
      var m := map code | code in ks :: Grouping.Mean(es, code) / 100.0;
      forall code | code in m
        ensures Grouping.KeptCount(rs, Keep(range, native), Code, code) > 0
        ensures m[code] * 100.0 == Grouping.KeptSum(rs, Keep(range, native), Code, Rate, code)
                                   / (Grouping.KeptCount(rs, Keep(range, native), Code, code) as real)
      {
        Grouping.SelectMean(rs, Keep(range, native), Code, Rate, code);
      }
      m
  }

  /** A record whose date is missing has no year; with a range that starts
      after year 0 it never contributes. */
  lemma UndatedExcluded(r: UrgenceRecord, range: TimeRange, native: string -> Option<int>)
    requires !Truthy(r.date) && range.lo > 0
    ensures !Contributes(r, range, native)
  {
  }

  /** A record whose date the browser cannot parse still contributes through
      the first four-digit run of its date string. */
  lemma FallbackYearUsed(r: UrgenceRecord, range: TimeRange, native: string -> Option<int>, j: int)
    requires Truthy(r.code) && IsNumber(r.tauxHospitalisation)
    requires native(r.date).None? && Text.FourDigitsAt(r.date, j)
    requires forall k :: 0 <= k < j ==> !Text.FourDigitsAt(r.date, k)
    requires InRange(Text.DigitsValue(r.date[j..j + 4]), range)
    ensures Contributes(r, range, native)
  {
  }
}

=== FILE: low_coverage_ranking.dfy ===
/** The ten departments with the lowest vaccination coverage
    (`Top10DepartementsFaibleCouverture`): records are grouped by department
    name, each department's mean positive rate is computed, the departments
    are stably sorted by mean ascending and the first ten are kept. Bars are
    coloured from a nine-step palette by their position between the lowest
    and the highest kept mean. */
module LowCoverageRanking {
  import opened Wrappers
  import opened Records
  import Grouping
  import Sorting

  /** `item.nom || \`Département ${code}\``. */
  function DisplayName(r: CouvertureRecord): string {
    if Truthy(r.nom) then r.nom else "Département " + r.code
  }

  /** A positive rate that is a number, in a year of the range. The source
      also tests the display name, which is never empty. */
  predicate Contributes(r: CouvertureRecord, range: TimeRange) {
    Truthy(DisplayName(r)) && IsNumber(r.grippeTotale) && r.grippeTotale.value > 0.0
    && InRange(r.annee, range)
  }

  function Keep(range: TimeRange): CouvertureRecord -> bool {
    r => Contributes(r, range)
  }

  function Rate(r: CouvertureRecord): real {
    OrZero(r.grippeTotale)
  }

  predicate NameHasData(rs: seq<CouvertureRecord>, range: TimeRange, nom: string) {
    Grouping.AnyKept(rs, Keep(range), DisplayName, nom)
  }

  /** One department of the ranking. */
  datatype DeptMean = DeptMean(code: string, nom: string, moyenne: real, count: nat)

  function MeanKey(d: DeptMean): real {
    d.moyenne
  }

  /** The department named `nom`: the code of its first contributing record,
      and the sum of its rates over their number. */
  function Summary(rs: seq<CouvertureRecord>, range: TimeRange, nom: string): (d: DeptMean)
    requires NameHasData(rs, range, nom)
    ensures d.nom == nom && d.count > 0 && d.moyenne > 0.0
  {
    var es := Grouping.Select(rs, Keep(range), DisplayName, Rate);
    Grouping.SelectMean(rs, Keep(range), DisplayName, Rate, nom);
    Grouping.SelectPositive(rs, Keep(range), DisplayName, Rate);
    Grouping.MeanPositive(es, nom);
    DeptMean(rs[Grouping.FirstKept(rs, Keep(range), DisplayName, nom)].code, nom,
             Grouping.KeptSum(rs, Keep(range), DisplayName, Rate, nom)
               / (Grouping.KeptCount(rs, Keep(range), DisplayName, nom) as real),
             Grouping.KeptCount(rs, Keep(range), DisplayName, nom))
  }

  /** The names with data, in the order they first appear (the `Map`'s keys). */
  function Names(rs: seq<CouvertureRecord>, range: TimeRange): (ns: seq<string>)
    ensures forall i :: 0 <= i < |ns| ==> NameHasData(rs, range, ns[i])
  {
    Grouping.SelectKeysInRecordOrder(rs, Keep(range), DisplayName, Rate);
    Grouping.Keys(Grouping.Select(rs, Keep(range), DisplayName, Rate))
  }

  /** `deptData` before sorting: one department per name with data, in the
      order the names first appear. */
  function Depts(rs: seq<CouvertureRecord>, range: TimeRange): (ds: seq<DeptMean>)
    ensures forall i, j :: 0 <= i < j < |ds| ==> ds[i].nom != ds[j].nom
    ensures forall d: DeptMean :: d in ds <==> NameHasData(rs, range, d.nom) && d == Summary(rs, range, d.nom)
    ensures forall i, j :: 0 <= i < j < |ds| ==> Grouping.SeenBefore(rs, Keep(range), DisplayName, ds[i].nom, ds[j].nom)
  {
    DeptListNames(rs, range);
    DeptListMembers(rs, range);
    DeptList(rs, range)
  }

  function DeptList(rs: seq<CouvertureRecord>, range: TimeRange): seq<DeptMean> {
    var ns := Names(rs, range);
    seq(|ns|, i requires 0 <= i < |ns| => Summary(rs, range, ns[i]))
  }

  /** Entry `i` of the list is the department of name `i`; the names are
      distinct and listed in first-appearance order. */
  lemma DeptListNames(rs: seq<CouvertureRecord>, range: TimeRange)
    ensures var ds := DeptList(rs, range);
            (forall i, j :: 0 <= i < j < |ds| ==> ds[i].nom != ds[j].nom)
            && (forall i, j :: 0 <= i < j < |ds| ==> Grouping.SeenBefore(rs, Keep(range), DisplayName, ds[i].nom, ds[j].nom))
  {
    var ns := Names(rs, range);
    var ds := DeptList(rs, range);
    Grouping.SelectKeysInRecordOrder(rs, Keep(range), DisplayName, Rate);
    assert forall i :: 0 <= i < |ds| ==> ds[i].nom == ns[i];
  }

  /** The list holds exactly the summaries of the names with data. */
  lemma DeptListMembers(rs: seq<CouvertureRecord>, range: TimeRange)
    ensures forall d: DeptMean :: d in DeptList(rs, range) <==> NameHasData(rs, range, d.nom) && d == Summary(rs, range, d.nom)
  {
    var ns := Names(rs, range);
    var ds := DeptList(rs, range);
    Grouping.SelectKeysInRecordOrder(rs, Keep(range), DisplayName, Rate);
    forall d: DeptMean | NameHasData(rs, range, d.nom) && d == Summary(rs, range, d.nom)
      ensures d in ds
    {
      assert d.nom in ns;
      var i :| 0 <= i < |ns| && ns[i] == d.nom;
      assert ds[i] == d;
    }
  }

  function Sorted(rs: seq<CouvertureRecord>, range: TimeRange): seq<DeptMean> {
    Sorting.SortBy(Depts(rs, range), MeanKey)
  }

  /** The sorted departments are the same departments, still one per name. */
  lemma SortedDepts(rs: seq<CouvertureRecord>, range: TimeRange)
    ensures forall d :: d in Sorted(rs, range) <==> d in Depts(rs, range)
    ensures var s := Sorted(rs, range);
            forall i, j :: 0 <= i < j < |s| ==> s[i].nom != s[j].nom
    ensures Sorting.SortedBy(Sorted(rs, range), MeanKey)
  {
    var ps := Depts(rs, range);
    var s := Sorted(rs, range);
    Sorting.SortByIsSorted(ps, MeanKey);
    assert Sorting.Distinct(ps);
    Sorting.PermutationDistinct(ps, s);
    forall d
      ensures d in s <==> d in ps
    {
      assert d in s <==> d in multiset(s);
      assert d in ps <==> d in multiset(ps);
    }
    forall i, j | 0 <= i < j < |s|
      ensures s[i].nom != s[j].nom
    {
      assert s[i] in ps && s[j] in ps;
      assert s[i] != s[j];
    }
  }

  /** `deptData.sort(...).slice(0, 10)`. */
  function Ranking(rs: seq<CouvertureRecord>, range: TimeRange): (rows: seq<DeptMean>)
    ensures |rows| == Min(10, |Depts(rs, range)|)
    ensures Sorting.SortedBy(rows, MeanKey)
    ensures forall i, j :: 0 <= i < j < |rows| ==> rows[i].nom != rows[j].nom
    ensures forall i :: 0 <= i < |rows| ==>
              NameHasData(rs, range, rows[i].nom) && rows[i] == Summary(rs, range, rows[i].nom)
  {
    var s := Sorted(rs, range);
    SortedDepts(rs, range);
    var rows := s[..Min(10, |s|)];
    forall i | 0 <= i < |rows|
      ensures NameHasData(rs, range, rows[i].nom) && rows[i] == Summary(rs, range, rows[i].nom)
    {
      assert rows[i] == s[i];
      assert s[i] in s;
      assert s[i] in Depts(rs, range);
    }
    rows
  }

  /** Every department left out of the ranking has a mean at least as high as
      every department kept, and one is left out only when ten are kept. */
  lemma LeftOutRankHigher(rs: seq<CouvertureRecord>, range: TimeRange, nom: string)
    requires NameHasData(rs, range, nom)
    requires forall i :: 0 <= i < |Ranking(rs, range)| ==> Ranking(rs, range)[i].nom != nom
    ensures |Ranking(rs, range)| == 10
    ensures forall i :: 0 <= i < |Ranking(rs, range)| ==> Ranking(rs, range)[i].moyenne <= Summary(rs, range, nom).moyenne
  {
    var s := Sorted(rs, range);
    var rows := Ranking(rs, range);
    SortedDepts(rs, range);
    var d := Summary(rs, range, nom);
    assert d in Depts(rs, range);
    assert d in s;
    var m := Min(10, |s|);
    assert rows == s[..m];
    Sorting.LeftOutOfSortedPrefix(s, MeanKey, m, d);
  }

  /** Position of the first contributing record of `d`'s name (-1 when the
      name has none). */
  function FirstSeen(rs: seq<CouvertureRecord>, range: TimeRange): DeptMean -> int {
    (d: DeptMean) => if NameHasData(rs, range, d.nom) then Grouping.FirstKept(rs, Keep(range), DisplayName, d.nom) else -1
  }

  /** Two sorted departments with equal means are listed in the order of their
      first contributing records. */
  lemma SortedTiesKeepFirstAppearance(rs: seq<CouvertureRecord>, range: TimeRange)
    ensures var s := Sorted(rs, range);
            forall i, j :: 0 <= i < j < |s| && s[i].moyenne == s[j].moyenne ==>
              Grouping.SeenBefore(rs, Keep(range), DisplayName, s[i].nom, s[j].nom)
  {
    var ds := Depts(rs, range);
    var s := Sorted(rs, range);
    var rank := FirstSeen(rs, range);
    forall i, j | 0 <= i < j < |ds|
      ensures rank(ds[i]) < rank(ds[j])
    {
      assert Grouping.SeenBefore(rs, Keep(range), DisplayName, ds[i].nom, ds[j].nom);
    }
    Sorting.SortByKeepsTieRank(ds, MeanKey, rank);
    SortedDepts(rs, range);
    forall i, j | 0 <= i < j < |s| && s[i].moyenne == s[j].moyenne
      ensures Grouping.SeenBefore(rs, Keep(range), DisplayName, s[i].nom, s[j].nom)
    {
      assert MeanKey(s[i]) == MeanKey(s[j]);
      assert s[i] in ds && s[j] in ds;
    }
  }

  /** Departments with equal means keep the order in which their names first
      appeared: two tied departments of the ranking are listed in the order of
      their first contributing records, and for every mean the kept
      departments with that mean are the first ones in that order. */
  lemma TiesKeepFirstAppearance(rs: seq<CouvertureRecord>, range: TimeRange, v: real)
    ensures Sorting.WithKey(Ranking(rs, range), MeanKey, v) <= Sorting.WithKey(Depts(rs, range), MeanKey, v)
    ensures var rows := Ranking(rs, range);
            forall i, j :: 0 <= i < j < |rows| && rows[i].moyenne == rows[j].moyenne ==>
              Grouping.SeenBefore(rs, Keep(range), DisplayName, rows[i].nom, rows[j].nom)
  {
    var ds := Depts(rs, range);
    var s := Sorted(rs, range);
    var m := Min(10, |s|);
    assert Ranking(rs, range) == s[..m];
    Sorting.WithKeyPrefix(s, m, MeanKey, v);
    Sorting.SortByIsStable(ds, MeanKey, v);
    SortedTiesKeepFirstAppearance(rs, range);
  }

  /** The three parallel arrays the bar chart plots. */
  datatype Top10 = Top10(noms: seq<string>, codes: seq<string>, taux: seq<real>)

  /** `top10Data`: null for an absent or empty list, otherwise the ranking
      split into its columns. */
  function Top10Data(data: Option<seq<CouvertureRecord>>, range: TimeRange): (t: Option<Top10>)
    ensures t.None? <==> AbsentOrEmpty(data)
    ensures t.Some? ==> |t.value.noms| == |t.value.codes| == |t.value.taux| <= 10
    ensures t.Some? ==> forall i :: 0 <= i < |t.value.noms| ==>
              var nom := t.value.noms[i];
              NameHasData(data.value, range, nom)
              && t.value.codes[i] == Summary(data.value, range, nom).code
              && t.value.taux[i] == Summary(data.value, range, nom).moyenne
    ensures t.Some? ==> forall i, j :: 0 <= i < j < |t.value.taux| ==> t.value.taux[i] <= t.value.taux[j]
    ensures t.Some? ==> |t.value.noms| == Min(10, |Depts(data.value, range)|)
    ensures t.Some? ==> forall i, j :: 0 <= i < j < |t.value.noms| ==> t.value.noms[i] != t.value.noms[j]
    ensures t.Some? ==> forall nom :: NameHasData(data.value, range, nom) && nom !in t.value.noms ==>
              |t.value.noms| == 10
              && forall i :: 0 <= i < |t.value.taux| ==> t.value.taux[i] <= Summary(data.value, range, nom).moyenne
  {
    if AbsentOrEmpty(data) then None
    else
      var rows := Ranking(data.value, range);
      var t := Columns(rows);
      ColumnsOfRanking(data.value, range, rows, t);
      Some(t)
  }

  /** The ranking split into its three columns. */
  function Columns(rows: seq<DeptMean>): Top10 {
    Top10(seq(|rows|, i requires 0 <= i < |rows| => rows[i].nom),
          seq(|rows|, i requires 0 <= i < |rows| => rows[i].code),
          seq(|rows|, i requires 0 <= i < |rows| => rows[i].moyenne))
  }

  /** What the columns of the ranking hold: one summary per name with data,
      distinct names, rising rates, and every department left out ranking no
      lower than every one plotted. */
  lemma ColumnsOfRanking(rs: seq<CouvertureRecord>, range: TimeRange, rows: seq<DeptMean>, t: Top10)
    requires rows == Ranking(rs, range) && t == Columns(rows)
    ensures |t.noms| == |t.codes| == |t.taux| == Min(10, |Depts(rs, range)|) <= 10
    ensures forall i :: 0 <= i < |t.noms| ==>
              NameHasData(rs, range, t.noms[i])
              && t.codes[i] == Summary(rs, range, t.noms[i]).code
              && t.taux[i] == Summary(rs, range, t.noms[i]).moyenne
    ensures forall i, j :: 0 <= i < j < |t.taux| ==> t.taux[i] <= t.taux[j]
    ensures forall i, j :: 0 <= i < j < |t.noms| ==> t.noms[i] != t.noms[j]
    ensures forall nom :: NameHasData(rs, range, nom) && nom !in t.noms ==>
              |t.noms| == 10 && forall i :: 0 <= i < |t.taux| ==> t.taux[i] <= Summary(rs, range, nom).moyenne
  {
    forall i, j | 0 <= i < j < |t.taux|
      ensures t.taux[i] <= t.taux[j]
    {
      assert MeanKey(rows[i]) <= MeanKey(rows[j]);
    }
    forall nom | NameHasData(rs, range, nom) && nom !in t.noms
      ensures |t.noms| == 10 && forall i :: 0 <= i < |t.taux| ==> t.taux[i] <= Summary(rs, range, nom).moyenne
    {
      forall i | 0 <= i < |rows|
        ensures rows[i].nom != nom
      {
        assert t.noms[i] == rows[i].nom;
      }
      LeftOutRankHigher(rs, range, nom);
    }
  }

  // ---------------------------------------------------------------------------
  // Bar colours.
  // ---------------------------------------------------------------------------

  /** `redsPalette`: nine reds, darkest first. */
  const Palette: seq<string> := ["#67000d", "#a50f15", "#cb181d", "#ef3b2c", "#fb6a4a",
                                 "#fc9272", "#fcbba1", "#fee0d2", "#fff5f0"]

  /** The palette position `getColor` picks for `taux` between `lo` (the
      lowest kept mean) and `hi` (the highest). */
  function ColorIndex(taux: real, lo: real, hi: real): int {
    if hi == lo then 0 else (((taux - lo) / (hi - lo)) * ((|Palette| - 1) as real)).Floor
  }

  /** `getColor`: a palette entry, or `undefined` (None) for an index outside
      the palette, which only a value outside `[lo, hi]` can produce. */
  function GetColor(taux: real, lo: real, hi: real): (c: Option<string>)
    ensures lo <= taux <= hi ==> c.Some?
    ensures hi == lo ==> c == Some(Palette[0])
    ensures lo < hi && taux == lo ==> c == Some(Palette[0])
    ensures lo < hi && taux == hi ==> c == Some(Palette[8])
  {
    var i := ColorIndex(taux, lo, hi);
    assert lo < hi && taux == hi ==> (taux - lo) / (hi - lo) == 1.0;
    ColorIndexInPalette(taux, lo, hi);
    if 0 <= i < |Palette| then Some(Palette[i]) else None
  }

  /** `Math.min(...xs)` of a non-empty list. */
  function MinOf(xs: seq<real>): (m: real)
    requires |xs| > 0
    ensures m in xs && forall i :: 0 <= i < |xs| ==> m <= xs[i]
  {
    if |xs| == 1 then xs[0]
    else
      var r := MinOf(xs[1..]);
      assert forall i :: 1 <= i < |xs| ==> xs[i] == xs[1..][i - 1];
      if xs[0] <= r then xs[0] else r
  }

  /** `Math.max(...xs)` of a non-empty list. */
  function MaxOf(xs: seq<real>): (m: real)
    requires |xs| > 0
    ensures m in xs && forall i :: 0 <= i < |xs| ==> xs[i] <= m
  {
    if |xs| == 1 then xs[0]
    else
      var r := MaxOf(xs[1..]);
      assert forall i :: 1 <= i < |xs| ==> xs[i] == xs[1..][i - 1];
      if xs[0] >= r then xs[0] else r
  }

  /** `top10Data.taux.map(getColor)` with `minTaux` and `maxTaux` taken over
      the plotted rates: every bar gets a palette colour, the lowest rates the
      darkest one and, when the rates differ, the highest the palest one. */
  function BarColors(taux: seq<real>): (cs: seq<Option<string>>)
    ensures |cs| == |taux|
    ensures forall i :: 0 <= i < |taux| ==> cs[i].Some? && cs[i].value in Palette
    ensures forall i :: 0 <= i < |taux| && (forall j :: 0 <= j < |taux| ==> taux[i] <= taux[j]) ==>
              cs[i] == Some(Palette[0])
    ensures forall i :: 0 <= i < |taux| && (forall j :: 0 <= j < |taux| ==> taux[j] <= taux[i])
                        && (exists j :: 0 <= j < |taux| && taux[j] < taux[i]) ==>
              cs[i] == Some(Palette[8])
  {
    if |taux| == 0 then []
    else
      var lo := MinOf(taux);
      var hi := MaxOf(taux);
      var cs := seq(|taux|, i requires 0 <= i < |taux| => GetColor(taux[i], lo, hi));
      forall i | 0 <= i < |taux|
        ensures cs[i].Some? && cs[i].value in Palette
      {
        ColorIndexInPalette(taux[i], lo, hi);
      }
      cs
  }

  /** Between the extremes the index stays inside the palette, and a higher
      mean never gets a darker colour. */
  lemma ColorIndexBounds(t1: real, t2: real, lo: real, hi: real)
    requires lo < hi && lo <= t1 <= t2 <= hi
    ensures 0 <= ColorIndex(t1, lo, hi) <= ColorIndex(t2, lo, hi) <= 8
  {
    var a := (t1 - lo) / (hi - lo);
    var b := (t2 - lo) / (hi - lo);
    assert 0.0 <= a <= b <= 1.0;
    assert 0.0 <= a * 8.0 <= b * 8.0 <= 8.0;
  }

  lemma ColorIndexInPalette(taux: real, lo: real, hi: real)
    ensures lo <= taux <= hi ==> 0 <= ColorIndex(taux, lo, hi) <= 8
  {
    if lo < hi && lo <= taux <= hi {
      ColorIndexBounds(taux, taux, lo, hi);
    }
  }
}

=== FILE: pagination.dfy ===
/** Relay-style cursor pagination of the query service (`encode_cursor`,
    `decode_cursor`, `paginate_results`): a cursor is the base 64 text of an
    item index written in decimal. */
module Pagination {
  import opened Wrappers
  import Text
  import Base64

  // ---------------------------------------------------------------------------
  // Text <-> bytes for ASCII text (`str.encode()` / `bytes.decode()`).
  // ---------------------------------------------------------------------------

  predicate IsAscii(s: string) {
    forall i :: 0 <= i < |s| ==> s[i] as int < 128
  }

  function AsciiBytes(s: string): (b: seq<Base64.Byte>)
    requires IsAscii(s)
    ensures |b| == |s|
    ensures forall i :: 0 <= i < |s| ==> b[i] == s[i] as int
  {
    seq(|s|, i requires 0 <= i < |s| => s[i] as int)
  }

  /** The text of a byte string; `None` (a decoding error) when a byte is
      outside ASCII. */
  function AsciiText(b: seq<Base64.Byte>): (r: Option<string>)
    ensures r.Some? <==> forall i :: 0 <= i < |b| ==> b[i] < 128
    ensures r.Some? ==> |r.value| == |b| && forall i :: 0 <= i < |b| ==> r.value[i] as int == b[i]
  {
    if forall i :: 0 <= i < |b| ==> b[i] < 128 then Some(seq(|b|, i requires 0 <= i < |b| => b[i] as char))
    else None
  }

  lemma AsciiRoundTrip(s: string)
    requires IsAscii(s)
    ensures AsciiText(AsciiBytes(s)) == Some(s)
  {
    var r := AsciiText(AsciiBytes(s));
    assert r.value == s;
  }

  lemma DecimalIsAscii(i: int)
    ensures IsAscii(Text.IntToDecimal(i))
  {
    var s := Text.IntToDecimal(i);
    if i < 0 {
      assert forall k :: 1 <= k < |s| ==> s[k] == s[1..][k - 1];
    }
  }

  // ---------------------------------------------------------------------------
  // Cursors.
  // ---------------------------------------------------------------------------

  /** `base64.b64encode(str(index).encode()).decode()`. */
  function EncodeCursor(index: int): (c: string)
    ensures |c| > 0 && |c| % 4 == 0
    ensures IsAscii(Text.IntToDecimal(index)) && Base64.Decode(c) == Some(AsciiBytes(Text.IntToDecimal(index)))
  {
    DecimalIsAscii(index);
    Base64.DecodeEncode(AsciiBytes(Text.IntToDecimal(index)));
    Base64.Encode(AsciiBytes(Text.IntToDecimal(index)))
  }

  /** A falsy cursor is 0; so is one that is not base 64, not ASCII, or not
      an integer once decoded. */
  function DecodeCursor(cursor: Option<string>): (index: int)
    ensures cursor.None? || cursor == Some("") ==> index == 0
  {
    match cursor
    case None => 0
    case Some(c) =>
      if c == "" then 0
      else match Base64.Decode(c)
        case None => 0
        case Some(bytes) =>
          match AsciiText(bytes)
          case None => 0
          case Some(text) => Text.PyInt(text).GetOr(0)
  }

  /** Every index, negative ones included, survives a trip through its cursor. */
  lemma CursorRoundTrip(index: int)
    ensures DecodeCursor(Some(EncodeCursor(index))) == index
  {
    var text := Text.IntToDecimal(index);
    DecimalIsAscii(index);
    Base64.DecodeEncode(AsciiBytes(text));
    AsciiRoundTrip(text);
    Text.PyIntOfDecimal(index);
  }

  /** A non-empty cursor that is not base 64 decodes to 0. */
  lemma MalformedCursorIsZero(c: string)
    requires c != "" && Base64.Decode(c).None?
    ensures DecodeCursor(Some(c)) == 0
  {
  }

  // ---------------------------------------------------------------------------
  // Python slicing `items[lo:hi]`.
  // ---------------------------------------------------------------------------

  /** A slice bound: a negative one counts from the end; both are clamped
      into `0..n`. */
  function SliceBound(i: int, n: nat): (b: nat)
    ensures b <= n
    ensures 0 <= i <= n ==> b == i
  {
    if i < 0 then (if i + n < 0 then 0 else i + n)
    else if i > n then n
    else i
  }

  function Slice<T>(items: seq<T>, lo: int, hi: int): (r: seq<T>)
    ensures 0 <= lo <= hi <= |items| ==> r == items[lo..hi]
    ensures 0 <= lo <= hi ==> |r| <= hi - lo && r == items[Min(lo, |items|)..Min(hi, |items|)]
  {
    var a := SliceBound(lo, |items|);
    var b := SliceBound(hi, |items|);
    if a < b then items[a..b] else []
  }

  // ---------------------------------------------------------------------------
  // Pages.
  // ---------------------------------------------------------------------------

  datatype PageInfo = PageInfo(hasNextPage: bool, hasPreviousPage: bool,
                               startCursor: Option<string>, endCursor: Option<string>)

  datatype Page<T> = Page(edges: seq<T>, pageInfo: PageInfo, totalCount: nat)

  predicate Truthy(after: Option<string>) {
    after.Some? && after.value != ""
  }

  /** The index of the first item of the page: just after the one the
      `after` cursor names, or 0 without one. */
  function Start(after: Option<string>): int {
    if Truthy(after) then DecodeCursor(after) + 1 else 0
  }

  /** The page of at most `first` items starting at index `start`. */
  function PageAt<T>(items: seq<T>, first: int, start: int): (p: Page<T>)
    ensures p.totalCount == |items|
    ensures p.pageInfo.hasNextPage <==> start + first < |items|
    ensures p.pageInfo.hasPreviousPage <==> start > 0
    ensures p.pageInfo.startCursor.Some? <==> |p.edges| > 0
    ensures p.pageInfo.endCursor.Some? <==> |p.edges| > 0
    ensures |p.edges| > 0 ==> p.pageInfo.startCursor == Some(EncodeCursor(start))
    ensures |p.edges| > 0 ==> p.pageInfo.endCursor == Some(EncodeCursor(start + first - 1))
    ensures start >= 0 && first >= 0 ==>
              |p.edges| <= first && p.edges == items[Min(start, |items|)..Min(start + first, |items|)]
  {
    var end := start + first;
    var edges := Slice(items, start, end);
    var info := PageInfo(end < |items|, start > 0,
                         if |edges| > 0 then Some(EncodeCursor(start)) else None,
                         if |edges| > 0 then Some(EncodeCursor(end - 1)) else None);
    Page(edges, info, |items|)
  }

  /** `paginate_results(items, first, after)`. */
  function Paginate<T>(items: seq<T>, first: int, after: Option<string>): (p: Page<T>)
    ensures !Truthy(after) ==> p == PageAt(items, first, 0)
    ensures Truthy(after) ==> p == PageAt(items, first, DecodeCursor(after) + 1)
  {
    PageAt(items, first, Start(after))
  }

  /** Without a cursor the first page starts at item 0. */
  lemma FirstPage<T>(items: seq<T>, first: nat)
    ensures Paginate(items, first, None).edges == items[..Min(first, |items|)]
    ensures !Paginate(items, first, None).pageInfo.hasPreviousPage
  {
  }

  /** A non-empty malformed cursor is read as index 0, so the page starts at
      item 1 and item 0 is skipped. */
  lemma MalformedCursorSkipsFirstItem<T>(items: seq<T>, first: int, c: string)
    requires c != "" && Base64.Decode(c).None?
    ensures Start(Some(c)) == 1
    ensures Paginate(items, first, Some(c)).pageInfo.hasPreviousPage
  {
  }

  /** The cursor of an index leads to the index after it. */
  lemma StartAfter(index: int)
    ensures Start(Some(EncodeCursor(index))) == index + 1
  {
    CursorRoundTrip(index);
  }

  /** A page's end cursor leads to the item right after the page. */
  lemma NextPageStart<T>(items: seq<T>, first: int, start: int)
    requires |PageAt(items, first, start).edges| > 0
    ensures Start(PageAt(items, first, start).pageInfo.endCursor) == start + first
  {
    StartAfter(start + first - 1);
  }

  /** Following a page's end cursor gives the page right after it. */
  lemma NextPageFollows<T>(items: seq<T>, first: int, after: Option<string>)
    requires |Paginate(items, first, after).edges| > 0
    ensures Paginate(items, first, Paginate(items, first, after).pageInfo.endCursor)
         == PageAt(items, first, Start(after) + first)
  {
    NextPageStart(items, first, Start(after));
  }

  /** Two consecutive pages are contiguous: together they neither repeat nor
      drop an item. */
  lemma Contiguous<T>(items: seq<T>, first: nat, start: nat)
    ensures PageAt(items, first, start).edges + PageAt(items, first, start + first).edges
         == items[Min(start, |items|)..Min(start + 2 * first, |items|)]
  {
    var n := |items|;
    SlicesJoin(items, Min(start, n), Min(start + first, n), Min(start + 2 * first, n));
  }

  lemma SlicesJoin<T>(items: seq<T>, a: nat, b: nat, c: nat)
    requires a <= b <= c <= |items|
    ensures items[a..b] + items[b..c] == items[a..c]
  {
  }
}

=== FILE: pharmacy_map.dfy ===
/** The pharmacy map (`ChoroplethPharmacies`): no time filter and no
    averaging; each record with a code writes its pharmacy count under that
    code, so for a repeated code the last record wins. */
module PharmacyMap {
  import opened Wrappers
  import opened Records

  /** `item.nombrePharmacies || 0`. */
  function Count(r: PharmacieRecord): real {
    r.nombrePharmacies.GetOr(0) as real
  }

  /** No later record carries the code of record `i`. */
  predicate LastWithCode(rs: seq<PharmacieRecord>, i: int)
    requires 0 <= i < |rs|
  {
    forall j :: i < j < |rs| ==> rs[j].code != rs[i].code
  }

  predicate HasCode(rs: seq<PharmacieRecord>, code: string) {
    exists i :: 0 <= i < |rs| && rs[i].code == code
  }

  lemma HasCodeSnoc(rs: seq<PharmacieRecord>, code: string)
    requires |rs| > 0
    ensures HasCode(rs, code) <==> HasCode(rs[..|rs| - 1], code) || rs[|rs| - 1].code == code
  {
    var p := rs[..|rs| - 1];
    if HasCode(rs, code) && rs[|rs| - 1].code != code {
      var i :| 0 <= i < |rs| && rs[i].code == code;
      assert p[i].code == code;
    }
    if HasCode(p, code) {
      var i :| 0 <= i < |p| && p[i].code == code;
      assert rs[i].code == code;
    }
  }

  lemma LastWithCodePrefix(rs: seq<PharmacieRecord>, i: int)
    requires 0 <= i < |rs| - 1 && LastWithCode(rs, i)
    ensures LastWithCode(rs[..|rs| - 1], i)
  {
    var p := rs[..|rs| - 1];
    forall j | i < j < |p|
      ensures p[j].code != p[i].code
    {
      assert p[j] == rs[j] && p[i] == rs[i];
    }
  }

  /** The `forEach` loop writing `result[code] = nombre` for every record
      with a non-empty code. */
  function Written(rs: seq<PharmacieRecord>): (m: map<string, real>)
    ensures forall code :: code in m <==> Truthy(code) && HasCode(rs, code)
    ensures forall i :: 0 <= i < |rs| && Truthy(rs[i].code) && LastWithCode(rs, i) ==>
              rs[i].code in m && m[rs[i].code] == Count(rs[i])
    decreases |rs|
  {
    if |rs| == 0 then map[]
    else
      var n := |rs| - 1;
      var p := rs[..n];
      WrittenSnoc(rs);
      var m := Written(p);
      if Truthy(rs[n].code) then m[rs[n].code := Count(rs[n])] else m
  }

  /** Appending a record adds its code, and keeps every earlier last record
      of a code last in the prefix. */
  lemma WrittenSnoc(rs: seq<PharmacieRecord>)
    requires |rs| > 0
    ensures forall code :: HasCode(rs, code) <==> HasCode(rs[..|rs| - 1], code) || rs[|rs| - 1].code == code
    ensures forall i :: 0 <= i < |rs| - 1 && LastWithCode(rs, i) ==> LastWithCode(rs[..|rs| - 1], i)
  {
    var n := |rs| - 1;
    var p := rs[..n];
    forall code
      ensures HasCode(rs, code) <==> HasCode(p, code) || rs[n].code == code
    {
      HasCodeSnoc(rs, code);
    }
    forall i | 0 <= i < n && LastWithCode(rs, i)
      ensures LastWithCode(p, i)
    {
      LastWithCodePrefix(rs, i);
    }
  }

  /** `dataByDept`. */
  function DataByDept(data: Option<seq<PharmacieRecord>>): (m: map<string, real>)
    ensures AbsentOrEmpty(data) ==> m == map[]
    ensures forall code :: code in m <==> data.Some? && Truthy(code) && HasCode(data.value, code)
    ensures forall i :: data.Some? && 0 <= i < |data.value| && Truthy(data.value[i].code)
                        && LastWithCode(data.value, i) ==>
              data.value[i].code in m && m[data.value[i].code] == Count(data.value[i])
  {
    if AbsentOrEmpty(data) then map[] else Written(data.value)
  }

  /** The order of records with different codes does not matter. */
  lemma {:induction false} SwapDistinctCodes(a: PharmacieRecord, b: PharmacieRecord, rs: seq<PharmacieRecord>)
    requires a.code != b.code
    ensures Written(rs + [a, b]) == Written(rs + [b, a])
  {
    assert (rs + [a, b])[..|rs| + 1] == rs + [a];
    assert (rs + [b, a])[..|rs| + 1] == rs + [b];
    assert (rs + [a])[..|rs|] == rs;
    assert (rs + [b])[..|rs|] == rs;
  }
}

=== FILE: prediction_form.dfy ===
/** The campaign prediction page (`Prediction`): the start-year input, the
    validation done before any request, the single request, and the message
    shown when it fails. The request itself is the parameter `respond`. */
module PredictionForm {
  import opened Wrappers
  import Text

  /** `predireCampagne`'s fields. */
  datatype Prediction = Prediction(campagne: string, anneeDebut: int, valeurPredite: real, typePrediction: string)

  /** The page state that `handlePredict` touches. */
  datatype Form = Form(anneeDebut: int, typePrediction: string, prediction: Option<Prediction>,
                       loading: bool, error: Option<string>)

  /** The request variables `{anneeDebut, typePrediction}`. */
  datatype Request = Request(anneeDebut: int, typePrediction: string)

  /** What the thrown error carries: the first server error's message and
      the error's own message ("" where absent or empty). */
  datatype Failure = Failure(firstServerMessage: string, message: string)

  /** `graphqlRequest`'s result: data (possibly without a prediction) or an
      error. */
  datatype Outcome = Data(predireCampagne: Option<Prediction>) | Error(failure: Failure)

  const FirstYear := 2025

  const TooEarlyMessage := "L'année de début de la campagne doit être supérieure ou égale à 2025. Les prédictions ne sont disponibles que pour les années futures."

  const FallbackMessage := "Une erreur est survenue lors de la prédiction"

  /** The initial state: the current year and "doses". */
  function Initial(currentYear: int): (f: Form)
    ensures f.anneeDebut == currentYear && f.typePrediction == "doses"
    ensures f.prediction.None? && !f.loading && f.error.None?
  {
    Form(currentYear, "doses", None, false, None)
  }

  /** `err.response?.errors?.[0]?.message || err.message || fallback`. */
  function ErrorMessage(e: Failure): (m: string)
    ensures e.firstServerMessage != "" ==> m == e.firstServerMessage
    ensures e.firstServerMessage == "" && e.message != "" ==> m == e.message
    ensures e.firstServerMessage == "" && e.message == "" ==> m == FallbackMessage
    ensures m != ""
  {
    if e.firstServerMessage != "" then e.firstServerMessage
    else if e.message != "" then e.message
    else FallbackMessage
  }

  /** `handlePredict` up to the request: the state the page is left in and
      the request issued, if any. */
  function Submit(f: Form): (res: (Form, Option<Request>))
    ensures res.0.prediction.None?
    ensures res.0.anneeDebut == f.anneeDebut && res.0.typePrediction == f.typePrediction
    ensures f.anneeDebut < FirstYear ==> res.1.None? && res.0.error == Some(TooEarlyMessage) && !res.0.loading
    ensures f.anneeDebut >= FirstYear ==>
              res.1 == Some(Request(f.anneeDebut, f.typePrediction)) && res.0.error.None? && res.0.loading
  {
    var cleared := f.(loading := true, error := None, prediction := None);
    if f.anneeDebut < FirstYear then (cleared.(error := Some(TooEarlyMessage), loading := false), None)
    else (cleared, Some(Request(f.anneeDebut, f.typePrediction)))
  }

  /** The rest of `handlePredict` once the request settles. */
  function Settle(f: Form, o: Outcome): (g: Form)
    ensures !g.loading
    ensures g.anneeDebut == f.anneeDebut && g.typePrediction == f.typePrediction
    ensures o.Error? ==> g.prediction == f.prediction && g.error == Some(ErrorMessage(o.failure))
    ensures o.Data? && o.predireCampagne.Some? ==> g.prediction == o.predireCampagne && g.error == f.error
    ensures o.Data? && o.predireCampagne.None? ==> g.prediction == f.prediction && g.error == f.error
  {
    match o
    case Error(e) => f.(error := Some(ErrorMessage(e)), loading := false)
    case Data(Some(p)) => f.(prediction := Some(p), loading := false)
    case Data(None) => f.(loading := false)
  }

  /** A whole `handlePredict` run against a server `respond`: the final state
      and the requests sent. */
  function Predict(f: Form, respond: Request -> Outcome): (res: (Form, seq<Request>))
    ensures !res.0.loading
    ensures |res.1| <= 1
    ensures f.anneeDebut < FirstYear <==> |res.1| == 0
    ensures f.anneeDebut < FirstYear ==> res.0.error == Some(TooEarlyMessage) && res.0.prediction.None?
    ensures f.anneeDebut >= FirstYear ==> res.1 == [Request(f.anneeDebut, f.typePrediction)]
    ensures res.0.prediction.Some? ==> res.0.error.None?
    ensures res.0.error.Some? ==> res.0.prediction.None?
    ensures f.anneeDebut >= FirstYear && respond(Request(f.anneeDebut, f.typePrediction)).Error? ==>
              res.0.prediction.None?
              && res.0.error == Some(ErrorMessage(respond(Request(f.anneeDebut, f.typePrediction)).failure))
  {
    var (g, req) := Submit(f);
    match req
    case None => (g, [])
    case Some(r) => (Settle(g, respond(r)), [r])
  }

  /** `parseInt(e.target.value) || currentYear + 1`: the typed year, or next
      year when the text is not a number or reads as 0. */
  function YearInput(text: string, currentYear: int): (y: int)
    ensures Text.JsParseInt(text).Some? && Text.JsParseInt(text).value != 0 ==> y == Text.JsParseInt(text).value
    ensures Text.JsParseInt(text).None? || Text.JsParseInt(text) == Some(0) ==> y == currentYear + 1
  {
    match Text.JsParseInt(text)
    case Some(n) => if n != 0 then n else currentYear + 1
    case None => currentYear + 1
  }

  /** A typed non-zero year is taken as is. */
  lemma TypedYearKept(year: int, currentYear: int)
    requires year != 0
    ensures YearInput(Text.IntToDecimal(year), currentYear) == year
  {
    Text.JsParseIntOfDecimal(year);
  }
}

=== FILE: records.dfy ===
/** The record shapes the dashboard's charts receive from the query service,
    and the JavaScript value tests their filters use. A string field holds ""
    where the service sent null, undefined or an empty string: all three are
    falsy and every component treats them alike. A rate is `None` where the
    service sent null or NaN. */
module Records {
  import opened Wrappers
  import Text

  /** One department / week / age-band observation (`tousUrgences`). */
  datatype UrgenceRecord = UrgenceRecord(
    code: string,
    nom: string,
    date: string,
    classeAge: string,
    tauxGrippe: Option<real>,
    tauxHospitalisation: Option<real>,
    tauxSosMedecins: Option<real>)

  /** One department / year vaccination-coverage observation (`toutesCouvertures`). */
  datatype CouvertureRecord = CouvertureRecord(
    code: string,
    nom: string,
    annee: int,
    grippeTotale: Option<real>)

  /** One department's pharmacy count (`tousPharmacies`). */
  datatype PharmacieRecord = PharmacieRecord(
    code: string,
    nom: string,
    nombrePharmacies: Option<int>)

  /** The `[timeRange[0], timeRange[1]]` prop, inclusive at both ends. */
  datatype TimeRange = TimeRange(lo: int, hi: int)

  /** The charts' default `timeRange = [2016, 2024]`. */
  const DefaultRange := TimeRange(2016, 2024)

  /** JavaScript truthiness of a string. */
  predicate Truthy(s: string) {
    |s| > 0
  }

  /** `taux != null && !isNaN(taux)`. */
  predicate IsNumber(taux: Option<real>) {
    taux.Some?
  }

  /** `taux || 0`: null, NaN and 0 all read as 0. */
  function OrZero(taux: Option<real>): real {
    taux.GetOr(0.0)
  }

  /** `y >= range[0] && y <= range[1]`. */
  predicate InRange(y: int, range: TimeRange) {
    range.lo <= y <= range.hi
  }

  /** The same test on a year that may be null: JavaScript's relational
      operators convert null to 0 before comparing. */
  predicate YearInRange(y: Option<int>, range: TimeRange) {
    InRange(y.GetOr(0), range)
  }

  /** Only a range reaching down to year 0 lets a null year through. */
  lemma NullYearOnlyInZeroRange(range: TimeRange)
    ensures YearInRange(None, range) <==> range.lo <= 0 <= range.hi
  {
  }

  /** The components' year extraction from a record's `date`: the native
      `new Date(dateStr).getFullYear()` (abstract: `native`, `None` for an
      invalid date), falling back to the first run of four digits; no year at
      all for a falsy date string. */
  function ResolveYear(date: string, native: string -> Option<int>): (y: Option<int>)
    ensures !Truthy(date) ==> y.None?
    ensures Truthy(date) && native(date).Some? ==> y == native(date)
    ensures Truthy(date) && native(date).None? ==>
              (y.Some? <==> exists j :: Text.FourDigitsAt(date, j))
    ensures Truthy(date) && native(date).None? && y.Some? ==> 0 <= y.value < 10000
    ensures Truthy(date) && native(date).None? && Text.FirstFourDigits(date).Some? ==>
              y == Some(Text.FirstFourDigits(date).value as int)
  {
    if !Truthy(date) then None
    else match native(date)
      case Some(year) => Some(year)
      case None =>
        match Text.FirstFourDigits(date)
        case Some(n) => Some(n as int)
        case None => None
  }

  /** `!data?.x || data.x.length === 0`: the guard every component opens with. */
  predicate AbsentOrEmpty<T>(data: Option<seq<T>>) {
    data.None? || |data.value| == 0
  }
  /** The five age bands of the surveillance data, youngest first (`ageOrder`,
      `validAges`). */
  const AgeOrder: seq<string> := ["00-04 ans", "05-14 ans", "15-64 ans", "65 ans ou plus", "Tous âges"]

  /** `item.classeAge || "Non spécifié"`. */
  function AgeBand(r: UrgenceRecord): string {
    if Truthy(r.classeAge) then r.classeAge else "Non spécifié"
  }
}

=== FILE: schema.dfy ===
/** The query service's record conversions (`df_to_urgences`,
    `df_to_couvertures`) and the prediction resolver
    (`resolve_predire_campagne`). */
module Schema {
  import opened Wrappers
  import Text
  import Records
  import Campaigns
  import CoverageEvolution

  // ---------------------------------------------------------------------------
  // Table rows to records: NaN rates and years become 0.
  // ---------------------------------------------------------------------------

  /** One row of the cleaned emergency table (`None` for NaN). */
  datatype UrgenceRow = UrgenceRow(code: string, nom: string, date: string, classeAge: string,
                                   tauxGrippe: Option<real>, tauxHospitalisation: Option<real>,
                                   tauxSosMedecins: Option<real>)

  /** One row of the cleaned coverage table (`None` for NaN). */
  datatype CouvertureRow = CouvertureRow(code: string, nom: string, annee: Option<int>,
                                         grippeTotale: Option<real>)

  /** `float(x) if pd.notna(x) else 0`: a record field that is always a number. */
  function NumberOrZero(x: Option<real>): (y: Option<real>)
    ensures Records.IsNumber(y)
    ensures x.Some? ==> y == x
    ensures x.None? ==> y == Some(0.0)
  {
    Some(x.GetOr(0.0))
  }

  function ToUrgence(row: UrgenceRow): Records.UrgenceRecord {
    Records.UrgenceRecord(row.code, row.nom, row.date, row.classeAge,
                          NumberOrZero(row.tauxGrippe), NumberOrZero(row.tauxHospitalisation),
                          NumberOrZero(row.tauxSosMedecins))
  }

  /** `df_to_urgences`: one record per row, in row order; every rate is a
      number, NaN having become 0. */
  function DfToUrgences(rows: seq<UrgenceRow>): (rs: seq<Records.UrgenceRecord>)
    ensures |rs| == |rows|
    ensures forall i :: 0 <= i < |rows| ==>
              rs[i].code == rows[i].code && rs[i].nom == rows[i].nom
              && rs[i].date == rows[i].date && rs[i].classeAge == rows[i].classeAge
    ensures forall i :: 0 <= i < |rows| ==>
              Records.IsNumber(rs[i].tauxGrippe) && Records.IsNumber(rs[i].tauxHospitalisation)
              && Records.IsNumber(rs[i].tauxSosMedecins)
    ensures forall i :: 0 <= i < |rows| ==>
              rs[i].tauxGrippe == Some(rows[i].tauxGrippe.GetOr(0.0))
              && rs[i].tauxHospitalisation == Some(rows[i].tauxHospitalisation.GetOr(0.0))
              && rs[i].tauxSosMedecins == Some(rows[i].tauxSosMedecins.GetOr(0.0))
  {
    seq(|rows|, i requires 0 <= i < |rows| => ToUrgence(rows[i]))
  }

  /** `df_to_couvertures`: a missing year becomes 0 and a missing rate 0. */
  function DfToCouvertures(rows: seq<CouvertureRow>): (rs: seq<Records.CouvertureRecord>)
    ensures |rs| == |rows|
    ensures forall i :: 0 <= i < |rows| ==> rs[i].code == rows[i].code && rs[i].nom == rows[i].nom
    ensures forall i :: 0 <= i < |rows| ==> rs[i].annee == rows[i].annee.GetOr(0)
    ensures forall i :: 0 <= i < |rows| ==>
              rs[i].grippeTotale == Some(rows[i].grippeTotale.GetOr(0.0))
  {
    seq(|rows|, i requires 0 <= i < |rows| =>
      Records.CouvertureRecord(rows[i].code, rows[i].nom, rows[i].annee.GetOr(0),
                               NumberOrZero(rows[i].grippeTotale)))
  }

  /** A row whose year is missing reaches the yearly coverage chart as year
      0, which that chart's `annee` test drops whatever the range. */
  lemma MissingYearNeverPlotted(rows: seq<CouvertureRow>, i: nat, range: Records.TimeRange)
    requires i < |rows| && rows[i].annee.None?
    ensures !CoverageEvolution.Contributes(DfToCouvertures(rows)[i], range)
  {
  }

  // ---------------------------------------------------------------------------
  // resolve_predire_campagne
  // ---------------------------------------------------------------------------

  /** `PredictionType`. */
  datatype Prediction = Prediction(campagne: string, anneeDebut: int, valeurPredite: int,
                                   typePrediction: string)

  /** U+2011 NON-BREAKING HYPHEN, the separator the resolver writes in labels. */
  const LabelSeparator: char := '\U{2011}'

  const BadTypeMessage := "type_prediction doit être 'doses' ou 'actes'"
  const FailurePrefix := "Impossible d'effectuer la prédiction: "

  /** The label of the campaign starting in `year`. */
  function CampaignLabel(year: int): (l: string)
    ensures |l| > |Text.IntToDecimal(year)|
    ensures l[|Text.IntToDecimal(year)|] == LabelSeparator
  {
    Text.IntToDecimal(year) + [LabelSeparator] + Text.IntToDecimal(year + 1)
  }

  /** The label reads back as the start year, the separator and the next year. */
  lemma CampaignLabelParts(year: int)
    ensures var k := |Text.IntToDecimal(year)|;
            Text.PyInt(CampaignLabel(year)[..k]) == Some(year)
            && Text.PyInt(CampaignLabel(year)[k + 1..]) == Some(year + 1)
  {
    var d := Text.IntToDecimal(year);
    var l := CampaignLabel(year);
    assert l[..|d|] == d;
    assert l[|d| + 1..] == Text.IntToDecimal(year + 1);
    Text.PyIntOfDecimal(year);
    Text.PyIntOfDecimal(year + 1);
  }

  /** The message the client receives for a failed prediction: a
      `ValueError`'s own text, anything else behind a fixed prefix. */
  function FailureMessage(e: Campaigns.Raised): (m: string)
    ensures e.ValueError? ==> m == e.message
    ensures e.OtherError? ==> m == FailurePrefix + e.message
  {
    match e
    case ValueError(msg) => msg
    case OtherError(msg) => FailurePrefix + msg
  }

  /** `resolve_predire_campagne` over the doses table `rows`. */
  function ResolvePredireCampagne(rows: seq<Campaigns.DoseRow>, anneeDebut: int, typePrediction: string,
                                  train: seq<Campaigns.Campaign> -> Option<Campaigns.Raised>,
                                  predict: (seq<Campaigns.Campaign>, int) -> int): (r: Result<Prediction, string>)
    ensures typePrediction != "doses" && typePrediction != "actes" ==> r == Err(BadTypeMessage)
    ensures r.Ok? ==> r.value.campagne == CampaignLabel(anneeDebut)
                      && r.value.anneeDebut == anneeDebut && r.value.typePrediction == typePrediction
    ensures typePrediction == "doses" ==>
              var p := Campaigns.PredictCampaign(Campaigns.Aggregate(rows, Campaigns.DosesVariable),
                                                 anneeDebut, train, predict);
              (p.Ok? ==> r.Ok? && r.value.valeurPredite == p.value)
              && (p.Err? ==> r == Err(FailureMessage(p.error)))
    ensures typePrediction == "actes" ==>
              var p := Campaigns.PredictCampaign(Campaigns.Aggregate(rows, Campaigns.ActesVariable),
                                                 anneeDebut, train, predict);
              (p.Ok? ==> r.Ok? && r.value.valeurPredite == p.value)
              && (p.Err? ==> r == Err(FailureMessage(p.error)))
  {
    if typePrediction != "doses" && typePrediction != "actes" then Err(BadTypeMessage)
    else
      var (doses, actes) := Campaigns.BuildCampaignTables(rows);
      match Campaigns.PredictByChoice(doses, actes, typePrediction, anneeDebut, train, predict)
      case Err(e) => Err(FailureMessage(e))
      case Ok(v) => Ok(Prediction(CampaignLabel(anneeDebut), anneeDebut, v, typePrediction))
  }
}

=== FILE: sidebar.dfy ===
/** The filter panel (`Sidebar`): the year range and the two map selectors.
    Every change hands a copy of the filters, with one field replaced, to the
    `onFiltersChange` callback when there is one. */
module Sidebar {
  import opened Wrappers

  /** The dashboard filters; "" stands for an absent map selection. */
  datatype Filters = Filters(timeRange: Option<(int, int)>, selectedMap1: string, selectedMap2: string)

  /** The two map selectors (`'selectedMap1'`, `'selectedMap2'`). */
  datatype Slot = Map1 | Map2

  /** `mapOptions`' values. */
  const MapOptions: seq<string> := ["couverture", "hospitalisations", "urgences", "pharmacies"]

  /** `{...filters}` of an absent `filters` object is empty. */
  function Spread(filters: Option<Filters>): Filters {
    filters.GetOr(Filters(None, "", ""))
  }

  /** `handleTimeChange`: the filters with `timeRange` replaced, or no call
      without a callback. */
  function HandleTimeChange(filters: Option<Filters>, hasCallback: bool, range: (int, int)): (out: Option<Filters>)
    ensures out.Some? <==> hasCallback
    ensures out.Some? ==> out.value.timeRange == Some(range)
    ensures out.Some? ==> out.value.selectedMap1 == Spread(filters).selectedMap1
                          && out.value.selectedMap2 == Spread(filters).selectedMap2
  {
    if hasCallback then Some(Spread(filters).(timeRange := Some(range))) else None
  }

  /** `handleMapChange(mapType, value)`: the filters with the slot replaced. */
  function HandleMapChange(filters: Option<Filters>, hasCallback: bool, slot: Slot, value: string)
    : (out: Option<Filters>)
    ensures out.Some? <==> hasCallback
    ensures out.Some? ==> out.value.timeRange == Spread(filters).timeRange
    ensures out.Some? && slot == Map1 ==>
              out.value.selectedMap1 == value && out.value.selectedMap2 == Spread(filters).selectedMap2
    ensures out.Some? && slot == Map2 ==>
              out.value.selectedMap2 == value && out.value.selectedMap1 == Spread(filters).selectedMap1
  {
    if !hasCallback then None
    else match slot
      case Map1 => Some(Spread(filters).(selectedMap1 := value))
      case Map2 => Some(Spread(filters).(selectedMap2 := value))
  }

  /** What a selector shows: its selection, or its default. */
  function Shown(filters: Option<Filters>, slot: Slot): (v: string)
    ensures v in MapOptions || v == Selection(filters, slot)
    ensures Selection(filters, slot) != "" ==> v == Selection(filters, slot)
    ensures Selection(filters, slot) == "" ==> v == (if slot == Map1 then "couverture" else "hospitalisations")
  {
    var raw := Selection(filters, slot);
    if raw != "" then raw else if slot == Map1 then "couverture" else "hospitalisations"
  }

  function Selection(filters: Option<Filters>, slot: Slot): string {
    match filters
    case None => ""
    case Some(f) => if slot == Map1 then f.selectedMap1 else f.selectedMap2
  }

  function Other(slot: Slot): Slot {
    if slot == Map1 then Map2 else Map1
  }

  /** An option of one selector is disabled when it is the other selector's
      selection (as stored, not as shown). */
  predicate Disabled(filters: Option<Filters>, slot: Slot, option: string) {
    option == Selection(filters, Other(slot))
  }

  /** The range handed to the slider: `filters?.timeRange || [2016, 2024]`. */
  function SliderValue(filters: Option<Filters>): (r: (int, int))
    ensures filters.Some? && filters.value.timeRange.Some? ==> r == filters.value.timeRange.value
    ensures filters.None? || filters.value.timeRange.None? ==> r == (2016, 2024)
  {
    if filters.Some? && filters.value.timeRange.Some? then filters.value.timeRange.value else (2016, 2024)
  }

  /** Both selectors hold distinct selections. */
  predicate Distinct(f: Filters) {
    f.selectedMap1 != "" && f.selectedMap2 != "" && f.selectedMap1 != f.selectedMap2
  }

  /** Choosing an enabled option keeps the two selections distinct. */
  lemma EnabledChoiceKeepsDistinct(f: Filters, slot: Slot, option: string)
    requires Distinct(f) && option in MapOptions && !Disabled(Some(f), slot, option)
    ensures Distinct(HandleMapChange(Some(f), true, slot, option).value)
  {
  }

  /** An option is disabled in exactly one of the two selectors' lists when it
      is one of the current selections, and in neither otherwise. */
  lemma DisabledOptions(f: Filters, option: string)
    requires Distinct(f)
    ensures Disabled(Some(f), Map1, option) <==> option == f.selectedMap2
    ensures Disabled(Some(f), Map2, option) <==> option == f.selectedMap1
    ensures !(Disabled(Some(f), Map1, option) && Disabled(Some(f), Map2, option))
  {
  }

  /** The rule compares with the stored selection, not the shown default:
      with the second selection absent, the first selector may pick the
      option the second one shows. */
  lemma ShownDefaultNotDisabled(filters: Option<Filters>)
    requires Selection(filters, Map2) == ""
    ensures !Disabled(filters, Map1, "hospitalisations")
    ensures Shown(HandleMapChange(filters, true, Map1, "hospitalisations"), Map1) == "hospitalisations"
    ensures Shown(HandleMapChange(filters, true, Map1, "hospitalisations"), Map2) == "hospitalisations"
  {
  }
}

=== FILE: sorting.dfy ===
/** Stable sorting. JavaScript's `Array.prototype.sort` has been stable since
    ES2019, so `xs.sort((a, b) => key(a) - key(b))` is characterised by three
    facts: the result is a permutation, it is ordered by `key`, and elements
    with equal keys keep their relative order. The insertion sort below is the
    reference with those three properties. */
module Sorting {
  import Text

  predicate SortedBy<T>(xs: seq<T>, key: T -> real) {
    forall i, j :: 0 <= i < j < |xs| ==> key(xs[i]) <= key(xs[j])
  }

  /** The elements whose key is `v`, in their order of appearance. */
  function WithKey<T>(xs: seq<T>, key: T -> real, v: real): (r: seq<T>)
    ensures |r| <= |xs|
  {
    if |xs| == 0 then []
    else (if key(xs[0]) == v then [xs[0]] else []) + WithKey(xs[1..], key, v)
  }

  /** Inserts `x` before the first element whose key is not smaller. */
  function Insert<T>(x: T, s: seq<T>, key: T -> real): (r: seq<T>)
    ensures |r| == |s| + 1
    ensures multiset(r) == multiset(s) + multiset{x}
  {
    if |s| == 0 || key(x) <= key(s[0]) then [x] + s
    else
      var r := [s[0]] + Insert(x, s[1..], key);
      assert s == [s[0]] + s[1..];
      r
  }

  function SortBy<T>(xs: seq<T>, key: T -> real): (r: seq<T>)
    ensures |r| == |xs|
    ensures multiset(r) == multiset(xs)
  {
    if |xs| == 0 then []
    else
      var r := Insert(xs[0], SortBy(xs[1..], key), key);
      assert xs == [xs[0]] + xs[1..];
      r
  }

  lemma {:induction false} InsertSorted<T>(x: T, s: seq<T>, key: T -> real)
    requires SortedBy(s, key)
    ensures SortedBy(Insert(x, s, key), key)
    decreases |s|
  {
    if |s| > 0 && key(x) > key(s[0]) {
      SortedByTail(s, key);
      InsertSorted(x, s[1..], key);
      InsertPastHead(x, s, key);
      ConsSorted(s[0], Insert(x, s[1..], key), key);
      assert Insert(x, s, key) == [s[0]] + Insert(x, s[1..], key);
    }
  }

  lemma SortedByTail<T>(s: seq<T>, key: T -> real)
    requires SortedBy(s, key) && |s| > 0
    ensures SortedBy(s[1..], key)
  {
    var u := s[1..];
    forall i, j | 0 <= i < j < |u|
      ensures key(u[i]) <= key(u[j])
    {
      assert u[i] == s[i + 1] && u[j] == s[j + 1];
    }
  }

  /** Every element of the rest with `x` inserted lies at or above the head. */
  lemma InsertPastHead<T>(x: T, s: seq<T>, key: T -> real)
    requires SortedBy(s, key) && |s| > 0 && key(x) > key(s[0])
    ensures forall i :: 0 <= i < |Insert(x, s[1..], key)| ==> key(s[0]) <= key(Insert(x, s[1..], key)[i])
  {
    var t := Insert(x, s[1..], key);
    forall i | 0 <= i < |t|
      ensures key(s[0]) <= key(t[i])
    {
      assert t[i] in multiset(t);
      assert t[i] in multiset(s[1..]) + multiset{x};
      if t[i] != x {
        assert t[i] in s[1..];
        var m :| 0 <= m < |s[1..]| && s[1..][m] == t[i];
        assert s[m + 1] == t[i];
      }
    }
  }

  lemma ConsSorted<T>(a: T, t: seq<T>, key: T -> real)
    requires SortedBy(t, key)
    requires forall i :: 0 <= i < |t| ==> key(a) <= key(t[i])
    ensures SortedBy([a] + t, key)
  {
    var r := [a] + t;
    forall i, j | 0 <= i < j < |r|
      ensures key(r[i]) <= key(r[j])
    {
      assert r[j] == t[j - 1];
      if i > 0 {
        assert r[i] == t[i - 1];
      }
    }
  }

  /** An element of a sorted sequence that is missing from its first `m`
      positions comes after all of them and is at least as large. */
  lemma LeftOutOfSortedPrefix<T>(s: seq<T>, key: T -> real, m: nat, d: T)
    requires SortedBy(s, key) && m <= |s| && d in s
    requires forall i :: 0 <= i < m ==> s[..m][i] != d
    ensures m < |s|
    ensures forall i :: 0 <= i < m ==> key(s[..m][i]) <= key(d)
  {
    var j :| 0 <= j < |s| && s[j] == d;
    forall i | 0 <= i < m
      ensures s[i] != s[j]
    {
      assert s[..m][i] == s[i];
    }
    assert m <= j;
    PrefixBelowRest(s, key, m, j);
  }

  /** In a sorted sequence every element before position `m` is at most any
      element from `m` on. */
  lemma PrefixBelowRest<T>(s: seq<T>, key: T -> real, m: nat, j: nat)
    requires SortedBy(s, key) && m <= j < |s|
    ensures forall i :: 0 <= i < m ==> key(s[..m][i]) <= key(s[j])
  {
  }

  lemma {:induction false} InsertWithKey<T>(x: T, s: seq<T>, key: T -> real, v: real)
    ensures WithKey(Insert(x, s, key), key, v)
         == (if key(x) == v then [x] else []) + WithKey(s, key, v)
    decreases |s|
  {
    if |s| == 0 || key(x) <= key(s[0]) {
      assert ([x] + s)[1..] == s;
    } else {
      var t := Insert(x, s[1..], key);
      InsertWithKey(x, s[1..], key, v);
      var r := [s[0]] + t;
      assert r[0] == s[0] && r[1..] == t;
      var hs := if key(s[0]) == v then [s[0]] else [];
      var hx := if key(x) == v then [x] else [];
      assert WithKey(r, key, v) == hs + WithKey(t, key, v);
      assert WithKey(s, key, v) == hs + WithKey(s[1..], key, v);
      assert hs == [] || hx == [];
    }
  }

  /** The sort result is ordered by key. */
  lemma {:induction false} SortByIsSorted<T>(xs: seq<T>, key: T -> real)
    ensures SortedBy(SortBy(xs, key), key)
    decreases |xs|
  {
    if |xs| > 0 {
      SortByIsSorted(xs[1..], key);
      InsertSorted(xs[0], SortBy(xs[1..], key), key);
    }
  }

  /** The sort is stable: for every key value, the elements carrying it appear
      in the same order as in the input. */
  lemma {:induction false} SortByIsStable<T>(xs: seq<T>, key: T -> real, v: real)
    ensures WithKey(SortBy(xs, key), key, v) == WithKey(xs, key, v)
    decreases |xs|
  {
    if |xs| > 0 {
      SortByIsStable(xs[1..], key, v);
      InsertWithKey(xs[0], SortBy(xs[1..], key), key, v);
    }
  }

  /** Among elements with equal keys, `rank` increases along `xs`. */
  predicate TiesRanked<T>(xs: seq<T>, key: T -> real, rank: T -> int) {
    forall i, j :: 0 <= i < j < |xs| && key(xs[i]) == key(xs[j]) ==> rank(xs[i]) < rank(xs[j])
  }

  lemma {:induction false} InsertTiesRanked<T>(x: T, s: seq<T>, key: T -> real, rank: T -> int)
    requires TiesRanked(s, key, rank)
    requires forall y :: y in s ==> rank(x) < rank(y)
    ensures TiesRanked(Insert(x, s, key), key, rank)
    decreases |s|
  {
    if |s| == 0 || key(x) <= key(s[0]) {
      FrontTiesRanked(x, s, key, rank);
    } else {
      var u := s[1..];
      TailTiesRanked(s, key, rank);
      InsertTiesRanked(x, u, key, rank);
      var t := Insert(x, u, key);
      var r := Insert(x, s, key);
      assert r == [s[0]] + t;
      HeadTiesRankedFirst(x, s, key, rank);
      forall i, j | 0 <= i < j < |r| && key(r[i]) == key(r[j])
        ensures rank(r[i]) < rank(r[j])
      {
        assert r[j] == t[j - 1];
        if i > 0 {
          assert r[i] == t[i - 1];
        }
      }
    }
  }

  lemma FrontTiesRanked<T>(x: T, s: seq<T>, key: T -> real, rank: T -> int)
    requires TiesRanked(s, key, rank)
    requires forall y :: y in s ==> rank(x) < rank(y)
    ensures TiesRanked([x] + s, key, rank)
  {
    var r := [x] + s;
    forall i, j | 0 <= i < j < |r| && key(r[i]) == key(r[j])
      ensures rank(r[i]) < rank(r[j])
    {
      assert r[j] == s[j - 1];
      if i > 0 {
        assert r[i] == s[i - 1];
      }
    }
  }

  lemma TailTiesRanked<T>(s: seq<T>, key: T -> real, rank: T -> int)
    requires TiesRanked(s, key, rank) && |s| > 0
    ensures TiesRanked(s[1..], key, rank)
  {
    var u := s[1..];
    forall i, j | 0 <= i < j < |u| && key(u[i]) == key(u[j])
      ensures rank(u[i]) < rank(u[j])
    {
      assert u[i] == s[i + 1] && u[j] == s[j + 1];
    }
  }

  /** When `x` goes past the head of `s`, the head still ranks before every
      tied element of the rest. */
  lemma HeadTiesRankedFirst<T>(x: T, s: seq<T>, key: T -> real, rank: T -> int)
    requires TiesRanked(s, key, rank)
    requires |s| > 0 && key(x) > key(s[0])
    ensures forall k :: 0 <= k < |Insert(x, s[1..], key)| && key(Insert(x, s[1..], key)[k]) == key(s[0]) ==>
              rank(s[0]) < rank(Insert(x, s[1..], key)[k])
  {
    var t := Insert(x, s[1..], key);
    forall k | 0 <= k < |t| && key(t[k]) == key(s[0])
      ensures rank(s[0]) < rank(t[k])
    {
      assert t[k] in multiset(t);
      assert t[k] != x;
      assert t[k] in s[1..];
      var m :| 0 <= m < |s[1..]| && s[1..][m] == t[k];
      assert s[m + 1] == t[k];
    }
  }

  /** A stable sort keeps any order that `xs` already has among tied
      elements: if `rank` increases along `xs`, it increases along every run
      of equal keys in the result. */
  lemma {:induction false} SortByKeepsTieRank<T>(xs: seq<T>, key: T -> real, rank: T -> int)
    requires forall i, j :: 0 <= i < j < |xs| ==> rank(xs[i]) < rank(xs[j])
    ensures TiesRanked(SortBy(xs, key), key, rank)
    decreases |xs|
  {
    if |xs| > 0 {
      var t := xs[1..];
      assert forall i :: 0 <= i < |t| ==> t[i] == xs[i + 1];
      SortByKeepsTieRank(t, key, rank);
      var s := SortBy(t, key);
      forall y | y in s
        ensures rank(xs[0]) < rank(y)
      {
        assert y in multiset(s);
        assert y in t;
        var k :| 0 <= k < |t| && t[k] == y;
      }
      InsertTiesRanked(xs[0], s, key, rank);
    }
  }

  // ---------------------------------------------------------------------------
  // Default `sort()` on strings (code-point order).
  // ---------------------------------------------------------------------------

  predicate Distinct<T(==)>(xs: seq<T>) {
    forall i, j :: 0 <= i < j < |xs| ==> xs[i] != xs[j]
  }

  predicate StrictlyAscending(xs: seq<string>) {
    forall i, j :: 0 <= i < j < |xs| ==> Text.StrLt(xs[i], xs[j])
  }

  function InsertString(x: string, s: seq<string>): (r: seq<string>)
    ensures |r| == |s| + 1
    ensures multiset(r) == multiset(s) + multiset{x}
  {
    if |s| == 0 || Text.StrLe(x, s[0]) then [x] + s
    else
      var r := [s[0]] + InsertString(x, s[1..]);
      assert s == [s[0]] + s[1..];
      r
  }

  function SortStrings(xs: seq<string>): (r: seq<string>)
    ensures |r| == |xs|
    ensures multiset(r) == multiset(xs)
  {
    if |xs| == 0 then []
    else
      var r := InsertString(xs[0], SortStrings(xs[1..]));
      assert xs == [xs[0]] + xs[1..];
      r
  }

  lemma {:induction false} InsertStringAscending(x: string, s: seq<string>)
    requires StrictlyAscending(s) && x !in s
    ensures StrictlyAscending(InsertString(x, s))
    decreases |s|
  {
    if |s| == 0 {
    } else if Text.StrLe(x, s[0]) {
      assert x != s[0];
      forall j | 1 <= j < |s| + 1
        ensures Text.StrLt(x, ([x] + s)[j])
      {
        if j > 1 {
          Text.StrLtTransitive(x, s[0], s[j - 1]);
        }
      }
    } else {
      Text.StrLtTotal(x, s[0]);
      assert x !in s[1..];
      InsertStringAscending(x, s[1..]);
      var t := InsertString(x, s[1..]);
      var r := [s[0]] + t;
      forall i | 1 <= i < |r|
        ensures Text.StrLt(s[0], r[i])
      {
        assert r[i] in multiset(t);
        assert r[i] in multiset(s[1..]) + multiset{x};
        if r[i] != x {
          assert r[i] in s[1..];
        }
      }
    }
  }

  /** Sorting distinct strings yields a strictly ascending sequence. */
  lemma {:induction false} SortStringsAscending(xs: seq<string>)
    requires Distinct(xs)
    ensures StrictlyAscending(SortStrings(xs))
    decreases |xs|
  {
    if |xs| > 0 {
      SortStringsAscending(xs[1..]);
      var s := SortStrings(xs[1..]);
      assert xs[0] !in xs[1..] by {
        forall k | 0 <= k < |xs[1..]|
          ensures xs[1..][k] != xs[0]
        {
          assert xs[1..][k] == xs[k + 1];
        }
      }
      assert xs[0] !in multiset(s);
      InsertStringAscending(xs[0], s);
    }
  }
  /** A prefix of a sequence keeps, for every key, a prefix of the elements
      carrying that key. */
  lemma {:induction false} WithKeyPrefix<T>(xs: seq<T>, k: nat, key: T -> real, v: real)
    requires k <= |xs|
    ensures WithKey(xs[..k], key, v) <= WithKey(xs, key, v)
    decreases |xs|
  {
    if k > 0 {
      WithKeyPrefix(xs[1..], k - 1, key, v);
      assert xs[..k][1..] == xs[1..][..k - 1];
    }
  }

  lemma {:induction false} DistinctOccursOnce<T>(xs: seq<T>, x: T)
    requires Distinct(xs)
    ensures multiset(xs)[x] <= 1
    decreases |xs|
  {
    if |xs| > 0 {
      assert xs == [xs[0]] + xs[1..];
      assert Distinct(xs[1..]);
      DistinctOccursOnce(xs[1..], x);
      if x == xs[0] {
        assert x !in xs[1..] by {
          forall k | 0 <= k < |xs[1..]|
            ensures xs[1..][k] != x
          {
            assert xs[1..][k] == xs[k + 1];
          }
        }
      }
    }
  }

  lemma RepeatedOccursTwice<T>(xs: seq<T>, i: int, j: int)
    requires 0 <= i < j < |xs| && xs[i] == xs[j]
    ensures multiset(xs)[xs[i]] >= 2
  {
    assert xs == xs[..j] + [xs[j]] + xs[j + 1..];
    assert xs[..j][i] == xs[i];
    assert xs[i] in multiset(xs[..j]);
  }

  /** A permutation of distinct elements has distinct elements. */
  lemma PermutationDistinct<T>(xs: seq<T>, ys: seq<T>)
    requires Distinct(xs) && multiset(xs) == multiset(ys)
    ensures Distinct(ys)
  {
    forall i, j | 0 <= i < j < |ys|
      ensures ys[i] != ys[j]
    {
      DistinctOccursOnce(xs, ys[i]);
      if ys[i] == ys[j] {
        RepeatedOccursTwice(ys, i, j);
        assert false;
      }
    }
  }
  /** Sorting keeps exactly the same elements, and keeps them distinct. */
  lemma SortByPermutes<T>(xs: seq<T>, key: T -> real)
    ensures forall x :: x in SortBy(xs, key) <==> x in xs
    ensures Distinct(xs) ==> Distinct(SortBy(xs, key))
  {
    var s := SortBy(xs, key);
    forall x
      ensures x in s <==> x in xs
    {
      assert x in s <==> x in multiset(s);
      assert x in xs <==> x in multiset(xs);
    }
    if Distinct(xs) {
      PermutationDistinct(xs, s);
    }
  }

  /** When every element has the same key, sorting changes nothing. */
  lemma {:induction false} SortByEqualKeys<T>(xs: seq<T>, key: T -> real, v: real)
    requires forall i :: 0 <= i < |xs| ==> key(xs[i]) == v
    ensures SortBy(xs, key) == xs
    decreases |xs|
  {
    if |xs| > 0 {
      SortByEqualKeys(xs[1..], key, v);
      assert xs == [xs[0]] + xs[1..];
    }
  }
}

=== FILE: text.dfy ===
/** Character-level helpers: digits, the code-point order on strings, decimal
    rendering and the two integer parsers the system relies on (Python `int()`
    and JavaScript `parseInt`), plus the `/(\d{4})/` year fallback. */
module Text {
  import opened Wrappers

  predicate IsDigit(c: char) {
    '0' <= c <= '9'
  }

  predicate AllDigits(s: string) {
    forall i :: 0 <= i < |s| ==> IsDigit(s[i])
  }

  /** ASCII whitespace as stripped by Python `int()` and skipped by JavaScript `parseInt`. */
  predicate IsSpace(c: char) {
    c == ' ' || c == '\t' || c == '\n' || c == '\r' || c == '\U{B}' || c == '\U{C}'
  }

  function DigitValue(c: char): (d: nat)
    requires IsDigit(c)
    ensures d < 10
  {
    (c as int - '0' as int) as nat
  }

  function DigitChar(d: nat): (c: char)
    requires d < 10
    ensures IsDigit(c) && DigitValue(c) == d
  {
    ('0' as int + d) as char
  }

  // ---------------------------------------------------------------------------
  // Code-point (lexicographic) order: the order of Python string comparison
  // and of JavaScript's default `Array.prototype.sort` on BMP strings.
  // ---------------------------------------------------------------------------

  predicate StrLt(a: string, b: string)
    decreases |a|
  {
    if |b| == 0 then false
    else if |a| == 0 then true
    else if a[0] != b[0] then a[0] < b[0]
    else StrLt(a[1..], b[1..])
  }

  predicate StrLe(a: string, b: string) {
    a == b || StrLt(a, b)
  }

  lemma {:induction false} StrLtIrreflexive(a: string)
    ensures !StrLt(a, a)
    decreases |a|
  {
    if |a| > 0 {
      StrLtIrreflexive(a[1..]);
    }
  }

  lemma {:induction false} StrLtTransitive(a: string, b: string, c: string)
    requires StrLt(a, b) && StrLt(b, c)
    ensures StrLt(a, c)
    decreases |a|
  {
    if |a| > 0 && a[0] == b[0] && b[0] == c[0] {
      StrLtTransitive(a[1..], b[1..], c[1..]);
    }
  }

  lemma {:induction false} StrLtTotal(a: string, b: string)
    ensures a == b || StrLt(a, b) || StrLt(b, a)
    decreases |a|
  {
    if |a| > 0 && |b| > 0 && a[0] == b[0] {
      StrLtTotal(a[1..], b[1..]);
      if a[1..] == b[1..] {
        assert a == [a[0]] + a[1..] && b == [b[0]] + b[1..];
      }
    }
  }

  lemma {:induction false} StrLtAsymmetric(a: string, b: string)
    requires StrLt(a, b)
    ensures !StrLt(b, a)
    decreases |a|
  {
    if |a| > 0 && a[0] == b[0] {
      StrLtAsymmetric(a[1..], b[1..]);
    }
  }

  // ---------------------------------------------------------------------------
  // Decimal rendering: Python `str(int)` and JavaScript number-to-string.
  // ---------------------------------------------------------------------------

  /** Value of a digit string, most significant digit first. */
  function DigitsValue(s: string): (v: nat)
    requires AllDigits(s)
    decreases |s|
  {
    if |s| == 0 then 0
    else DigitsValue(s[..|s| - 1]) * 10 + DigitValue(s[|s| - 1])
  }

  /** Shortest decimal rendering of a natural number ("0" for zero). */
  function NatToDecimal(n: nat): (s: string)
    ensures |s| > 0 && AllDigits(s)
    ensures DigitsValue(s) == n
    ensures |s| > 1 ==> s[0] != '0'
    decreases n
  {
    if n < 10 then [DigitChar(n)]
    else
      var p := NatToDecimal(n / 10);
      var s := p + [DigitChar(n % 10)];
      assert s[..|s| - 1] == p;
      s
  }

  /** Python `str(i)` for an integer: a leading '-' for negatives. */
  function IntToDecimal(i: int): (s: string)
    ensures |s| > 0
  {
    if i < 0 then "-" + NatToDecimal(-i) else NatToDecimal(i)
  }

  // ---------------------------------------------------------------------------
  // Python `int(str)`: surrounding whitespace, an optional sign, then at least
  // one ASCII digit. Anything else raises, modelled as None.
  // ---------------------------------------------------------------------------

  function TrimStart(s: string): (r: string)
    ensures |r| <= |s| && r == s[|s| - |r|..]
    ensures |r| > 0 ==> !IsSpace(r[0])
    decreases |s|
  {
    if |s| > 0 && IsSpace(s[0]) then TrimStart(s[1..]) else s
  }

  function TrimEnd(s: string): (r: string)
    ensures |r| <= |s| && r == s[..|r|]
    ensures |r| > 0 ==> !IsSpace(r[|r| - 1])
    ensures forall k :: |r| <= k < |s| ==> IsSpace(s[k])
    decreases |s|
  {
    if |s| > 0 && IsSpace(s[|s| - 1]) then TrimEnd(s[..|s| - 1]) else s
  }

  function ParseUnsigned(s: string): Option<nat> {
    if |s| > 0 && AllDigits(s) then Some(DigitsValue(s)) else None
  }

  /** The text after one optional leading `+` or `-`. */
  function AfterSign(t: string): string {
    if |t| > 0 && (t[0] == '-' || t[0] == '+') then t[1..] else t
  }

  /** Python `int(s)` on a string: surrounding whitespace is ignored, and the
      rest must be an optional sign followed by at least one ASCII digit. */
  function PyInt(s: string): (r: Option<int>)
    ensures var u := AfterSign(TrimEnd(TrimStart(s)));
            r.Some? <==> |u| > 0 && AllDigits(u)
    ensures var t := TrimEnd(TrimStart(s));
            var u := AfterSign(t);
            r.Some? ==> r.value == if t[0] == '-' then -(DigitsValue(u) as int) else DigitsValue(u) as int
  {
    var t := TrimEnd(TrimStart(s));
    if |t| > 0 && t[0] == '-' then
      match ParseUnsigned(t[1..])
      case Some(n) => Some(-(n as int))
      case None => None
    else if |t| > 0 && t[0] == '+' then
      match ParseUnsigned(t[1..])
      case Some(n) => Some(n as int)
      case None => None
    else
      match ParseUnsigned(t)
      case Some(n) => Some(n as int)
      case None => None
  }

  lemma TrimOfDecimal(i: int)
    ensures TrimEnd(TrimStart(IntToDecimal(i))) == IntToDecimal(i)
  {
    var s := IntToDecimal(i);
    assert !IsSpace(s[0]);
    assert !IsSpace(s[|s| - 1]);
  }

  /** `int(str(i)) == i`: rendering then parsing is the identity. */
  lemma PyIntOfDecimal(i: int)
    ensures PyInt(IntToDecimal(i)) == Some(i)
  {
    TrimOfDecimal(i);
    var s := IntToDecimal(i);
    if i < 0 {
      assert s[1..] == NatToDecimal(-i);
    }
  }

  // ---------------------------------------------------------------------------
  // JavaScript `parseInt(str)` on the text of a number input: leading
  // whitespace, an optional sign, then the longest run of ASCII digits.
  // ---------------------------------------------------------------------------

  /** Length of the longest all-digit prefix. */
  function DigitPrefixLength(s: string): (n: nat)
    ensures n <= |s| && AllDigits(s[..n])
    ensures n < |s| ==> !IsDigit(s[n])
    decreases |s|
  {
    if |s| > 0 && IsDigit(s[0]) then
      var k := DigitPrefixLength(s[1..]);
      assert s[..k + 1] == [s[0]] + s[1..][..k];
      k + 1
    else 0
  }

  /** JavaScript `parseInt(s)`: after leading whitespace and an optional sign,
      the longest run of digits, or NaN when there is none. */
  function JsParseInt(s: string): (r: Option<int>)
    ensures var u := AfterSign(TrimStart(s));
            r.Some? <==> |u| > 0 && IsDigit(u[0])
    ensures var t := TrimStart(s);
            var u := AfterSign(t);
            var n := DigitPrefixLength(u);
            r.Some? ==> 0 < n && r.value == if t[0] == '-' then -(DigitsValue(u[..n]) as int) else DigitsValue(u[..n]) as int
  {
    var t := TrimStart(s);
    var neg := |t| > 0 && t[0] == '-';
    var body := AfterSign(t);
    var n := DigitPrefixLength(body);
    if n == 0 then None
    else if neg then Some(-(DigitsValue(body[..n]) as int))
    else Some(DigitsValue(body[..n]) as int)
  }

  /** An all-digit string is its own longest digit prefix. */
  lemma DigitPrefixOfDigits(d: string)
    requires AllDigits(d)
    ensures DigitPrefixLength(d) == |d| && d[..|d|] == d
  {
  }

  /** The longest digit prefix is the one a non-digit (or the end) closes. */
  lemma DigitPrefixClosedAt(s: string, k: nat)
    requires k <= |s| && AllDigits(s[..k]) && (k < |s| ==> !IsDigit(s[k]))
    ensures DigitPrefixLength(s) == k
  {
    var n := DigitPrefixLength(s);
    forall i | 0 <= i < k
      ensures IsDigit(s[i])
    {
      assert s[..k][i] == s[i];
    }
    forall i | 0 <= i < n
      ensures IsDigit(s[i])
    {
      assert s[..n][i] == s[i];
    }
  }

  /** Wherever Python `int()` accepts a text, `parseInt` reads the same
      number from it: the two parsers agree on every well-formed integer. */
  lemma JsParseIntAgreesWithPyInt(s: string)
    requires PyInt(s).Some?
    ensures JsParseInt(s) == PyInt(s)
  {
    var w := TrimStart(s);
    var t := TrimEnd(w);
    var u := AfterSign(t);
    var v := AfterSign(w);
    assert t == w[..|t|];
    assert |t| > 0 && t[0] == w[0];
    assert u == v[..|u|];
    forall k | |u| <= k < |v|
      ensures !IsDigit(v[k])
    {
      assert IsSpace(v[k]);
    }
    assert v[..|u|] == u;
    DigitPrefixClosedAt(v, |u|);
  }

  /** `parseInt(String(i)) == i`: a typed integer is read back unchanged. */
  lemma JsParseIntOfDecimal(i: int)
    ensures JsParseInt(IntToDecimal(i)) == Some(i)
  {
    var s := IntToDecimal(i);
    assert TrimStart(s) == s by {
      assert !IsSpace(s[0]);
    }
    if i < 0 {
      var d := NatToDecimal(-i);
      assert s[0] == '-' && s[1..] == d;
      JsParseIntOfDigits(s, d);
    } else {
      var d := NatToDecimal(i);
      assert s[0] != '-' && s[0] != '+';
      JsParseIntOfDigits(s, d);
    }
  }

  /** A trimmed text made of an optional sign and the digits `d` reads as the
      value of `d`, negated after a minus. */
  lemma JsParseIntOfDigits(s: string, d: string)
    requires TrimStart(s) == s && |s| > 0 && |d| > 0 && AllDigits(d)
    requires s == d || ((s[0] == '-' || s[0] == '+') && s[1..] == d)
    ensures JsParseInt(s) == Some(if s[0] == '-' then -(DigitsValue(d) as int) else DigitsValue(d) as int)
  {
    DigitPrefixOfDigits(d);
    if s != d {
      assert !IsDigit(s[0]);
    }
    assert AfterSign(s) == d;
    assert IsDigit(d[0]);
  }

  // ---------------------------------------------------------------------------
  // `str.match(/(\d{4})/)` then `parseInt`: the leftmost run of four digits.
  // ---------------------------------------------------------------------------

  predicate FourDigitsAt(s: string, i: int) {
    0 <= i && i + 4 <= |s| && AllDigits(s[i..i + 4])
  }

  /** Index of the leftmost four-digit run at or after `i`. */
  function FirstRunFrom(s: string, i: nat): (r: Option<nat>)
    requires i <= |s|
    ensures r.None? ==> forall k :: i <= k ==> !FourDigitsAt(s, k)
    ensures r.Some? ==> i <= r.value && FourDigitsAt(s, r.value)
    ensures r.Some? ==> forall k :: i <= k < r.value ==> !FourDigitsAt(s, k)
    decreases |s| - i
  {
    if i + 4 > |s| then None
    else if AllDigits(s[i..i + 4]) then Some(i)
    else FirstRunFrom(s, i + 1)
  }

  function Pow10(n: nat): (p: nat)
    ensures p > 0
  {
    if n == 0 then 1 else 10 * Pow10(n - 1)
  }

  lemma {:induction false} DigitsValueBound(t: string)
    requires AllDigits(t)
    ensures DigitsValue(t) < Pow10(|t|)
    decreases |t|
  {
    if |t| > 0 {
      DigitsValueBound(t[..|t| - 1]);
    }
  }

  /** The year the regular-expression fallback extracts: the value of the
      leftmost run of four digits, if there is one. */
  function FirstFourDigits(s: string): (r: Option<nat>)
    ensures r.Some? <==> exists j :: FourDigitsAt(s, j)
    ensures r.Some? ==> r.value < 10000
    ensures r.Some? ==> exists j :: FourDigitsAt(s, j) && r.value == DigitsValue(s[j..j + 4])
                                   && forall k :: 0 <= k < j ==> !FourDigitsAt(s, k)
  {
    match FirstRunFrom(s, 0)
    case None => None
    case Some(j) =>
      DigitsValueBound(s[j..j + 4]);
      assert Pow10(4) == 10000;
      Some(DigitsValue(s[j..j + 4]))
  }
}

=== FILE: time_slicer.dfy ===
/** The two-thumb year range slider (`TimeSlicer`) as a state machine over
    the thumb being dragged and the selected `[low, high]` years. A mouse
    position is projected onto the track, rounded to a year and clamped to
    `[minYear, maxYear]`; the dragged thumb moves there only if the two thumbs
    do not cross, and each accepted move reports the new range to `onChange`. */
module TimeSlicer {
  import opened Wrappers

  datatype Thumb = MinThumb | MaxThumb

  /** `activeThumb` and `localValue`. */
  datatype State = State(active: Option<Thumb>, low: int, high: int)

  /** The slider's bounds (`minYear`, `maxYear`, default 2016 and 2024). */
  datatype Bounds = Bounds(minYear: int, maxYear: int)

  const DefaultBounds := Bounds(2016, 2024)

  /** The track's `getBoundingClientRect()`: its left edge and width. */
  datatype Rect = Rect(left: real, width: real)

  /** `useState(value || [minYear, maxYear])`. */
  function Init(b: Bounds, value: Option<(int, int)>): (s: State)
    ensures s.active.None?
    ensures value.None? ==> s.low == b.minYear && s.high == b.maxYear
    ensures value.Some? ==> (s.low, s.high) == value.value
  {
    match value
    case Some(v) => State(None, v.0, v.1)
    case None => State(None, b.minYear, b.maxYear)
  }

  /** The effect on `[value]`: a new `value` prop replaces the range; an
      absent one leaves it. */
  function Sync(s: State, value: Option<(int, int)>): (s': State)
    ensures s'.active == s.active
    ensures value.None? ==> s' == s
    ensures value.Some? ==> (s'.low, s'.high) == value.value
  {
    match value
    case Some(v) => s.(low := v.0, high := v.1)
    case None => s
  }

  /** `getPercent(year)`: the thumb's position in percent of the track;
      undefined (None) when the bounds coincide, where the source divides by
      zero. */
  function GetPercent(b: Bounds, year: int): (p: Option<real>)
    ensures p.Some? <==> b.minYear != b.maxYear
  {
    if b.minYear == b.maxYear then None
    else Some(((year - b.minYear) as real / (b.maxYear - b.minYear) as real) * 100.0)
  }

  /** The bounds sit at the ends of the track, and a later year sits further
      right. */
  lemma GetPercentEnds(b: Bounds, y1: int, y2: int)
    requires b.minYear < b.maxYear && y1 <= y2
    ensures GetPercent(b, b.minYear) == Some(0.0)
    ensures GetPercent(b, b.maxYear) == Some(100.0)
    ensures GetPercent(b, y1).value <= GetPercent(b, y2).value
  {
    var d := (b.maxYear - b.minYear) as real;
    assert d / d == 1.0;
    assert (y1 - b.minYear) as real / d <= (y2 - b.minYear) as real / d;
  }

  function Clamp(lo: real, hi: real, x: real): real {
    if x < lo then lo else if x > hi then hi else x
  }

  /** `Math.max(0, Math.min(100, (clientX - left) / width * 100))`; None for
      the NaN a zero-width track gives at its own left edge (a zero width
      elsewhere gives an infinity, which the clamp turns into 0 or 100). */
  function MousePercent(clientX: real, rect: Rect): (p: Option<real>)
    ensures p.Some? ==> 0.0 <= p.value <= 100.0
    ensures p.None? <==> rect.width == 0.0 && clientX == rect.left
  {
    if rect.width == 0.0 then
      if clientX > rect.left then Some(100.0)
      else if clientX < rect.left then Some(0.0)
      else None
    else Some(Clamp(0.0, 100.0, ((clientX - rect.left) / rect.width) * 100.0))
  }

  /** `Math.round`: halves round up. */
  function Round(x: real): int {
    (x + 0.5).Floor
  }

  function ClampInt(lo: int, hi: int, x: int): int {
    if x > hi then (if hi < lo then lo else hi) else if x < lo then lo else x
  }

  /** `clampedYear` for a mouse position; None when it is NaN. */
  function ProjectedYear(b: Bounds, clientX: real, rect: Rect): (y: Option<int>)
    ensures y.Some? <==> MousePercent(clientX, rect).Some?
    ensures y.Some? && b.minYear <= b.maxYear ==> b.minYear <= y.value <= b.maxYear
  {
    match MousePercent(clientX, rect)
    case None => None
    case Some(percent) =>
      var year := Round(b.minYear as real + (percent / 100.0) * (b.maxYear - b.minYear) as real);
      Some(ClampInt(b.minYear, b.maxYear, year))
  }

  /** On a well-formed slider the rounding alone already lands inside the
      bounds: the clamp never changes the year. */
  lemma ClampIsRedundant(b: Bounds, percent: real)
    requires b.minYear <= b.maxYear && 0.0 <= percent <= 100.0
    ensures var year := Round(b.minYear as real + (percent / 100.0) * (b.maxYear - b.minYear) as real);
            b.minYear <= year <= b.maxYear
  {
    var span := (b.maxYear - b.minYear) as real;
    var x := b.minYear as real + (percent / 100.0) * span;
    assert 0.0 <= (percent / 100.0) * span <= span;
    assert b.minYear as real <= x <= b.maxYear as real;
  }

  /** `handleMouseMove`: the new state and the range reported to `onChange`
      (None when nothing is reported). `rect` is None when the track is not
      mounted. */
  function Move(b: Bounds, s: State, clientX: real, rect: Option<Rect>): (res: (State, Option<(int, int)>))
    ensures res.1.None? ==> res.0 == s
    ensures res.1.Some? ==> res.1.value == (res.0.low, res.0.high) && res.0.active == s.active
    ensures s.active.None? || rect.None? ==> res.1.None?
    ensures s.active == Some(MinThumb) ==> res.0.high == s.high
    ensures s.active == Some(MaxThumb) ==> res.0.low == s.low
    ensures res.1.Some? && b.minYear <= b.maxYear ==>
              (s.active == Some(MinThumb) ==> b.minYear <= res.0.low <= s.high)
              && (s.active == Some(MaxThumb) ==> s.low <= res.0.high <= b.maxYear)
  {
    if s.active.None? || rect.None? then (s, None)
    else match ProjectedYear(b, clientX, rect.value)
      case None => (s, None)
      case Some(year) =>
        if s.active == Some(MinThumb) then
          if year <= s.high then (s.(low := year), Some((year, s.high))) else (s, None)
        else
          if year >= s.low then (s.(high := year), Some((s.low, year))) else (s, None)
  }

  /** A move that would cross the thumbs is rejected. */
  lemma CrossingMoveRejected(b: Bounds, s: State, clientX: real, rect: Rect)
    requires s.active.Some? && ProjectedYear(b, clientX, rect).Some?
    requires var y := ProjectedYear(b, clientX, rect).value;
             if s.active == Some(MinThumb) then y > s.high else y < s.low
    ensures Move(b, s, clientX, Some(rect)) == (s, None)
  {
  }

  /** `handleMouseDown(thumb)` and `handleMouseUp`. */
  datatype Event = Down(thumb: Thumb) | Mouse(clientX: real, rect: Option<Rect>) | Up

  function Step(b: Bounds, s: State, e: Event): (s': State)
    ensures e.Up? ==> s'.active.None? && s'.low == s.low && s'.high == s.high
    ensures e.Down? ==> s'.active == Some(e.thumb) && s'.low == s.low && s'.high == s.high
  {
    match e
    case Down(t) => s.(active := Some(t))
    case Up => s.(active := None)
    case Mouse(x, rect) => Move(b, s, x, rect).0
  }

  function Run(b: Bounds, s: State, es: seq<Event>): State
    decreases |es|
  {
    if |es| == 0 then s else Run(b, Step(b, s, es[0]), es[1..])
  }

  predicate Ordered(s: State) {
    s.low <= s.high
  }

  /** Dragging never crosses the thumbs: from an ordered range, every
      sequence of presses, moves and releases keeps `low <= high`. */
  lemma {:induction false} RunKeepsOrder(b: Bounds, s: State, es: seq<Event>)
    requires Ordered(s)
    ensures Ordered(Run(b, s, es))
    decreases |es|
  {
    if |es| > 0 {
      RunKeepsOrder(b, Step(b, s, es[0]), es[1..]);
    }
  }

  /** With both thumbs inside the bounds, they stay inside them. */
  lemma {:induction false} RunStaysInBounds(b: Bounds, s: State, es: seq<Event>)
    requires b.minYear <= s.low <= s.high <= b.maxYear
    ensures var t := Run(b, s, es);
            b.minYear <= t.low <= t.high <= b.maxYear
    decreases |es|
  {
    if |es| > 0 {
      RunStaysInBounds(b, Step(b, s, es[0]), es[1..]);
    }
  }
}

=== FILE: transform.dfy ===
/** The ETL transforms that shape the raw tables before the query service
    serves them: department codes from postal codes, pharmacy counts per
    department, joins with the department geography, percentage scaling of
    the emergency rates and the mean influenza coverage. */
module Transform {
  import opened Wrappers
  import Text
  import Sorting
  import Grouping

  // ---------------------------------------------------------------------------
  // Department code of a postal code.
  // ---------------------------------------------------------------------------

  function Zeros(n: nat): (z: string)
    ensures |z| == n && forall i :: 0 <= i < n ==> z[i] == '0'
  {
    seq(n, _ => '0')
  }

  /** Python `str.zfill(width)`: zeros on the left up to `width` characters,
      after a leading sign if there is one. */
  function ZFill(s: string, width: nat): (z: string)
    ensures |z| == if |s| >= width then |s| else width
    ensures |s| >= width ==> z == s
    ensures |s| < width && (|s| == 0 || (s[0] != '+' && s[0] != '-')) ==> z == Zeros(width - |s|) + s
  {
    if |s| >= width then s
    else if |s| > 0 && (s[0] == '+' || s[0] == '-') then [s[0]] + Zeros(width - |s|) + s[1..]
    else Zeros(width - |s|) + s
  }

  /** `str(code).zfill(5)[:2]`. */
  function DeptCode(postal: string): (d: string)
    ensures |d| == 2
    ensures |postal| >= 5 ==> d == postal[..2]
  {
    ZFill(postal, 5)[..2]
  }

  /** `n` written with exactly `k` digits, zero-padded (the low `k` digits). */
  function FixedDigits(n: nat, k: nat): (s: string)
    ensures |s| == k && Text.AllDigits(s)
    decreases k
  {
    if k == 0 then [] else FixedDigits(n / 10, k - 1) + [Text.DigitChar(n % 10)]
  }

  lemma {:induction false} DecimalLength(n: nat, k: nat)
    requires n < Text.Pow10(k)
    ensures |Text.NatToDecimal(n)| <= if k == 0 then 1 else k
    decreases k
  {
    if n >= 10 {
      assert k >= 2;
      DecimalLength(n / 10, k - 1);
    }
  }

  /** Zero-padding a decimal to `k` characters gives its `k` low digits. */
  lemma {:induction false} PaddedDecimal(n: nat, k: nat)
    requires 0 < k && n < Text.Pow10(k)
    ensures ZFill(Text.NatToDecimal(n), k) == FixedDigits(n, k)
    decreases k
  {
    var d := Text.NatToDecimal(n);
    DecimalLength(n, k);
    if n < 10 {
      assert FixedDigits(n, k) == FixedDigits(0, k - 1) + [Text.DigitChar(n)];
      ZeroDigits(k - 1);
    } else {
      var p := Text.NatToDecimal(n / 10);
      var c := [Text.DigitChar(n % 10)];
      assert d == p + c;
      PaddedDecimal(n / 10, k - 1);
      DecimalLength(n / 10, k - 1);
      assert Text.IsDigit(p[0]);
      ZFillSnoc(p, c, k - 1);
    }
  }

  /** Padding one more character to one more width pads the same zeros. */
  lemma ZFillSnoc(p: string, c: string, w: nat)
    requires 0 < |p| <= w && p[0] != '+' && p[0] != '-'
    ensures ZFill(p + c, w + |c|) == ZFill(p, w) + c
  {
    assert (p + c)[0] == p[0];
    if |p| < w {
      assert ZFill(p + c, w + |c|) == Zeros(w - |p|) + (p + c);
    }
  }

  lemma {:induction false} ZeroDigits(k: nat)
    ensures FixedDigits(0, k) == Zeros(k)
    decreases k
  {
    if k > 0 {
      ZeroDigits(k - 1);
    }
  }

  lemma {:induction false} FixedDigitsPrefix(n: nat, k: nat, j: nat)
    requires j <= k
    ensures FixedDigits(n, k)[..j] == FixedDigits(Shift(n, k - j), j)
    decreases k
  {
    if j < k {
      FixedDigitsPrefix(n / 10, k - 1, j);
    }
  }

  /** `n` with its `k` low decimal digits dropped. */
  function Shift(n: nat, k: nat): nat
    decreases k
  {
    if k == 0 then n else Shift(n / 10, k - 1)
  }

  lemma ShiftThousand(n: nat)
    ensures Shift(n, 3) == n / 1000
  {
    var a := n / 10;
    var b := a / 10;
    var c := b / 10;
    assert Shift(n, 3) == c;
    assert n == 1000 * c + (100 * (b % 10) + 10 * (a % 10) + n % 10);
  }

  /** The department of a numeric postal code read as text (pandas reads the
      column as integers, so "01000" arrives as 1000): the thousands of the
      code, written with two digits. Codes 20000-20999 (Corsica) give "20"
      and overseas codes 97xxx give "97". */
  lemma DeptCodeOfNumber(n: nat)
    requires n < 100000
    ensures DeptCode(Text.NatToDecimal(n)) == FixedDigits(n / 1000, 2)
  {
    assert Text.Pow10(5) == 100000;
    assert Text.Pow10(3) == 1000;
    PaddedDecimal(n, 5);
    FixedDigitsPrefix(n, 5, 2);
    ShiftThousand(n);
  }

  // ---------------------------------------------------------------------------
  // Pharmacies per department (`clean_pharmacies`, `merge_pharmacies_geo`).
  // ---------------------------------------------------------------------------

  /** One row of `value_counts()`: a department code and its number of
      pharmacies. */
  datatype PharmacyCount = PharmacyCount(code: string, pharmacyCount: nat)

  function KeepAll(): string -> bool {
    _ => true
  }

  function One(postal: string): real {
    1.0
  }

  /** Number of postal codes in department `code`. */
  function PharmaciesIn(postals: seq<string>, code: string): nat {
    Grouping.KeptCount(postals, KeepAll(), DeptCode, code)
  }

  function CountDesc(c: PharmacyCount): real {
    -(c.pharmacyCount as real)
  }

  predicate DistinctCodes(cs: seq<PharmacyCount>) {
    forall i, j :: 0 <= i < j < |cs| ==> cs[i].code != cs[j].code
  }

  predicate HasCode(cs: seq<PharmacyCount>, code: string) {
    exists i :: 0 <= i < |cs| && cs[i].code == code
  }

  /** Some postal code falls in department `code`. */
  predicate InDept(postals: seq<string>, code: string) {
    Grouping.AnyKept(postals, KeepAll(), DeptCode, code)
  }

  /** The rows of the counts table, one per key. */
  function CountRows(es: seq<Grouping.Entry<string>>, ks: seq<string>): (cs: seq<PharmacyCount>)
    ensures |cs| == |ks|
    ensures forall i :: 0 <= i < |ks| ==> cs[i] == PharmacyCount(ks[i], Grouping.Count(es, ks[i]))
    decreases |ks|
  {
    if |ks| == 0 then [] else [PharmacyCount(ks[0], Grouping.Count(es, ks[0]))] + CountRows(es, ks[1..])
  }

  /** The counts before sorting, departments in order of first appearance. */
  function CountTable(postals: seq<string>): (cs: seq<PharmacyCount>)
    ensures DistinctCodes(cs)
    ensures forall i :: 0 <= i < |cs| ==> cs[i].pharmacyCount == PharmaciesIn(postals, cs[i].code)
    ensures forall code :: HasCode(cs, code) <==> InDept(postals, code)
  {
    var es := Grouping.Select(postals, KeepAll(), DeptCode, One);
    var ks := Grouping.Keys(es);
    var cs := CountRows(es, ks);
    forall i | 0 <= i < |cs|
      ensures cs[i].pharmacyCount == PharmaciesIn(postals, cs[i].code)
    {
      Grouping.SelectCountTotal(postals, KeepAll(), DeptCode, One, ks[i]);
    }
    forall code
      ensures HasCode(cs, code) <==> InDept(postals, code)
    {
      Grouping.SelectHasKey(postals, KeepAll(), DeptCode, One, code);
      if code in ks {
        var a :| 0 <= a < |ks| && ks[a] == code;
        assert cs[a].code == code;
      }
    }
    cs
  }

  /** A table whose row is determined by its code keeps distinct codes
      under any reordering. */
  lemma SortedCountsDistinct(rows: seq<PharmacyCount>, postals: seq<string>)
    requires rows == CountTable(postals)
    ensures DistinctCodes(Sorting.SortBy(rows, CountDesc))
  {
    var cs := Sorting.SortBy(rows, CountDesc);
    assert Sorting.Distinct(rows) by {
      forall i, j | 0 <= i < j < |rows| ensures rows[i] != rows[j] {
        assert rows[i].code != rows[j].code;
      }
    }
    Sorting.SortByPermutes(rows, CountDesc);
    forall i, j | 0 <= i < j < |cs|
      ensures cs[i].code != cs[j].code
    {
      assert cs[i] in cs && cs[j] in cs;
      var a :| 0 <= a < |rows| && rows[a] == cs[i];
      var b :| 0 <= b < |rows| && rows[b] == cs[j];
      assert cs[i] != cs[j];
    }
  }

  lemma SortedCountsContent(rows: seq<PharmacyCount>, postals: seq<string>)
    requires rows == CountTable(postals)
    ensures forall i :: 0 <= i < |Sorting.SortBy(rows, CountDesc)| ==>
              Sorting.SortBy(rows, CountDesc)[i].pharmacyCount
              == PharmaciesIn(postals, Sorting.SortBy(rows, CountDesc)[i].code)
    ensures forall code :: HasCode(Sorting.SortBy(rows, CountDesc), code) <==> InDept(postals, code)
  {
    var cs := Sorting.SortBy(rows, CountDesc);
    Sorting.SortByPermutes(rows, CountDesc);
    forall i | 0 <= i < |cs|
      ensures cs[i].pharmacyCount == PharmaciesIn(postals, cs[i].code)
    {
      assert cs[i] in cs;
    }
    forall code
      ensures HasCode(cs, code) <==> HasCode(rows, code)
    {
      if HasCode(cs, code) {
        var i :| 0 <= i < |cs| && cs[i].code == code;
        assert cs[i] in cs;
      }
      if HasCode(rows, code) {
        var i :| 0 <= i < |rows| && rows[i].code == code;
        assert rows[i] in rows;
        var j :| 0 <= j < |cs| && cs[j] == rows[i];
      }
    }
  }

  /** `clean_pharmacies`: one row per department code, largest count first. */
  function CleanPharmacies(postals: seq<string>): (cs: seq<PharmacyCount>)
    ensures DistinctCodes(cs)
    ensures forall i :: 0 <= i < |cs| ==> cs[i].pharmacyCount == PharmaciesIn(postals, cs[i].code)
    ensures forall code :: HasCode(cs, code) <==> InDept(postals, code)
    ensures forall i, j :: 0 <= i < j < |cs| ==> cs[i].pharmacyCount >= cs[j].pharmacyCount
  {
    var rows := CountTable(postals);
    var cs := Sorting.SortBy(rows, CountDesc);
    SortedCountsDistinct(rows, postals);
    SortedCountsContent(rows, postals);
    Sorting.SortByIsSorted(rows, CountDesc);
    assert forall i, j :: 0 <= i < j < |cs| ==> CountDesc(cs[i]) <= CountDesc(cs[j]);
    cs
  }

  function SumPharmacies(cs: seq<PharmacyCount>): nat
    decreases |cs|
  {
    if |cs| == 0 then 0 else cs[0].pharmacyCount + SumPharmacies(cs[1..])
  }

  function Codes(cs: seq<PharmacyCount>): (ks: seq<string>)
    ensures |ks| == |cs| && forall i :: 0 <= i < |cs| ==> ks[i] == cs[i].code
    decreases |cs|
  {
    if |cs| == 0 then [] else [cs[0].code] + Codes(cs[1..])
  }

  lemma {:induction false} SumPharmaciesIsSumCounts(es: seq<Grouping.Entry<string>>, cs: seq<PharmacyCount>)
    requires forall i :: 0 <= i < |cs| ==> cs[i].pharmacyCount == Grouping.Count(es, cs[i].code)
    ensures SumPharmacies(cs) == Grouping.SumCounts(es, Codes(cs))
    decreases |cs|
  {
    if |cs| > 0 {
      SumPharmaciesIsSumCounts(es, cs[1..]);
      assert Codes(cs)[1..] == Codes(cs[1..]);
    }
  }

  /** The codes of the counts table cover every selected entry. */
  lemma CodesCoverEntries(postals: seq<string>)
    ensures forall i :: 0 <= i < |Grouping.Select(postals, KeepAll(), DeptCode, One)| ==>
              Grouping.Select(postals, KeepAll(), DeptCode, One)[i].key in Codes(CleanPharmacies(postals))
  {
    var es := Grouping.Select(postals, KeepAll(), DeptCode, One);
    var cs := CleanPharmacies(postals);
    forall i | 0 <= i < |es|
      ensures es[i].key in Codes(cs)
    {
      var k := es[i].key;
      assert Grouping.HasKey(es, k);
      Grouping.SelectHasKey(postals, KeepAll(), DeptCode, One, k);
      assert InDept(postals, k);
      var j :| 0 <= j < |cs| && cs[j].code == k;
      assert Codes(cs)[j] == k;
    }
  }

  /** Every pharmacy is counted once: the counts add up to the number of
      input rows. */
  lemma CountsAddUp(postals: seq<string>)
    ensures SumPharmacies(CleanPharmacies(postals)) == |postals|
  {
    var cs := CleanPharmacies(postals);
    var es := Grouping.Select(postals, KeepAll(), DeptCode, One);
    forall i | 0 <= i < |cs|
      ensures cs[i].pharmacyCount == Grouping.Count(es, cs[i].code)
    {
      Grouping.SelectCountTotal(postals, KeepAll(), DeptCode, One, cs[i].code);
    }
    SumPharmaciesIsSumCounts(es, cs);
    CodesCoverEntries(postals);
    assert Sorting.Distinct(Codes(cs));
    Grouping.SumCountsCover(es, Codes(cs));
    Grouping.SelectAll(postals, KeepAll(), DeptCode, One);
  }

  /** One department of the geography (`code`, `nom`). */
  datatype GeoRow = GeoRow(code: string, nom: string)

  /** A geography row with its pharmacy count. */
  datatype GeoPharmacies = GeoPharmacies(geo: GeoRow, pharmacyCount: nat)

  /** The count of `code` in a table with distinct codes, 0 when absent
      (`fillna(0)`). */
  function CountFor(cs: seq<PharmacyCount>, code: string): (n: nat)
    ensures (forall i :: 0 <= i < |cs| ==> cs[i].code != code) ==> n == 0
    ensures forall i :: (0 <= i < |cs| && cs[i].code == code
                         && (forall j :: 0 <= j < i ==> cs[j].code != code)) ==> n == cs[i].pharmacyCount
    decreases |cs|
  {
    if |cs| == 0 then 0
    else if cs[0].code == code then cs[0].pharmacyCount
    else
      var n := CountFor(cs[1..], code);
      assert forall i :: 1 <= i < |cs| ==> cs[i] == cs[1..][i - 1];
      n
  }

  /** The counts of the rows of `cs` carrying `code`, in table order. */
  function CountsOf(cs: seq<PharmacyCount>, code: string): (ns: seq<nat>)
    ensures |ns| <= |cs|
    decreases |cs|
  {
    if |cs| == 0 then []
    else (if cs[0].code == code then [cs[0].pharmacyCount] else []) + CountsOf(cs[1..], code)
  }

  /** In a table with distinct codes a code matches at most once, and then
      with the count `CountFor` finds. */
  lemma {:induction false} CountsOfDistinct(cs: seq<PharmacyCount>, code: string)
    requires DistinctCodes(cs)
    ensures CountsOf(cs, code) == if HasCode(cs, code) then [CountFor(cs, code)] else []
    decreases |cs|
  {
    if |cs| > 0 {
      var t := cs[1..];
      assert forall i :: 0 <= i < |t| ==> t[i] == cs[i + 1];
      CountsOfDistinct(t, code);
      if cs[0].code == code {
        assert !HasCode(t, code);
      } else if HasCode(cs, code) {
        var i :| 0 <= i < |cs| && cs[i].code == code;
        assert t[i - 1].code == code;
      }
    }
  }

  /** The left-join rows of one geography row: one per matching count row,
      or a single row with the count filled to 0 when nothing matches. */
  function JoinRows(g: GeoRow, cs: seq<PharmacyCount>): (rows: seq<GeoPharmacies>)
    ensures |rows| > 0
    ensures forall k :: 0 <= k < |rows| ==> rows[k].geo == g
    ensures |CountsOf(cs, g.code)| == 0 ==> rows == [GeoPharmacies(g, 0)]
    ensures |CountsOf(cs, g.code)| > 0 ==>
              |rows| == |CountsOf(cs, g.code)|
              && forall k :: 0 <= k < |rows| ==> rows[k].pharmacyCount == CountsOf(cs, g.code)[k]
  {
    var ns := CountsOf(cs, g.code);
    if |ns| == 0 then [GeoPharmacies(g, 0)]
    else seq(|ns|, k requires 0 <= k < |ns| => GeoPharmacies(g, ns[k]))
  }

  /** `merge_pharmacies_geo`: pandas' left join on the code, each geography
      row in order followed by its matches, then `fillna(0)`. */
  function MergePharmaciesGeo(geo: seq<GeoRow>, cs: seq<PharmacyCount>): (m: seq<GeoPharmacies>)
    ensures |m| >= |geo|
    decreases |geo|
  {
    if |geo| == 0 then [] else JoinRows(geo[0], cs) + MergePharmaciesGeo(geo[1..], cs)
  }

  /** Every geography row is kept, no row is invented, and every count is
      that of a matching row of the table, or 0 when no row matches. */
  lemma {:induction false} MergeRows(geo: seq<GeoRow>, cs: seq<PharmacyCount>)
    ensures forall g :: g in geo ==> exists r :: r in MergePharmaciesGeo(geo, cs) && r.geo == g
    ensures forall r :: r in MergePharmaciesGeo(geo, cs) ==> r.geo in geo
    ensures forall r :: r in MergePharmaciesGeo(geo, cs) ==>
              r.pharmacyCount in CountsOf(cs, r.geo.code)
              || (|CountsOf(cs, r.geo.code)| == 0 && r.pharmacyCount == 0)
    decreases |geo|
  {
    if |geo| > 0 {
      MergeRows(geo[1..], cs);
      var head := JoinRows(geo[0], cs);
      var rest := MergePharmaciesGeo(geo[1..], cs);
      var m := MergePharmaciesGeo(geo, cs);
      assert m == head + rest;
      assert head[0] in m;
      forall g | g in geo
        ensures exists r :: r in m && r.geo == g
      {
        if g != geo[0] {
          assert g in geo[1..];
          var r :| r in rest && r.geo == g;
          assert r in m;
        }
      }
      forall r | r in m
        ensures r.geo in geo
        ensures r.pharmacyCount in CountsOf(cs, r.geo.code)
                || (|CountsOf(cs, r.geo.code)| == 0 && r.pharmacyCount == 0)
      {
        if r in rest {
          assert r.geo in geo[1..];
        } else {
          var k :| 0 <= k < |head| && head[k] == r;
        }
      }
    }
  }

  lemma JoinRowsDistinct(g: GeoRow, cs: seq<PharmacyCount>)
    requires DistinctCodes(cs)
    ensures JoinRows(g, cs) == [GeoPharmacies(g, CountFor(cs, g.code))]
  {
    CountsOfDistinct(cs, g.code);
    if !HasCode(cs, g.code) {
      assert forall i :: 0 <= i < |cs| ==> cs[i].code != g.code;
    }
  }

  /** With distinct codes in the counts table (which `clean_pharmacies`
      guarantees) the join is one-to-one: one row per geography row, in its
      order, carrying the department's count or 0. */
  lemma {:induction false} MergeOneToOne(geo: seq<GeoRow>, cs: seq<PharmacyCount>)
    requires DistinctCodes(cs)
    ensures |MergePharmaciesGeo(geo, cs)| == |geo|
    ensures forall i :: 0 <= i < |geo| ==>
              MergePharmaciesGeo(geo, cs)[i] == GeoPharmacies(geo[i], CountFor(cs, geo[i].code))
    decreases |geo|
  {
    if |geo| > 0 {
      MergeOneToOne(geo[1..], cs);
      JoinRowsDistinct(geo[0], cs);
      var m := MergePharmaciesGeo(geo, cs);
      var t := geo[1..];
      var rest := MergePharmaciesGeo(t, cs);
      assert m == [GeoPharmacies(geo[0], CountFor(cs, geo[0].code))] + rest;
      forall i | 1 <= i < |geo|
        ensures m[i] == GeoPharmacies(geo[i], CountFor(cs, geo[i].code))
      {
        assert t[i - 1] == geo[i];
        assert m[i] == rest[i - 1];
      }
    }
  }

  /** End to end: each department of the geography carries the number of
      postal codes that fall in it, 0 for a department without pharmacies. */
  lemma PharmaciesPerDepartment(geo: seq<GeoRow>, postals: seq<string>, i: nat)
    requires i < |geo|
    ensures |MergePharmaciesGeo(geo, CleanPharmacies(postals))| == |geo|
    ensures MergePharmaciesGeo(geo, CleanPharmacies(postals))[i].geo == geo[i]
    ensures MergePharmaciesGeo(geo, CleanPharmacies(postals))[i].pharmacyCount
         == PharmaciesIn(postals, geo[i].code)
  {
    var cs := CleanPharmacies(postals);
    var code := geo[i].code;
    MergeOneToOne(geo, cs);
    if exists k :: 0 <= k < |cs| && cs[k].code == code {
      var k :| 0 <= k < |cs| && cs[k].code == code;
      assert forall j :: 0 <= j < k ==> cs[j].code != code;
    } else {
      assert !HasCode(cs, code);
      assert !InDept(postals, code);
      var es := Grouping.Select(postals, KeepAll(), DeptCode, One);
      Grouping.SelectHasKey(postals, KeepAll(), DeptCode, One, code);
      Grouping.SelectCountTotal(postals, KeepAll(), DeptCode, One, code);
      Grouping.CountPositive(es, code);
    }
  }

  // ---------------------------------------------------------------------------
  // Emergency rates (`clean_urgences`) and coverage (`clean_couverture`).
  // ---------------------------------------------------------------------------

  /** A raw emergency row: rates in the source's unit (`None` for NaN). */
  datatype RawUrgence = RawUrgence(deptCode: string, nom: string, date: string, classeAge: string,
                                   passages: Option<real>, hospitalisations: Option<real>,
                                   sosMedecins: Option<real>)

  /** A cleaned emergency row: only the three "(%)" rates remain. */
  datatype Urgence = Urgence(deptCode: string, nom: string, date: string, classeAge: string,
                             passagesPct: Option<real>, hospitalisationsPct: Option<real>,
                             sosMedecinsPct: Option<real>)

  /** A column divided by 100; NaN stays NaN. */
  function Hundredth(x: Option<real>): (y: Option<real>)
    ensures y.Some? <==> x.Some?
    ensures y.Some? ==> y.value * 100.0 == x.value
  {
    match x
    case Some(v) => Some(v / 100.0)
    case None => None
  }

  /** `clean_urgences`: each rate divided by 100 into its "(%)" column, the
      raw columns dropped, the other columns kept. */
  function CleanUrgences(rows: seq<RawUrgence>): (us: seq<Urgence>)
    ensures |us| == |rows|
    ensures forall i :: 0 <= i < |rows| ==>
              us[i].deptCode == rows[i].deptCode && us[i].nom == rows[i].nom
              && us[i].date == rows[i].date && us[i].classeAge == rows[i].classeAge
    ensures forall i :: 0 <= i < |rows| ==>
              (us[i].passagesPct.Some? <==> rows[i].passages.Some?)
              && (us[i].hospitalisationsPct.Some? <==> rows[i].hospitalisations.Some?)
              && (us[i].sosMedecinsPct.Some? <==> rows[i].sosMedecins.Some?)
    ensures forall i :: 0 <= i < |rows| && rows[i].passages.Some? ==>
              us[i].passagesPct.value * 100.0 == rows[i].passages.value
    ensures forall i :: 0 <= i < |rows| && rows[i].hospitalisations.Some? ==>
              us[i].hospitalisationsPct.value * 100.0 == rows[i].hospitalisations.value
    ensures forall i :: 0 <= i < |rows| && rows[i].sosMedecins.Some? ==>
              us[i].sosMedecinsPct.value * 100.0 == rows[i].sosMedecins.value
  {
    seq(|rows|, i requires 0 <= i < |rows| =>
      Urgence(rows[i].deptCode, rows[i].nom, rows[i].date, rows[i].classeAge,
              Hundredth(rows[i].passages), Hundredth(rows[i].hospitalisations),
              Hundredth(rows[i].sosMedecins)))
  }

  /** A coverage row with the two influenza columns (`None` for NaN). */
  datatype RawCouverture = RawCouverture(departement: string, annee: int,
                                         grippeMoins65Risque: Option<real>, grippe65Plus: Option<real>)

  datatype Couverture = Couverture(departement: string, annee: int,
                                   grippeMoins65Risque: Option<real>, grippe65Plus: Option<real>,
                                   grippeTotale: Option<real>)

  /** `mean(axis=1)` of two columns: NaN is skipped, and the mean of nothing
      is NaN. */
  function RowMean(a: Option<real>, b: Option<real>): (m: Option<real>)
    ensures m.Some? <==> a.Some? || b.Some?
    ensures a.Some? && b.Some? ==> m.value * 2.0 == a.value + b.value
    ensures a.Some? && b.None? ==> m == a
    ensures a.None? && b.Some? ==> m == b
  {
    match (a, b)
    case (Some(x), Some(y)) => Some((x + y) / 2.0)
    case (Some(x), None) => Some(x)
    case (None, Some(y)) => Some(y)
    case (None, None) => None
  }

  /** The mean lies between the two rates and does not depend on their order. */
  lemma RowMeanBetween(a: Option<real>, b: Option<real>)
    ensures RowMean(a, b) == RowMean(b, a)
    ensures a.Some? && b.Some? && a.value <= b.value ==>
              a.value <= RowMean(a, b).value <= b.value
  {
  }

  /** `clean_couverture`: adds "Grippe totale", the row mean of the two
      influenza columns. */
  function CleanCouverture(rows: seq<RawCouverture>): (cs: seq<Couverture>)
    ensures |cs| == |rows|
    ensures forall i :: 0 <= i < |rows| ==>
              cs[i] == Couverture(rows[i].departement, rows[i].annee, rows[i].grippeMoins65Risque,
                                  rows[i].grippe65Plus,
                                  RowMean(rows[i].grippeMoins65Risque, rows[i].grippe65Plus))
  {
    seq(|rows|, i requires 0 <= i < |rows| =>
      Couverture(rows[i].departement, rows[i].annee, rows[i].grippeMoins65Risque, rows[i].grippe65Plus,
                 RowMean(rows[i].grippeMoins65Risque, rows[i].grippe65Plus)))
  }

  // ---------------------------------------------------------------------------
  // Right joins with the geography (`merge_urgences_geo`,
  // `merge_couverture_geo`).
  // ---------------------------------------------------------------------------

  /** A joined row: the matching geography row, if any, and the right row. */
  datatype Joined<R> = Joined(left: Option<GeoRow>, right: R)

  /** The left rows whose key is `k`, in order. */
  function Matches(left: seq<GeoRow>, lkey: GeoRow -> string, k: string): (ms: seq<GeoRow>)
    ensures |ms| <= |left|
    ensures forall x :: x in ms <==> x in left && lkey(x) == k
    decreases |left|
  {
    if |left| == 0 then []
    else (if lkey(left[0]) == k then [left[0]] else []) + Matches(left[1..], lkey, k)
  }

  /** The rows one right row contributes: one per match, or one unmatched. */
  function JoinOne<R>(left: seq<GeoRow>, lkey: GeoRow -> string, r: R, k: string): (js: seq<Joined<R>>)
    ensures |js| >= 1
    ensures forall j :: 0 <= j < |js| ==> js[j].right == r
    ensures forall j :: 0 <= j < |js| ==> Agrees(left, lkey, js[j], k)
  {
    var ms := Matches(left, lkey, k);
    if |ms| == 0 then [Joined(None, r)]
    else seq(|ms|, i requires 0 <= i < |ms| => Joined(Some(ms[i]), r))
  }

  /** A joined row is consistent with the key `k` of its right row: its left
      row, if any, is a left row with that key, and it has none only when no
      left row has that key. */
  predicate Agrees<R>(left: seq<GeoRow>, lkey: GeoRow -> string, j: Joined<R>, k: string) {
    match j.left
    case Some(g) => g in left && lkey(g) == k
    case None => forall x :: x in left ==> lkey(x) != k
  }

  /** `left.merge(right, how='right')`: every right row, in order, paired
      with each matching left row or with none. */
  function RightJoin<R>(left: seq<GeoRow>, right: seq<R>, lkey: GeoRow -> string, rkey: R -> string): (js: seq<Joined<R>>)
    ensures |js| >= |right|
    ensures forall j :: 0 <= j < |js| ==> js[j].right in right
    ensures forall j :: 0 <= j < |js| ==> Agrees(left, lkey, js[j], rkey(js[j].right))
    decreases |right|
  {
    if |right| == 0 then []
    else JoinOne(left, lkey, right[0], rkey(right[0])) + RightJoin(left, right[1..], lkey, rkey)
  }

  predicate KeysDistinct(left: seq<GeoRow>, lkey: GeoRow -> string) {
    forall i, j :: 0 <= i < j < |left| ==> lkey(left[i]) != lkey(left[j])
  }

  lemma {:induction false} MatchesNone(left: seq<GeoRow>, lkey: GeoRow -> string, k: string)
    requires forall i :: 0 <= i < |left| ==> lkey(left[i]) != k
    ensures Matches(left, lkey, k) == []
    decreases |left|
  {
    if |left| > 0 {
      MatchesNone(left[1..], lkey, k);
    }
  }

  lemma {:induction false} MatchesUnique(left: seq<GeoRow>, lkey: GeoRow -> string, k: string)
    requires KeysDistinct(left, lkey)
    ensures |Matches(left, lkey, k)| <= 1
    decreases |left|
  {
    if |left| > 0 {
      if lkey(left[0]) == k {
        forall i | 0 <= i < |left[1..]|
          ensures lkey(left[1..][i]) != k
        {
          assert left[1..][i] == left[i + 1];
        }
        MatchesNone(left[1..], lkey, k);
      } else {
        MatchesUnique(left[1..], lkey, k);
      }
    }
  }

  /** The first geography row with key `k`, if any. */
  function FindKey(left: seq<GeoRow>, lkey: GeoRow -> string, k: string): (m: Option<GeoRow>)
    ensures m.Some? <==> exists x :: x in left && lkey(x) == k
    ensures m.Some? ==> m.value in left && lkey(m.value) == k
  {
    var ms := Matches(left, lkey, k);
    if |ms| == 0 then None
    else
      assert ms[0] in ms;
      Some(ms[0])
  }

  lemma JoinOneUnique<R>(left: seq<GeoRow>, lkey: GeoRow -> string, r: R, k: string)
    requires KeysDistinct(left, lkey)
    ensures JoinOne(left, lkey, r, k) == [Joined(FindKey(left, lkey, k), r)]
  {
    MatchesUnique(left, lkey, k);
  }

  /** Each right row beside its match. */
  function Paired<R>(left: seq<GeoRow>, right: seq<R>, lkey: GeoRow -> string, rkey: R -> string): (js: seq<Joined<R>>)
    ensures |js| == |right|
  {
    seq(|right|, i requires 0 <= i < |right| => Joined(FindKey(left, lkey, rkey(right[i])), right[i]))
  }

  lemma {:induction false} RightJoinPaired<R>(left: seq<GeoRow>, right: seq<R>, lkey: GeoRow -> string, rkey: R -> string)
    requires KeysDistinct(left, lkey)
    ensures RightJoin(left, right, lkey, rkey) == Paired(left, right, lkey, rkey)
    decreases |right|
  {
    if |right| > 0 {
      RightJoinPaired(left, right[1..], lkey, rkey);
      JoinOneUnique(left, lkey, right[0], rkey(right[0]));
      PairedCons(left, right, lkey, rkey);
    }
  }

  lemma PairedCons<R>(left: seq<GeoRow>, right: seq<R>, lkey: GeoRow -> string, rkey: R -> string)
    requires |right| > 0
    ensures Paired(left, right, lkey, rkey)
            == [Joined(FindKey(left, lkey, rkey(right[0])), right[0])] + Paired(left, right[1..], lkey, rkey)
  {
    var a := Paired(left, right, lkey, rkey);
    var b := [Joined(FindKey(left, lkey, rkey(right[0])), right[0])] + Paired(left, right[1..], lkey, rkey);
    forall i | 0 <= i < |a|
      ensures a[i] == b[i]
    {
      if i > 0 {
        assert right[1..][i - 1] == right[i];
      }
    }
  }

  /** With one geography row per key, the join keeps the right rows exactly,
      in order, each with its match or none. */
  lemma RightJoinOneToOne<R>(left: seq<GeoRow>, right: seq<R>, lkey: GeoRow -> string, rkey: R -> string)
    requires KeysDistinct(left, lkey)
    ensures |RightJoin(left, right, lkey, rkey)| == |right|
    ensures forall i :: 0 <= i < |right| ==> RightJoin(left, right, lkey, rkey)[i].right == right[i]
    ensures forall i :: 0 <= i < |right| ==>
              (RightJoin(left, right, lkey, rkey)[i].left.Some? <==>
                 exists x :: x in left && lkey(x) == rkey(right[i]))
    ensures forall i :: 0 <= i < |right| && RightJoin(left, right, lkey, rkey)[i].left.Some? ==>
              RightJoin(left, right, lkey, rkey)[i].left.value in left
              && lkey(RightJoin(left, right, lkey, rkey)[i].left.value) == rkey(right[i])
  {
    RightJoinPaired(left, right, lkey, rkey);
  }

  function GeoCode(g: GeoRow): string {
    g.code
  }

  function GeoNom(g: GeoRow): string {
    g.nom
  }

  function UrgenceCode(u: Urgence): string {
    u.deptCode
  }

  function CouvertureName(c: Couverture): string {
    c.departement
  }

  /** `merge_urgences_geo`: geography joined to every emergency row on the
      department code. */
  function MergeUrgencesGeo(geo: seq<GeoRow>, us: seq<Urgence>): (js: seq<Joined<Urgence>>)
    ensures |js| >= |us|
    ensures forall j :: 0 <= j < |js| ==> js[j].right in us
    ensures forall j :: 0 <= j < |js| ==> Agrees(geo, GeoCode, js[j], UrgenceCode(js[j].right))
  {
    RightJoin(geo, us, GeoCode, UrgenceCode)
  }

  /** `merge_couverture_geo`: geography joined to every coverage row on the
      department name. */
  function MergeCouvertureGeo(geo: seq<GeoRow>, cs: seq<Couverture>): (js: seq<Joined<Couverture>>)
    ensures |js| >= |cs|
    ensures forall j :: 0 <= j < |js| ==> js[j].right in cs
    ensures forall j :: 0 <= j < |js| ==> Agrees(geo, GeoNom, js[j], CouvertureName(js[j].right))
  {
    RightJoin(geo, cs, GeoNom, CouvertureName)
  }

  /** Every emergency row survives the join: with one geography row per code
      the rows come out one for one, in order. */
  lemma UrgencesAllKept(geo: seq<GeoRow>, us: seq<Urgence>)
    requires KeysDistinct(geo, GeoCode)
    ensures |MergeUrgencesGeo(geo, us)| == |us|
    ensures forall i :: 0 <= i < |us| ==> MergeUrgencesGeo(geo, us)[i].right == us[i]
  {
    RightJoinOneToOne(geo, us, GeoCode, UrgenceCode);
  }

  /** Every coverage row survives the join: with one geography row per name
      the rows come out one for one, in order. */
  lemma CouverturesAllKept(geo: seq<GeoRow>, cs: seq<Couverture>)
    requires KeysDistinct(geo, GeoNom)
    ensures |MergeCouvertureGeo(geo, cs)| == |cs|
    ensures forall i :: 0 <= i < |cs| ==> MergeCouvertureGeo(geo, cs)[i].right == cs[i]
  {
    RightJoinOneToOne(geo, cs, GeoNom, CouvertureName);
  }
}

=== FILE: urgences_by_date.dfy ===
/** The stacked weekly emergency-rate chart (`UrgencesParAnnee`): records of
    the five canonical age bands are grouped by day and band; every band gets
    one value per day (the mean, or 0 when the band has no record that day);
    the bands are stacked in ascending order of their series' average. The
    browser's date handling (parsing, local year, ISO day key) is the
    parameter `parse`. */
module UrgencesByDate {
  import opened Wrappers
  import opened Records
  import Grouping
  import Sorting

  /** A parsed date: its calendar year (`getFullYear()`) and its day key
      (`toISOString().split('T')[0]`). */
  datatype Day = Day(year: int, key: string)

  /** The record's date: none for a falsy string, otherwise the browser's
      parse (none for an invalid date). */
  function ResolveDay(date: string, parse: string -> Option<Day>): (d: Option<Day>)
    ensures !Truthy(date) ==> d.None?
  {
    if Truthy(date) then parse(date) else None
  }

  /** A valid date, one of the five canonical bands, a year in range. */
  predicate Contributes(r: UrgenceRecord, range: TimeRange, parse: string -> Option<Day>) {
    var d := ResolveDay(r.date, parse);
    d.Some? && AgeBand(r) in AgeOrder && InRange(d.value.year, range)
  }

  function Keep(range: TimeRange, parse: string -> Option<Day>): UrgenceRecord -> bool {
    r => Contributes(r, range, parse)
  }

  function DateKey(parse: string -> Option<Day>): UrgenceRecord -> string {
    (r: UrgenceRecord) => ResolveDay(r.date, parse).GetOr(Day(0, "")).key
  }

  function CellKey(parse: string -> Option<Day>): UrgenceRecord -> (string, string) {
    (r: UrgenceRecord) => (ResolveDay(r.date, parse).GetOr(Day(0, "")).key, AgeBand(r))
  }

  /** `item.tauxGrippe || 0`. */
  function Rate(r: UrgenceRecord): real {
    OrZero(r.tauxGrippe)
  }

  /** Some contributing record falls on day `d`. */
  predicate HasDate(rs: seq<UrgenceRecord>, range: TimeRange, parse: string -> Option<Day>, d: string) {
    Grouping.AnyKept(rs, Keep(range, parse), DateKey(parse), d)
  }

  /** Some contributing record of band `a` falls on day `d`. */
  predicate HasCell(rs: seq<UrgenceRecord>, range: TimeRange, parse: string -> Option<Day>, d: string, a: string) {
    Grouping.AnyKept(rs, Keep(range, parse), CellKey(parse), (d, a))
  }

  /** The value of band `a` on day `d`: the sum of its rates over their
      number, or 0 without a record. */
  function CellMean(rs: seq<UrgenceRecord>, range: TimeRange, parse: string -> Option<Day>, d: string, a: string)
    : real
  {
    if HasCell(rs, range, parse, d, a) then
      Grouping.SelectMean(rs, Keep(range, parse), CellKey(parse), Rate, (d, a));
      Grouping.KeptSum(rs, Keep(range, parse), CellKey(parse), Rate, (d, a))
        / (Grouping.KeptCount(rs, Keep(range, parse), CellKey(parse), (d, a)) as real)
    else 0.0
  }

  /** `Array.from(dateAgeGroups.keys()).sort()`. */
  function Dates(rs: seq<UrgenceRecord>, range: TimeRange, parse: string -> Option<Day>): (ds: seq<string>)
    ensures Sorting.StrictlyAscending(ds)
    ensures forall d :: d in ds <==> HasDate(rs, range, parse, d)
  {
    var es := Grouping.Select(rs, Keep(range, parse), DateKey(parse), Rate);
    forall d
      ensures Grouping.HasKey(es, d) <==> HasDate(rs, range, parse, d)
    {
      Grouping.SelectHasKey(rs, Keep(range, parse), DateKey(parse), Rate, d);
    }
    var ks := Grouping.Keys(es);
    Sorting.SortStringsAscending(ks);
    var ds := Sorting.SortStrings(ks);
    forall d
      ensures d in ds <==> d in ks
    {
      assert d in ds <==> d in multiset(ds);
      assert d in ks <==> d in multiset(ks);
    }
    ds
  }

  /** `seriesData[a].taux`: band `a`'s value on every day. */
  function Series(rs: seq<UrgenceRecord>, range: TimeRange, parse: string -> Option<Day>, a: string): (taux: seq<real>)
    ensures |taux| == |Dates(rs, range, parse)|
    ensures forall i :: 0 <= i < |taux| ==> taux[i] == CellMean(rs, range, parse, Dates(rs, range, parse)[i], a)
  {
    var ds := Dates(rs, range, parse);
    seq(|ds|, i requires 0 <= i < |ds| => CellMean(rs, range, parse, ds[i], a))
  }

  function Sum(xs: seq<real>): real
    decreases |xs|
  {
    if |xs| == 0 then 0.0 else xs[0] + Sum(xs[1..])
  }

  /** `ageAverages[a]`: the mean of the band's series, 0 with no days. */
  function Average(rs: seq<UrgenceRecord>, range: TimeRange, parse: string -> Option<Day>, a: string): real {
    var taux := Series(rs, range, parse, a);
    if |taux| > 0 then Sum(taux) / (|taux| as real) else 0.0
  }

  function AverageKey(rs: seq<UrgenceRecord>, range: TimeRange, parse: string -> Option<Day>): string -> real {
    a => Average(rs, range, parse, a)
  }

  /** `[...validAges].sort((a, b) => ageAverages[a] - ageAverages[b])`. */
  function StackingOrder(rs: seq<UrgenceRecord>, range: TimeRange, parse: string -> Option<Day>): (s: seq<string>)
    ensures multiset(s) == multiset(AgeOrder)
    ensures Sorting.SortedBy(s, AverageKey(rs, range, parse))
  {
    Sorting.SortByIsSorted(AgeOrder, AverageKey(rs, range, parse));
    Sorting.SortBy(AgeOrder, AverageKey(rs, range, parse))
  }

  /** When every band has the same average (in particular when there is no
      day at all) the bands stack in canonical order. */
  lemma EqualAveragesKeepCanonicalOrder(rs: seq<UrgenceRecord>, range: TimeRange, parse: string -> Option<Day>)
    requires forall i :: 0 <= i < |AgeOrder| ==>
               Average(rs, range, parse, AgeOrder[i]) == Average(rs, range, parse, AgeOrder[0])
    ensures StackingOrder(rs, range, parse) == AgeOrder
  {
    Sorting.SortByEqualKeys(AgeOrder, AverageKey(rs, range, parse), Average(rs, range, parse, AgeOrder[0]));
  }

  lemma NoDaysKeepCanonicalOrder(rs: seq<UrgenceRecord>, range: TimeRange, parse: string -> Option<Day>)
    requires |Dates(rs, range, parse)| == 0
    ensures StackingOrder(rs, range, parse) == AgeOrder
  {
    EqualAveragesKeepCanonicalOrder(rs, range, parse);
  }

  /** One band's series as plotted. */
  datatype SeriesData = SeriesData(dates: seq<string>, taux: seq<real>)

  datatype Evolution = Evolution(dates: seq<string>, seriesData: map<string, SeriesData>, stackingOrder: seq<string>)

  /** `evolutionData`: null for an absent or empty list; otherwise the
      ascending days, a full series for each canonical band, and the stacking
      order. */
  function EvolutionData(data: Option<seq<UrgenceRecord>>, range: TimeRange, parse: string -> Option<Day>)
    : (e: Option<Evolution>)
    ensures e.None? <==> AbsentOrEmpty(data)
    ensures e.Some? ==> Sorting.StrictlyAscending(e.value.dates)
    ensures e.Some? ==> forall d :: d in e.value.dates <==> HasDate(data.value, range, parse, d)
    ensures e.Some? ==> forall a :: a in e.value.seriesData <==> a in AgeOrder
    ensures e.Some? ==> forall a :: a in e.value.seriesData ==>
              e.value.seriesData[a].dates == e.value.dates
              && |e.value.seriesData[a].taux| == |e.value.dates|
              && forall i :: 0 <= i < |e.value.dates| ==>
                   e.value.seriesData[a].taux[i] == CellMean(data.value, range, parse, e.value.dates[i], a)
    ensures e.Some? ==> multiset(e.value.stackingOrder) == multiset(AgeOrder)
    ensures e.Some? ==> Sorting.SortedBy(e.value.stackingOrder, AverageKey(data.value, range, parse))
  {
    if AbsentOrEmpty(data) then None
    else
      var rs := data.value;
      Some(Evolution(Dates(rs, range, parse), SeriesMap(rs, range, parse), StackingOrder(rs, range, parse)))
  }

  /** `seriesData`: one series per canonical band, each over every day. */
  function SeriesMap(rs: seq<UrgenceRecord>, range: TimeRange, parse: string -> Option<Day>)
    : (m: map<string, SeriesData>)
    ensures forall a :: a in m <==> a in AgeOrder
    ensures forall a :: a in m ==> m[a] == SeriesData(Dates(rs, range, parse), Series(rs, range, parse, a))
  {
    map a | a in AgeOrder :: SeriesData(Dates(rs, range, parse), Series(rs, range, parse, a))
  }
}

=== FILE: urgences_map.dfy ===
/** The emergency-visit map (`ChoroplethUrgences`): records are grouped by
    department NAME, each name is given the code of its first contributing
    record, and the names' means are written under those codes in the order
    the names first appeared, so a later name overwrites an earlier one that
    shares its code. */
module UrgencesMap {
  import opened Wrappers
  import opened Records
  import Grouping

  /** Name and code present, a rate that is a number, a year in range. */
  predicate Contributes(r: UrgenceRecord, range: TimeRange, native: string -> Option<int>) {
    Truthy(r.nom) && Truthy(r.code) && IsNumber(r.tauxGrippe)
    && YearInRange(ResolveYear(r.date, native), range)
  }

  function Keep(range: TimeRange, native: string -> Option<int>): UrgenceRecord -> bool {
    r => Contributes(r, range, native)
  }

  function Nom(r: UrgenceRecord): string {
    r.nom
  }

  function Rate(r: UrgenceRecord): real {
    OrZero(r.tauxGrippe)
  }

  /** Some record of `rs` contributes under name `nom`. */
  predicate NameHasData(rs: seq<UrgenceRecord>, range: TimeRange, native: string -> Option<int>, nom: string) {
    Grouping.AnyKept(rs, Keep(range, native), Nom, nom)
  }

  /** `nomToCode.get(nom)`: the code of the first contributing record under
      name `nom`. */
  function CodeOf(rs: seq<UrgenceRecord>, range: TimeRange, native: string -> Option<int>, nom: string): string
    requires NameHasData(rs, range, native, nom)
  {
    rs[Grouping.FirstKept(rs, Keep(range, native), Nom, nom)].code
  }

  /** The names that have data, in order of first appearance: the iteration
      order of `deptGroupsByName`. */
  function Names(rs: seq<UrgenceRecord>, range: TimeRange, native: string -> Option<int>): (ns: seq<string>)
    ensures forall nom :: nom in ns <==> NameHasData(rs, range, native, nom)
    ensures forall i :: 0 <= i < |ns| ==> NameHasData(rs, range, native, ns[i])
    ensures forall i, j :: 0 <= i < j < |ns| ==> Grouping.SeenBefore(rs, Keep(range, native), Nom, ns[i], ns[j])
  {
    Grouping.SelectKeysInRecordOrder(rs, Keep(range, native), Nom, Rate);
    Grouping.Keys(Grouping.Select(rs, Keep(range, native), Nom, Rate))
  }

  /** Sum of the name's contributing rates over their number. */
  function NameMean(rs: seq<UrgenceRecord>, range: TimeRange, native: string -> Option<int>, nom: string): real
    requires NameHasData(rs, range, native, nom)
  {
    Grouping.SelectMean(rs, Keep(range, native), Nom, Rate, nom);
    Grouping.KeptSum(rs, Keep(range, native), Nom, Rate, nom)
      / (Grouping.KeptCount(rs, Keep(range, native), Nom, nom) as real)
  }

  /** The `result[code] = mean` assignments, one per name with data, in the
      order the names first appear: the `i`-th pairs the (non-empty) code of
      the name's first contributing record with the sum of the name's rates
      over their number. */
  function Assignments(rs: seq<UrgenceRecord>, range: TimeRange, native: string -> Option<int>)
    : (ps: seq<(string, real)>)
    ensures |ps| == |Names(rs, range, native)|
    ensures forall i :: 0 <= i < |ps| ==>
              var nom := Names(rs, range, native)[i];
              var first := Grouping.FirstKept(rs, Keep(range, native), Nom, nom);
              NameHasData(rs, range, native, nom)
              && ps[i].0 == rs[first].code && Truthy(ps[i].0)
              && Grouping.KeptCount(rs, Keep(range, native), Nom, nom) > 0
              && ps[i].1 == Grouping.KeptSum(rs, Keep(range, native), Nom, Rate, nom)
                            / (Grouping.KeptCount(rs, Keep(range, native), Nom, nom) as real)
    ensures forall i, j :: 0 <= i < j < |ps| ==>
              Grouping.SeenBefore(rs, Keep(range, native), Nom, Names(rs, range, native)[i], Names(rs, range, native)[j])
  {
    var ns := Names(rs, range, native);
    seq(|ns|, i requires 0 <= i < |ns| => Assignment(rs, range, native, ns[i]))
  }

  /** The assignment of one name: its code and its mean. */
  function Assignment(rs: seq<UrgenceRecord>, range: TimeRange, native: string -> Option<int>, nom: string)
    : (p: (string, real))
    requires NameHasData(rs, range, native, nom)
    ensures p.0 == rs[Grouping.FirstKept(rs, Keep(range, native), Nom, nom)].code && Truthy(p.0)
    ensures Grouping.KeptCount(rs, Keep(range, native), Nom, nom) > 0
    ensures p.1 == Grouping.KeptSum(rs, Keep(range, native), Nom, Rate, nom)
                   / (Grouping.KeptCount(rs, Keep(range, native), Nom, nom) as real)
  {
    assert Contributes(rs[Grouping.FirstKept(rs, Keep(range, native), Nom, nom)], range, native);
    Grouping.SelectMean(rs, Keep(range, native), Nom, Rate, nom);
    (CodeOf(rs, range, native, nom), NameMean(rs, range, native, nom))
  }

  /** Some name with data was given `code`. */
  ghost predicate CodeHasName(rs: seq<UrgenceRecord>, range: TimeRange, native: string -> Option<int>, code: string) {
    exists nom :: NameHasData(rs, range, native, nom) && CodeOf(rs, range, native, nom) == code
  }

  lemma AssignedCodes(rs: seq<UrgenceRecord>, range: TimeRange, native: string -> Option<int>, code: string)
    ensures Grouping.HasFirst(Assignments(rs, range, native), code) <==> CodeHasName(rs, range, native, code)
    ensures CodeHasName(rs, range, native, code) ==> Truthy(code)
  {
    if Grouping.HasFirst(Assignments(rs, range, native), code) {
      AssignedCodeHasName(rs, range, native, code);
    }
    if CodeHasName(rs, range, native, code) {
      NamedCodeAssigned(rs, range, native, code);
    }
  }

  lemma AssignedCodeHasName(rs: seq<UrgenceRecord>, range: TimeRange, native: string -> Option<int>, code: string)
    requires Grouping.HasFirst(Assignments(rs, range, native), code)
    ensures CodeHasName(rs, range, native, code)
  {
    var ns := Names(rs, range, native);
    var ps := Assignments(rs, range, native);
    var i :| 0 <= i < |ps| && ps[i].0 == code;
    assert NameHasData(rs, range, native, ns[i]) && CodeOf(rs, range, native, ns[i]) == code;
  }

  lemma NamedCodeAssigned(rs: seq<UrgenceRecord>, range: TimeRange, native: string -> Option<int>, code: string)
    requires CodeHasName(rs, range, native, code)
    ensures Grouping.HasFirst(Assignments(rs, range, native), code) && Truthy(code)
  {
    var ns := Names(rs, range, native);
    var ps := Assignments(rs, range, native);
    var nom :| NameHasData(rs, range, native, nom) && CodeOf(rs, range, native, nom) == code;
    assert nom in ns;
    var i :| 0 <= i < |ns| && ns[i] == nom;
    assert ps[i].0 == code;
    assert Contributes(rs[Grouping.FirstKept(rs, Keep(range, native), Nom, nom)], range, native);
  }

  lemma LastAssignment(rs: seq<UrgenceRecord>, range: TimeRange, native: string -> Option<int>, i: int)
    requires LastOfItsCode(rs, range, native, i)
    ensures Grouping.IsLast(Assignments(rs, range, native), i)
  {
  }

  /** Name `nom` has data, and no other name with data that was given the
      same code appeared later. */
  ghost predicate LatestOfItsCode(rs: seq<UrgenceRecord>, range: TimeRange, native: string -> Option<int>, nom: string) {
    NameHasData(rs, range, native, nom)
    && forall other :: NameHasData(rs, range, native, other) && CodeOf(rs, range, native, other) == CodeOf(rs, range, native, nom)
         ==> Grouping.FirstKept(rs, Keep(range, native), Nom, other) <= Grouping.FirstKept(rs, Keep(range, native), Nom, nom)
  }

  /** The latest name of a code is the last name carrying it in `Names`. */
  lemma LatestIsLast(rs: seq<UrgenceRecord>, range: TimeRange, native: string -> Option<int>, nom: string) returns (i: int)
    requires LatestOfItsCode(rs, range, native, nom)
    ensures LastOfItsCode(rs, range, native, i) && Names(rs, range, native)[i] == nom
  {
    var ns := Names(rs, range, native);
    assert nom in ns;
    i :| 0 <= i < |ns| && ns[i] == nom;
    forall j | i < j < |ns|
      ensures CodeOf(rs, range, native, ns[j]) != CodeOf(rs, range, native, nom)
    {
      assert ns[j] in ns;
      assert Grouping.SeenBefore(rs, Keep(range, native), Nom, ns[i], ns[j]);
    }
  }

  /** `dataByDept`. A code is present exactly when it is the first code of
      some name with data; under it stands the mean of the last such name (in
      first-appearance order, so the name whose first contributing record
      comes latest); every code present is non-empty. */
  function DataByDept(data: Option<seq<UrgenceRecord>>, range: TimeRange, native: string -> Option<int>)
    : (m: map<string, real>)
    ensures AbsentOrEmpty(data) ==> m == map[]
    ensures forall code :: code in m <==> data.Some? && CodeHasName(data.value, range, native, code)
    ensures forall code :: code in m ==> Truthy(code)
    ensures forall i :: data.Some? && LastOfItsCode(data.value, range, native, i) ==>
              var nom := Names(data.value, range, native)[i];
              CodeOf(data.value, range, native, nom) in m
              && m[CodeOf(data.value, range, native, nom)] == NameMean(data.value, range, native, nom)
    ensures forall nom :: data.Some? && LatestOfItsCode(data.value, range, native, nom) ==>
              CodeOf(data.value, range, native, nom) in m
              && m[CodeOf(data.value, range, native, nom)] == NameMean(data.value, range, native, nom)
  {
    if data.None? then map[]
    else
      var rs := data.value;
      WrittenCodes(rs, range, native);
      WrittenLast(rs, range, native);
      WrittenLatest(rs, range, native);
      Written(rs, range, native)
  }

  /** The object the loop writes: each name's assignment in turn. */
  function Written(rs: seq<UrgenceRecord>, range: TimeRange, native: string -> Option<int>): map<string, real> {
    Grouping.LastWins(Assignments(rs, range, native))
  }

  lemma WrittenCodes(rs: seq<UrgenceRecord>, range: TimeRange, native: string -> Option<int>)
    ensures forall code :: code in Written(rs, range, native) <==> CodeHasName(rs, range, native, code)
    ensures forall code :: code in Written(rs, range, native) ==> Truthy(code)
  {
    var ps := Assignments(rs, range, native);
    forall code
      ensures Grouping.HasFirst(ps, code) <==> CodeHasName(rs, range, native, code)
      ensures CodeHasName(rs, range, native, code) ==> Truthy(code)
    {
      AssignedCodes(rs, range, native, code);
    }
  }

  lemma WrittenLast(rs: seq<UrgenceRecord>, range: TimeRange, native: string -> Option<int>)
    ensures forall i :: LastOfItsCode(rs, range, native, i) ==>
              var nom := Names(rs, range, native)[i];
              CodeOf(rs, range, native, nom) in Written(rs, range, native)
              && Written(rs, range, native)[CodeOf(rs, range, native, nom)] == NameMean(rs, range, native, nom)
  {
    forall i | LastOfItsCode(rs, range, native, i)
      ensures Grouping.IsLast(Assignments(rs, range, native), i)
    {
      LastAssignment(rs, range, native, i);
    }
  }

  lemma WrittenLatest(rs: seq<UrgenceRecord>, range: TimeRange, native: string -> Option<int>)
    ensures forall nom :: LatestOfItsCode(rs, range, native, nom) ==>
              CodeOf(rs, range, native, nom) in Written(rs, range, native)
              && Written(rs, range, native)[CodeOf(rs, range, native, nom)] == NameMean(rs, range, native, nom)
  {
    var ps := Assignments(rs, range, native);
    forall nom | LatestOfItsCode(rs, range, native, nom)
      ensures CodeOf(rs, range, native, nom) in Grouping.LastWins(ps)
              && Grouping.LastWins(ps)[CodeOf(rs, range, native, nom)] == NameMean(rs, range, native, nom)
    {
      var i := LatestIsLast(rs, range, native, nom);
      LastAssignment(rs, range, native, i);
    }
  }

  /** No name after the `i`-th (in first-appearance order) was given the same code. */
  predicate LastOfItsCode(rs: seq<UrgenceRecord>, range: TimeRange, native: string -> Option<int>, i: int) {
    var ns := Names(rs, range, native);
    0 <= i < |ns|
    && forall j :: i < j < |ns| ==> CodeOf(rs, range, native, ns[j]) != CodeOf(rs, range, native, ns[i])
  }
}

=== FILE: wrappers.dfy ===
/** Failure-carrying datatypes, and the one integer helper, shared by the modules of the model. */
module Wrappers {

  /** A nullable value: `None` stands for JavaScript `null`/`undefined` or a pandas NaN. */
  datatype Option<+T> = None | Some(value: T) {

    /** The value, or `default` when there is none (JavaScript `??`, pandas `fillna`). */
    function GetOr(default: T): T {
      match this
      case Some(v) => v
      case None => default
    }
  }

  /** A computation that either succeeds or raises. */
  datatype Result<+T, +E> = Ok(value: T) | Err(error: E)

  /** The smaller of two integers: the bound at which `slice` and `[:n]` stop. */
  function Min(a: int, b: int): int {
    if a < b then a else b
  }
}
